=== FILE: README.md ===
# A Dafny model of a small Kademlia peer

This project models the core of a Java Kademlia node. The node keeps a
binary-trie routing table of buckets, exchanges UDP datagrams of at most 512
bytes, and makes some messages reliable through acknowledgement threads that
resend three times before giving up. It stores key→owner pairs and transfers
small files in chunks that the receiver puts back together. The model fixes
`Node.ID_BITS` at 8, so an identifier is one octet (`bv8`).

Modules follow the source files:

- `Identifier` models `Identifier`: bit positions, XOR distance, bytes and string.
- `NodeIdentifier` models `NodeIdentifier`, the 9-byte ⟨address, port, id⟩ triple.
- `BufferUtil` models `ByteBuffer`'s position and limit, `BufferUtil.clone` and `addrToBytes`.
- `Buckets` models `Bucket`: insert with split, and the PING callbacks `update`/`remove`.
- `RoutingTable` models `RoutingTableImpl`: the trie plus the flat set, and `getClosestNodesTo`.
- `Acks` models `Ack` and its timeout thread as a state machine driven by `Tick` and `Recv` events.
- `Wire` models `MessageType`, the frame layout, and the NODES / VALUE_NODES payload.
- `DataFrame` models the `fid-count-index-content` text of DATA chunks and their reassembly.
- `Ledger` models `Node.rpcs`, `createRPCID` and `receivedRPC`.
- `Node` models the `send*` operations, `updateBuckets`, `store`, `findValue`, `leave` and `sendData`.
- `UdpHandler` models one pass of `UDPHandler.run` and every `receive*` handler.

The `Decimal`, `Bytes` and `Wrappers` modules support the others. `Decimal`
covers `Integer.parseInt` and `BigInteger.toString`. `Bytes` covers signed
bytes, big-endian `putInt`/`getInt` and the one-byte-per-char text encoding.
`Wrappers` supplies `Option`.

A Java `RuntimeException` escapes `UDPHandler.run`, which only catches
`IOException`. Examples are a buffer underflow, a `NumberFormatException`, a
frame longer than 512 bytes, or a VALUE_NODES reply while no search is
running. Each one ends the listener thread. The model sets the state's
`halted` flag for these, and `UdpHandler.Receive` ignores every datagram
after that. The Ack threads keep running: `Node.Timeout` and
`Node.ApplyOutputs` do not look at the flag, so resends and callbacks still
happen. The operations started from the command line do look at it, which
the source does not (see "## Left out"). Sockets,
clocks and random draws are parameters. A received datagram is an argument
to `UdpHandler.Receive`. An outgoing one is an element of the `sent` list. A
timeout period is a `Tick` event. A random RPC id is a scan that starts from
a seed.

The project's own description differs from the code in several places.
The model follows the code in each of them:

- An Ack that gave up is never removed from `rpcs`. Only `receivedRPC` removes Acks (Node.java:426-452), so `hasAcks` stays true (`Ledger.Timeout`, `Ledger.KeysNeverRemoved`).
- `Ack.check` compares identifiers only, not addresses (Ack.java:63-65). An answer from a known node at a new address therefore resolves its Ack (`Ledger.AnswerIgnoresAddress`).
- `getClosestNodesTo` decides by the table's `k` whether to return everything. When there are more entries than `k`, it cuts the result at `Node.BUCKET_SIZE` (RoutingTableImpl.java:41-60, `RoutingTable.Closest`).
- Retransmissions after the first are empty datagrams, not copies of the message (Finding 2 below).
- `receiveData` splits the whole datagram's text, header octets included, not the payload alone. A file of several chunks is therefore never put back together (Finding 3 below).

An identifier whose value is 0 encodes as zero bytes, because
`BitSet.toByteArray` of an empty set is empty. A frame sent by node 0
therefore has a header one byte shorter, and the receiver reads the RPC id
as the sender (`Wire.ZeroSenderShiftsHeader`). Inside a 9-byte triple the
unused byte stays 0, so triples are not affected.

## Model

| member | source | states |
|---|---|---|
| Decimal.ParseIntOfDecimal | src/node/UDPHandler.java:236-242 | `Integer.parseInt` reads back the decimal text of every count or index up to `Integer.MAX_VALUE` |
| Decimal.DecimalInjective | src/node/Identifier.java:108-110 | two numbers have the same decimal text exactly when they are equal |
| Bytes.Int32RoundTrip | src/node/UDPHandler.java:41-52 | `getInt` gives back every int that `putInt` wrote in four big-endian bytes |
| Bytes.OfIntSigned | src/util/BufferUtil.java:20-24 | storing an octet's signed value puts back the same octet |
| Bytes.SignedOfInt | src/node/UDPHandler.java:44-45 | a value in -128..127 put into a byte reads back as that value (the address parts printed by `getIPFromBuffer`) |
| Bytes.TextRoundTrip | src/node/Node.java:248-256 | decoding the bytes of a text whose chars are all below 256 gives back the text |
| Identifier.BitsDetermineId | src/node/Identifier.java:71-78 | identifiers that agree at every MSB-first position are equal, so the documented bit reading separates identifiers |
| Identifier.XorBitAt | src/node/Identifier.java:65-69 | a bit of the XOR distance is set exactly where the two identifiers differ |
| Identifier.LeadingZerosAreClear | src/node/Identifier.java:80-85 | positions before the first set bit are clear, so the early `false` of `isBitSetAt` is right |
| Identifier.SrcBitAtAgreesWhenTopBitSet | src/node/Identifier.java:79-88 | when bit 0 (weight 128) is set, `isBitSetAt` as written reads the documented bit at every position |
| Identifier.SrcBitAtReadsShiftedPosition | src/node/Identifier.java:87 | past the leading zeros, `isBitSetAt` as written reads position `i + 2·zeros` instead of `i` |
| Identifier.SrcBitAtWrongAt64 | src/node/Identifier.java:79-88 | for the value 64, position 1 is set but `isBitSetAt(1)` returns false |
| Identifier.SrcBitAtThrowsAt64 | src/node/Identifier.java:87 | for the value 64, `isBitSetAt(6)` asks `BitSet.get` for a negative index |
| Identifier.Distance | src/node/Identifier.java:65-69 | the XOR distance is below 256 and is zero exactly between equal identifiers |
| Identifier.DistanceSymmetric | src/node/Identifier.java:65-69 | the distance from a to b equals the distance from b to a |
| Identifier.DistanceInjective | src/node/Identifier.java:65-69 | seen from one identifier, different identifiers lie at different distances |
| Identifier.AtDistance | src/routingtable/RoutingTableImpl.java:45-54 | every distance below 256 from a target is reached by the identifier returned, so the sort by distance can enumerate identifiers by distance |
| Identifier.StaticIdentifier | src/node/Identifier.java:39-43 | only `BitSet` bit `size-1` is set, which makes the value 128, the middle of the space |
| Identifier.GetBytes | src/node/Identifier.java:90-92 | at most one octet, none exactly for 0, and the constructor reads the identifier back from it |
| Identifier.ToStringMatchesEquals | src/node/Identifier.java:94-110 | two identifiers print the same exactly when `equals` holds |
| Identifier.KeyInjective | src/node/Identifier.java:94-101 | the numeric key of an identifier determines it, so maps keyed by it follow `equals` |
| BufferUtil.Clone | src/util/BufferUtil.java:8-18 | the original is unchanged, and the copy's remaining bytes are the whole frame from 0 to the original's limit |
| BufferUtil.Transmit | src/node/Node.java:346 | `channel.send` hands over the remaining bytes and leaves nothing remaining |
| BufferUtil.Put | src/util/BufferUtil.java:21-25 | a put fails exactly when the bytes do not fit before the limit, and otherwise writes them at the position and keeps what came before |
| BufferUtil.AddrToBytes | src/util/BufferUtil.java:20-27 | fails exactly when an address part is outside -128..127; otherwise 8 bytes, four octets with the parts' signed values, then the port big-endian |
| NodeIdentifier.TripleBytes | src/node/NodeIdentifier.java:23-30 | defined exactly for encodable addresses: 9 bytes, the address bytes, then the identifier |
| NodeIdentifier.TripleRoundTrip | src/node/UDPHandler.java:69-79 | reading a triple back gives the contact that was written |
| NodeIdentifier.DecodeTriples | src/node/UDPHandler.java:302-307 | a read that ends cleanly consumed a whole number of triples |
| NodeIdentifier.TriplesRoundTrip | src/node/UDPHandler.java:295-307 | reading a run of encoded triples gives back the contacts in order and ends cleanly |
| NodeIdentifier.ZeroTriple | src/node/UDPHandler.java:69-79 | nine zero bytes read as identifier 0 at 0.0.0.0 port 0 |
| Acks.Create | src/message/Ack.java:42-50 | a new Ack waits with no retries and holds the whole sent frame, position 0 to limit |
| Acks.Step | src/message/Ack.java:93-135 | a waiting Ack that gets an answer is delivered and calls `onReceive`; a tick under 3 retries resends the frame; the fourth tick gives up and calls `onTimeout`; a finished Ack ignores events |
| Acks.StepAsWritten | src/message/Ack.java:106-119 | the as-written thread moves through the same phases as the corrected one, with the same callbacks, and its resends go to the same address |
| Acks.RunIgnoresBuffer | src/message/Ack.java:93-135 | what a run does apart from the resends' datagrams depends on the phase, receiver and callback only, never on the buffer |
| Acks.RunAsWritten | src/message/Ack.java:93-135 | the as-written run ends in the same phase as the corrected run and emits the same callbacks at the same places; only the resends' datagrams differ |
| Acks.Unanswered | src/message/Ack.java:93-135 | with no answer the Ack resends the full frame 3 times, then calls `onTimeout` once and stops |
| Acks.AnsweredAfter | src/message/Ack.java:75-84 | an answer after k ≤ 3 resends ends the Ack, with k resends and then one `onReceive` |
| Acks.AtMostOneCallback | src/message/Ack.java:120-134 | any event sequence fires at most one callback, and none while the Ack is still waiting |
| Acks.FinishedIsQuiet | src/message/Ack.java:99-104 | once delivered or exhausted, an Ack ignores every further event |
| Acks.ResendsCarryFrame | src/message/Ack.java:106-119 | every resend goes to the receiver's address with the Ack's frame |
| Acks.NullCallback | src/message/Ack.java:120-134 | an Ack without callback behaves the same but emits only the resends |
| Acks.EmptyResendsAsWritten | src/message/Ack.java:113 | as written, three ticks send the frame once and then two empty datagrams |
| Acks.FullResends | src/message/Ack.java:106-119 | corrected, three ticks send the full frame three times |
| Ledger.CreateRpcId | src/node/Node.java:125-131 | a new RPC id is never already a key of `rpcs`; there is none exactly when all 256 are taken |
| Ledger.Register | src/node/Node.java:353-365 | the Ack joins the end of its id's list, and every other list is unchanged |
| Ledger.ReceivedRpc | src/node/Node.java:426-452 | an Ack is removed exactly when one under the id matches the sender, the first such one, and it is told the answer arrived; keys stay |
| Ledger.Timeout | src/message/Ack.java:93-135 | a timeout steps one Ack in place and removes nothing |
| Ledger.KeysNeverRemoved | src/node/Node.java:373-375 | registering, answering and timing out never remove an RPC id, so `hasAcks` stays true once set |
| Ledger.AtMostOnePreserved | src/node/Node.java:297-300 | with fresh ids there is at most one Ack per id after any of the three operations |
| Ledger.AnswerResolvesFreshRpc | src/node/Node.java:426-452 | the answer to a fresh reliable message removes its Ack and fires `onReceive` exactly once |
| Ledger.StrangerChangesNothing | src/node/Node.java:426-452 | an answer from a node no Ack is waiting on changes nothing |
| Ledger.AnswerIgnoresAddress | src/message/Ack.java:63-65 | an answer from the receiver's identifier at any other address resolves the same Ack and fires the same callback as one from the address the message went to |
| Ledger.ExhaustedStaysExhausted | src/node/Node.java:125-131 | once all 256 RPC ids are keys, no registration, answer or timeout frees one, so every later `createRPCID` finds none |
| Wire.Kind | src/message/MessageType.java:3-19 | every type byte maps back to itself |
| Wire.KindOfCode | src/message/MessageType.java:3-19 | each named type's code reads back as that type |
| Wire.BuildFrame | src/node/Node.java:329-342 | a frame is built exactly when it fits in 512 bytes, and it holds type, sender, RPC id and payload |
| Wire.DecodeFrame | src/node/UDPHandler.java:101-109 | the header is read exactly when there are at least 3 bytes: type, sender id, RPC id |
| Wire.FrameRoundTrip | src/node/UDPHandler.java:101-109 | with non-zero ids, the receiver reads back the type, sender, RPC id and payload that were sent |
| Wire.ZeroSenderShiftsHeader | src/node/UDPHandler.java:101-109 | a frame from identifier 0 is read with the RPC id as sender and the first payload byte as RPC id |
| Wire.NodesPayload | src/node/Node.java:182-214 | the payload keeps 9 bytes per closest contact, including the skipped receiver's slot |
| Wire.Others | src/node/Node.java:198-203 | the receiver is left out of the closest list, and no other contact is |
| Wire.NodesPayloadDecodes | src/node/UDPHandler.java:295-307 | a NODES payload reads back as the closest contacts except the receiver, then zero triples for the skipped slots |
| Buckets.Contains | src/routingtable/Bucket.java:42-47 | true exactly when the identifier is somewhere in the trie |
| Buckets.Insert | src/routingtable/Bucket.java:87-128 | the trie stays valid, gains exactly the new contact, keeps every leaf within k, and never merges a split |
| Buckets.SplitLeaf | src/routingtable/Bucket.java:94-119 | splitting gives children partitioned by the level's bit, each within k, together holding exactly the leaf's contacts |
| Buckets.InsertContains | src/routingtable/Bucket.java:87-128 | after an insert the contact is present, every old contact stays, and the identifiers grow by exactly one |
| Buckets.InsertAppends | src/routingtable/Bucket.java:89-93 | a leaf with room appends the contact at its end |
| Buckets.InsertSplitsFullLeaf | src/routingtable/Bucket.java:94-119 | a full leaf becomes a split at its level, with bit-set contacts on the left and bit-clear ones on the right |
| Buckets.InsertDescends | src/routingtable/Bucket.java:120-126 | a split passes the contact to the child its bit selects and leaves the other child alone |
| Buckets.SrcFilter | src/routingtable/Bucket.java:108-114 | the distribution loop as written completes exactly when `isBitSetAt(level)` throws for no entry, and then keeps only entries of the leaf |
| Buckets.SrcFilterAgreesWhenTopBitSet | src/routingtable/Bucket.java:108-114 | for identifiers of 128 and above the distribution as written and the corrected one give the same children |
| Buckets.SrcFilterBelowZeros | src/routingtable/Bucket.java:108-114 | at a level inside every entry's leading zeros, the distribution as written sends every entry to the bit-clear child |
| Buckets.FilterAllClear | src/routingtable/Bucket.java:108-114 | when the level's bit is clear in every entry, the corrected distribution sends every entry to the bit-clear child |
| Buckets.SrcSplitsOneTwoThree | src/routingtable/Bucket.java:94-119 | identifiers 1, 2 and 3 at bucket size 2, as written: the splits at levels 0 to 5 keep all three together, and the split at level 6 throws |
| Buckets.SplitsOneTwoThree | src/routingtable/Bucket.java:94-119 | the same identifiers, corrected: together down to level 5, and level 6 separates 1 from 2 and 3 |
| Buckets.SrcSplitMisroutes64 | src/routingtable/Bucket.java:108-114 | identifier 64 at a level-1 split goes to the bit-clear child as written, and to the bit-set child when corrected |
| Buckets.RouteFindsAll | src/routingtable/Bucket.java:56-61 | in a sorted trie each contact sits in the leaf its identifier leads to |
| Buckets.Remove | src/routingtable/Bucket.java:73-78 | `onTimeout` deletes the first copy from the contact's leaf and changes nothing else |
| Buckets.RemoveKeepsValid | src/routingtable/Bucket.java:134-144 | removal keeps the trie valid and within k, and takes away exactly that identifier |
| Buckets.Touch | src/routingtable/Bucket.java:65-70 | `onReceive` moves the contact to the front of its leaf and leaves the other leaves alone |
| Buckets.TouchKeepsValid | src/routingtable/Bucket.java:65-70 | moving to the front keeps the trie valid and its shape |
| Buckets.TouchIds | src/routingtable/Bucket.java:65-70 | after `onReceive` the trie's identifiers are the old ones plus the contact |
| Buckets.TouchBounded | src/routingtable/Bucket.java:65-70 | moving a present contact to the front keeps every leaf within k |
| RoutingTable.Contains | src/routingtable/RoutingTableImpl.java:66-68 | membership is asked of the trie, not of the flat set |
| RoutingTable.Insert | src/routingtable/RoutingTableImpl.java:28-35 | a known contact changes nothing and asks for a PING; a new one enters the trie and the flat set; old entries keep their contacts |
| RoutingTable.KnownAtNewAddress | src/routingtable/RoutingTableImpl.java:28-35 | a known identifier heard at a new address leaves the table as it was and asks for a PING to the new address; once answered, the new address heads its leaf and the identifiers are unchanged |
| RoutingTable.AddNew | src/routingtable/RoutingTableImpl.java:30 | the flat set gains the contact's key, keeps a first copy, and keeps every other entry |
| RoutingTable.Refresh | src/routingtable/Bucket.java:65-70 | an answered PING puts the contact at the front of its leaf; the flat set is unchanged |
| RoutingTable.Expire | src/routingtable/Bucket.java:73-78 | an unanswered PING removes the contact from the trie only |
| RoutingTable.ExpireBreaksMirror | src/routingtable/RoutingTableImpl.java:71-73 | after an expiry the flat set still holds a contact the trie lost, because `remove` does nothing |
| RoutingTable.ByDistanceAscending | src/routingtable/RoutingTableImpl.java:45-54 | the sort yields strictly increasing distances to the target |
| RoutingTable.ByDistanceComplete | src/routingtable/RoutingTableImpl.java:45-54 | the sort keeps every entry of the flat set |
| RoutingTable.Closest | src/routingtable/RoutingTableImpl.java:38-63 | up to k entries returns all of them; above k returns `BUCKET_SIZE` entries, nearest first, each closer than every entry left out |
| RoutingTable.InsertIntoRoomyRoot | src/routingtable/Bucket.java:89-93 | a new contact joins the end of a root leaf with room, and the flat set under its key |
| RoutingTable.InsertIntoFullRoot | src/routingtable/Bucket.java:94-119 | a new contact at a full root leaf splits the root at level 0 |
| RoutingTable.ThreeInsertsSplitRoot | src/routingtable/RoutingTableImpl.java:28-35 | inserting 5, 130 and 68 into an empty table of bucket size 2 splits the root, and the flat set holds all three |
| RoutingTable.ThreeInsertsClosest | src/routingtable/RoutingTableImpl.java:38-63 | after those inserts the two closest to 64 are 68 (distance 4) and then 5 (distance 69) |
| RoutingTable.ClosestOfThree | src/routingtable/RoutingTableImpl.java:38-63 | with three entries and bucket size 2, the answer is the nearer two, nearest first |
| DataFrame.JavaSplit | src/node/UDPHandler.java:236 | `split("-")` with no dash gives the whole text; otherwise the pieces with trailing empty ones dropped |
| DataFrame.Parse | src/node/UDPHandler.java:236-242 | a chunk is read exactly when there are at least 4 pieces and count and index parse as ints; name and content are pieces 0 and 3 |
| DataFrame.FormatParse | src/node/Node.java:248-256 | a chunk text reads back as the same chunk exactly when name and content contain no dash and the content is not empty |
| DataFrame.ChunkContents | src/node/Node.java:248-256 | `length / 4` chunks of exactly 4 characters each |
| DataFrame.ChunksCoverData | src/node/Node.java:248-256 | the chunks join to the data up to the last whole chunk, and to all the data exactly when the length is a multiple of 4 |
| DataFrame.Absorb | src/node/UDPHandler.java:250-252 | a chunk index seen before keeps its first content; a new one is added; nothing else changes |
| DataFrame.Receive | src/node/UDPHandler.java:254-264 | the file completes exactly when the buffer holds `count` chunks; then the buffer is dropped, otherwise only that file's buffer changes |
| DataFrame.ReceiveStep | src/node/UDPHandler.java:234-271 | each chunk of a permuted delivery adds to the buffer, and the last one yields the joined file |
| DataFrame.ReassemblyOrderIndependent | src/node/UDPHandler.java:234-271 | delivering a file's chunks in any order yields the file exactly once and leaves the other buffers as they were |
| DataFrame.SendDataReassembles | src/node/Node.java:240-257 | the chunk texts `sendData` produces parse back to their chunks, and in any order reassemble to the data up to the last whole chunk, when parsed from the payload alone |
| Node.Init | src/node/Node.java:55-68 | a new node starts running, with an empty, valid routing table of bucket size k, no pending RPCs, nothing stored, no search under way, and its generator at the seed |
| Node.FreshNodeKnowsNothing | src/node/Node.java:55-68 | a fresh node contains no contact and holds no key, and its first RPC id is the seed itself |
| Node.Send | src/node/Node.java:325-367 | a frame over 512 bytes stops the node; otherwise exactly one message goes out, and a reliable one registers an Ack with the frame under its RPC id |
| Node.SendFresh | src/node/Node.java:297-300 | at most one message, under an RPC id new to the ledger, registered when reliable |
| Node.SendBatch | src/node/Node.java:216-224 | one message per recipient with the same payload, under pairwise different fresh RPC ids |
| Node.UpdateBuckets | src/node/Node.java:381-383 | a new contact is inserted with nothing sent; a known one gets a reliable PING whose Ack calls back with that contact |
| Node.UpdateAll | src/node/UDPHandler.java:302-307 | after updating with a list, every contact in it is in the trie unless the node stopped |
| Node.ApplyOne | src/routingtable/Bucket.java:65-78 | `onReceive` adds the contact to the trie, `onTimeout` removes it, a resend changes nothing |
| Node.ReceivedRpc | src/node/Node.java:426-452 | an answer sends nothing, keeps every RPC id, and changes the node only when an Ack matched |
| Node.AnswerOutputs | src/message/Ack.java:129-134 | an answer's outputs are all `onReceive`, with no resend |
| Node.Timeout | src/message/Ack.java:93-135 | a waiting Ack with resends left retransmits its frame to the receiver; the tick after the last resend sends nothing, and a PING callback then evicts the contact from the trie (Bucket.java:72-78); every other tick leaves the table alone; the flat set never changes; the ledger changes as `Ledger.Timeout` says |
| Node.ApplyTick | src/routingtable/Bucket.java:72-78 | one tick applied to the peer: a resend changes nothing, giving up with a PING callback removes exactly the pinged identifier from the trie, and a finished Ack does nothing |
| Node.Join | src/node/Node.java:111-117 | after joining, the peer is in the trie and the last message is a reliable FIND_NODE for the node's own id |
| Node.Store | src/node/Node.java:397-407 | the node records itself as the key's owner and sends a reliable STORE to each closest contact |
| Node.StorePair | src/node/Node.java:393-395 | the key maps to the owner, other keys keep theirs, nothing else changes |
| Node.HasKey | src/node/Node.java:418-420 | a key is known exactly when storing some owner for it would change nothing |
| Node.StoreData | src/node/Node.java:465-469 | the key maps to the text, other keys keep theirs |
| Node.FindValues | src/node/Node.java:143-155 | a search remembers its key and sends a reliable FIND_VALUE to each contact given |
| Node.FindValue | src/node/Node.java:409-416 | a lookup asks each closest contact with a reliable FIND_VALUE |
| Node.SendDataReq | src/node/Node.java:230-238 | nothing happens without a previous responder; otherwise one reliable DATA_REQ goes to it |
| Node.Leave | src/node/Node.java:454-463 | every entry of the flat set gets an unreliable LEAVE |
| Node.SendClosestNodesTo | src/node/Node.java:182-214 | one unreliable NODES or VALUE_NODES answer under the asker's RPC id, carrying the closest contacts |
| Node.SendData | src/node/Node.java:240-257 | an unknown key sends nothing; otherwise one reliable DATA message per whole chunk |
| UdpHandler.ReadId | src/node/UDPHandler.java:54-61 | an identifier is read exactly when a byte remains, and it is that byte |
| UdpHandler.NarrowKey | src/node/UDPHandler.java:245 | the file key is the first byte of the file name, or 0 for an empty name |
| UdpHandler.AckAfter | src/node/Node.java:226-228 | a running node appends one unreliable ACK under the asker's RPC id |
| UdpHandler.FindNodeAnswered | src/node/UDPHandler.java:317-324 | FIND_NODE with no target stops the node; otherwise one NODES answer with the closest contacts to the target |
| UdpHandler.NodesLearned | src/node/UDPHandler.java:295-315 | every contact in a NODES reply ends up in the trie; a truncated triple stops the node |
| UdpHandler.Resolve | src/node/UDPHandler.java:311 | after a complete reply the matching Ack is resolved; a truncated one stops the node |
| UdpHandler.ValueNodesNeedSearch | src/node/UDPHandler.java:211-232 | VALUE_NODES with contacts while no search runs stops the node |
| UdpHandler.ValueNodesSendsQueries | src/node/UDPHandler.java:217-222 | during a search, VALUE_NODES sends exactly what `sendFindValue` to its contacts sends |
| UdpHandler.ValueNodesAskEach | src/node/UDPHandler.java:217-222 | during a search, each contact in VALUE_NODES gets a reliable FIND_VALUE for the searched key |
| UdpHandler.FoundValueRemembersResponder | src/node/UDPHandler.java:197-209 | FOUND_VALUE remembers its sender for DATA_REQ and resolves the RPC |
| UdpHandler.StoreRecordsSender | src/node/UDPHandler.java:326-335 | STORE makes the sender the key's owner, keeps the other keys, and ACKs |
| UdpHandler.FindValueAnswered | src/node/UDPHandler.java:337-348 | a known key gets FOUND_VALUE naming its owner; an unknown one gets VALUE_NODES with the closest contacts |
| UdpHandler.StoreThenFindValue | src/node/UDPHandler.java:326-348 | after a STORE from an owner, a FIND_VALUE for that key is answered with FOUND_VALUE naming the owner |
| UdpHandler.DataAcked | src/node/UDPHandler.java:234-271 | corrected handler: an unreadable payload stops the node; otherwise the last message is the ACK |
| UdpHandler.ChunkAcked | src/node/UDPHandler.java:266 | a handled chunk ends with an ACK to its sender |
| UdpHandler.DataStored | src/node/UDPHandler.java:245-264 | corrected handler: a chunk updates the file's buffer; the last one stores the file, drops the buffer and records the node as owner |
| UdpHandler.ChunkStored | src/node/UDPHandler.java:245-264 | a parsed chunk updates its file's buffer; the last one stores the file under the name's first octet, drops the buffer and records the node as owner |
| UdpHandler.ReceiveDataAsWritten | src/node/UDPHandler.java:236-266 | as written: a datagram whose whole text does not split into a chunk stops the node; otherwise the chunk read from that text joins the buffers |
| UdpHandler.AsWrittenParse | src/node/UDPHandler.java:236-242 | as written, the file name read from a DATA frame is the header text (type, sender, RPC id octets) followed by the real name |
| UdpHandler.AsWrittenDashRpcShifts | src/node/UDPHandler.java:236-241 | as written, an RPC id of 45 (a dash) shifts every field: the name is read as the count and the count as the index |
| UdpHandler.AsWrittenChunksNeverMeet | src/node/UDPHandler.java:236-264 | as written, two chunks of one file sent under different RPC ids open two buffers, and neither completes the file |
| UdpHandler.AsWrittenKeyIsTypeOctet | src/node/UDPHandler.java:245-261 | as written, a completed file is stored under key 6, the DATA type octet, whatever its name |
| UdpHandler.TwoChunksReassemble | src/node/UDPHandler.java:236-264 | parsed from the payload alone, the same two chunks share one buffer and the second completes the file |
| UdpHandler.DataReqUnknown | src/node/UDPHandler.java:273-278 | DATA_REQ for an unknown key is only ACKed |
| UdpHandler.DataReqAnswered | src/node/UDPHandler.java:273-278 | DATA_REQ for a known key sends one DATA message per chunk and then the ACK |
| UdpHandler.DataReqShape | src/node/UDPHandler.java:273-278 | the answer is exactly `sendData`'s messages followed by the ACK |
| UdpHandler.ReceivePing | src/node/UDPHandler.java:289-293 | PING is answered by exactly one unreliable PONG under its RPC id |
| UdpHandler.Receive | src/node/UDPHandler.java:97-109 | nothing received changes nothing; fewer than 3 bytes stop the node |
| UdpHandler.SenderLearned | src/node/UDPHandler.java:111-171 | the sender is in the trie after any type but PING and PONG; a PING is answered by exactly one PONG |

The handler functions `UdpHandler.ReceiveFindNode`, `ReceiveNodes`,
`ReceiveValueNodes`, `ReceiveFoundValue`, `ReceiveStore`, `ReceiveFindValue`,
`ReceiveData` and `ReceiveDataReq` have no rows of their own. Their contracts
only say what they keep unchanged. What each one does is stated by the lemma
rows about it: `FindNodeAnswered`, `NodesLearned`, `ValueNodesNeedSearch`,
`FoundValueRemembersResponder`, `StoreRecordsSender`, `FindValueAnswered`,
`DataAcked`/`DataStored` and `DataReqUnknown`/`DataReqAnswered`.

## Left out

- Threads and timing: the 1000 ms `TIMEOUT`, the polling loop and `Thread.sleep` become `Tick` events and calls to `UdpHandler.Receive`. Interleavings between the listener and the Ack threads are not modelled.
- Races between callbacks and splits: a PING callback closes over the leaf it was created in. When that leaf splits before the answer comes, its `entries` list is set to `null` (Bucket.java:116). The callback then throws a `NullPointerException` in the Ack thread, and the contact is neither refreshed nor removed. The model applies the callback to the leaf the contact routes to when it fires, so this exception is not modelled.
- Socket failures: `channel.send` never throws in the model. The source registers the Ack even when the send fails.
- Randomness: `getRandomIdentifier` (Identifier.java:52-63) is left out, because a node's identifier is a parameter. `createRPCID`'s random draws become a scan from a seed (`Ledger.CreateRpcId`).
- `System.exit` in `leave` and all logging are left out. The model ends `leave` after the LEAVE messages.
- `sendFile` (Node.java:472-475) has an empty body. `CLI`, `ChunkIdentifier`, `FileIdentifier`, `MessageCallback` and `IRoutingTable` are not part of this model.
- RoutingTable.Remove: `RoutingTableImpl.remove` has an empty body, so the member is the identity. It has no row above, because its contract can only restate that.
- `Node.BUCKET_SIZE` is fixed at 2 and `ID_BITS` at 8. Larger spaces would need multi-byte identifiers and are not modelled.
- UdpHandler.NarrowKey: `receiveData` builds a `FileIdentifier` from the name's bytes, which can be wider than an identifier. The model keys stored files by the first byte only.
- DataFrame.Parse: `receiveData` parses `new String(buffer.array())`, the whole 512-byte array in the platform charset. `UdpHandler.ReceiveDataAsWritten` parses the whole datagram, header octets first, with one byte per char. It leaves out charsets and the array's bytes after the datagram, which Java would append to the last piece. `Dispatch` uses the corrected, payload-only `UdpHandler.ReceiveData` (Finding 3).
- UdpHandler.DataAcked: states the corrected handler, which parses the payload alone. As written, the header octets come first, and an RPC id or sender of 45 shifts the fields (`UdpHandler.AsWrittenDashRpcShifts`).
- UdpHandler.DataStored: states the corrected handler. As written, the file is keyed by the DATA type octet 6 (`UdpHandler.AsWrittenKeyIsTypeOctet`), and a file of several chunks never completes (`UdpHandler.AsWrittenChunksNeverMeet`).
- DataFrame.SendDataReassembles: holds for the payload texts, as the corrected handler reads them. As written, each chunk's RPC id is part of its file name, so the chunks of one `sendData` never share a buffer.
- Node.SendFresh: when all 256 RPC ids are keys of `rpcs`, `createRPCID` (Node.java:125-131) loops forever in the calling thread, which may be the CLI thread. Keys are never removed, so this happens from the 257th reliable send on (`Ledger.ExhaustedStaysExhausted`). The model stops the whole peer instead of hanging one thread.
- Node.Leave and RoutingTable.Closest: Java `HashSet` iteration order is unspecified. The model lists entries by distance. `Closest` selects the same entries as the source's sort and cut, and listing them nearest first is the model's choice. `Leave`'s order does not affect what is sent.
- Node.Store, Node.FindValue, Node.SendDataReq and Node.Leave: once `halted` is set, each returns the state unchanged and sends nothing. In the source only the listener thread has ended. The command-line thread still runs `store` (Node.java:397-407), `findValue` (409-416), `sendDataReq` (230-238) and `leave` (454-463), and they still send and register Acks. The model does not cover those sends. In the other direction, a frame too long for the 512-byte buffer built by one of them throws in the calling thread, not the listener, but the model sets `halted` for it too.
- Buckets.Insert: routes and splits by the documented bit (`Identifier.BitAt`), not by `isBitSetAt` as written (`Buckets.SrcFilter`, Bucket.java:108-114). As written, inserting identifiers 1, 2 and 3 into a bucket of size 2 sends all three to the bit-clear child at levels 0 to 5. Each of those children is full again and splits one level deeper. At level 6, `isBitSetAt(6)` of identifier 2 calls `bits.get(-11)`, and the `IndexOutOfBoundsException` ends the listener thread (`Buckets.SrcSplitsOneTwoThree`). The model separates 1 from 2 and 3 at level 6 (`Buckets.SplitsOneTwoThree`). As written, identifier 64 goes to the bit-clear child at level 1, while the model sends it to the bit-set child (`Buckets.SrcSplitMisroutes64`). For identifiers of 128 and above the two agree (`Buckets.SrcFilterAgreesWhenTopBitSet`).
- `hashCode` (Identifier.java:103-106) is left out. The model's maps and sets use identifier equality directly, and `toString` agrees with it (`Identifier.ToStringMatchesEquals`).
- Node.Timeout: an Ack thread's tick is taken one Ack at a time, by RPC id and position in the list, in whatever order the caller picks.
- Dispatch (`UdpHandler.Dispatch`) is the `switch` itself and has no row. Its cases are stated by the handler lemmas above.

## Findings

| source | as written | input that shows it | evidently intended | confidence | as-written member | corrected member |
|---|---|---|---|---|---|---|
| src/node/Identifier.java:79-88 | `isBitSetAt` subtracts the number of leading zeros twice: once in the early test and again in the `BitSet` index | identifier 64 (`01000000`): `isBitSetAt(1)` is false though bit 1 is set, and `isBitSetAt(6)` calls `bits.get(-1)` | the bit at MSB-first position `index`, as the doc comment says | high, not executed | Identifier.SrcBitAtWrongAt64 | Identifier.BitsDetermineId |
| src/message/Ack.java:113 | each resend passes the same cloned `ByteBuffer` to `channel.send`, which moves its position to the limit | any unanswered reliable message: the first resend carries the frame, the second and third carry 0 bytes | every resend carries the whole frame | high, not executed | Acks.EmptyResendsAsWritten | Acks.FullResends |
| src/node/UDPHandler.java:236-245 | `receiveData` splits the text of the whole buffer, so piece 0 starts with the type, sender and RPC id octets | node 7 sends file `5`, contents `abcdefgh`, as two DATA frames under RPC ids 13 and 14: the names read are `\u0006\u0007\u000d5` and `\u0006\u0007\u000e5`, each buffer holds 1 of 2 chunks, and the file is never stored | fields read from the payload after the header, so the chunks share one buffer and the file completes under the octet of `5` | high, not executed | UdpHandler.AsWrittenChunksNeverMeet | UdpHandler.TwoChunksReassemble |

`Identifier.SrcBitAt` is the formula at Identifier.java:87 as written.
`Identifier.SrcBitAtReadsShiftedPosition` and `Identifier.SrcBitAtThrowsAt64`
show the general shift and the exception. `Identifier.BitAt` is the
documented reading; the trie (`Buckets`) uses it. The trie's split lemmas
rely on `BitAt`, so an identifier's leaf is determined by its bits.
`Buckets.SrcFilter` is the split's distribution loop as written, and
`Buckets.SrcSplitsOneTwoThree` and `Buckets.SrcSplitMisroutes64` show the
shift's effect on the trie.
`Acks.StepAsWritten` steps through the same phases as `Acks.Step`, but uses
`BufferUtil.Transmit`, which drains the buffer. `Acks.Step` resends the
Ack's frame every time, and the rest of the model uses it.
`UdpHandler.ReceiveDataAsWritten` is `receiveData` as written, and
`UdpHandler.AsWrittenParse`, `AsWrittenDashRpcShifts` and
`AsWrittenKeyIsTypeOctet` show its other effects. `UdpHandler.ReceiveData`
reads the payload alone, and `Dispatch` uses it. `UdpHandler.DataStored` and
`DataFrame.SendDataReassembles` are stated about it.

=== FILE: ack.dfy ===
/**
 * src/message/Ack.java: one outstanding reliable RPC.  Its timeout thread is
 * modelled as a state machine driven by two events: `Tick` (a timeout period
 * elapsed without an answer) and `Recv` (`setReceived`).  The callback type
 * `C` is left open; the node instantiates it with its routing-table refresh.
 */
module Acks {
  import opened Wrappers
  import opened Bytes
  import opened Identifier
  import opened BufferUtil
  import opened NodeIdentifier

  /** `MAX_RETRIES`. */
  const MaxRetries: nat := 3

  /** A live timeout thread after `retries` resends, or a finished one. */
  datatype Phase = Waiting(retries: nat) | Delivered | Exhausted

  datatype Ack<C> = Ack(rpc: Id, receiver: Contact, buffer: Buffer, callback: Option<C>, phase: Phase)

  datatype Event = Tick | Recv

  datatype Output<C> = Resend(to: Addr, datagram: seq<Byte>) | OnReceive(cb: C) | OnTimeout(cb: C)

  predicate Valid<C>(a: Ack<C>) {
    a.buffer.Valid() && (a.phase.Waiting? ==> a.phase.retries <= MaxRetries)
  }

  /** The whole frame, as the clone holds it from position 0 up to its limit. */
  function Frame<C>(a: Ack<C>): seq<Byte>
    requires a.buffer.Valid()
  {
    a.buffer.data[..a.buffer.limit]
  }

  /** The constructor: clone the frame just sent and start waiting with no retries. */
  function Create<C>(rpc: Id, receiver: Contact, sent: Buffer, callback: Option<C>): (a: Ack<C>)
    requires sent.Valid()
    ensures Valid(a) && a.phase == Waiting(0)
    ensures a.rpc == rpc && a.receiver == receiver && a.callback == callback
    ensures Frame(a) == sent.data[..sent.limit]
    ensures a.buffer.Remaining() == Frame(a)
  {
    Ack(rpc, receiver, Clone(sent).0, callback, Waiting(0))
  }

  /** `check`: `fromID.equals(receiver)`, which compares identifiers only, never addresses. */
  function Check<C>(a: Ack<C>, from: Contact): (r: bool)
    ensures r <==> SameNode(from, a.receiver)
  {
    from.id == a.receiver.id
  }

  /**
   * The end of the thread: the callback, if there is one, is told once
   * whether the answer arrived; nothing is resent.
   */
  function Notify<C>(callback: Option<C>, received: bool): (r: seq<Output<C>>)
    ensures |r| == if callback.Some? then 1 else 0
    ensures forall o | o in r :: !o.Resend? && callback == Some(o.cb) && (o.OnReceive? <==> received)
  {
    match callback
    case None => []
    case Some(cb) => if received then [OnReceive(cb)] else [OnTimeout(cb)]
  }

  /**
   * One event, with every resend carrying the whole frame.  While fewer than
   * `MaxRetries` resends happened a timeout resends and waits again; the next
   * one gives up with `onTimeout`.  An answer while waiting fires
   * `onReceive`.  A finished thread ignores both events.
   */
  function Step<C>(a: Ack<C>, e: Event): (r: (Ack<C>, seq<Output<C>>))
    requires Valid(a)
    ensures Valid(r.0)
    ensures r.0.rpc == a.rpc && r.0.receiver == a.receiver && r.0.buffer == a.buffer && r.0.callback == a.callback
    ensures !a.phase.Waiting? ==> r == (a, [])
    ensures a.phase.Waiting? && e == Recv ==> r.0.phase == Delivered && r.1 == Notify(a.callback, true)
    ensures a.phase.Waiting? && e == Tick && a.phase.retries < MaxRetries ==>
      r.0.phase == Waiting(a.phase.retries + 1) && r.1 == [Resend(a.receiver.addr, Frame(a))]
    ensures a.phase.Waiting? && e == Tick && a.phase.retries == MaxRetries ==>
      r.0.phase == Exhausted && r.1 == Notify(a.callback, false)
  {
    match a.phase
    case Waiting(n) =>
      if e == Recv then (a.(phase := Delivered), Notify(a.callback, true))
      else if n < MaxRetries then (a.(phase := Waiting(n + 1)), [Resend(a.receiver.addr, Frame(a))])
      else (a.(phase := Exhausted), Notify(a.callback, false))
    case _ => (a, [])
  }

  /**
   * The same machine as the Java code runs it: `DatagramChannel.send`
   * advances the cloned buffer's position to its limit and nothing moves it
   * back, so every resend after the first transmits what remains, nothing.
   */
  function StepAsWritten<C>(a: Ack<C>, e: Event): (r: (Ack<C>, seq<Output<C>>))
    requires Valid(a)
    ensures Valid(r.0)
    ensures r.0.rpc == a.rpc && r.0.receiver == a.receiver && r.0.callback == a.callback
    ensures r.0.phase == Step(a, e).0.phase
    ensures AlikeButResends(r.1, Step(a, e).1)
  {
    match a.phase
    case Waiting(n) =>
      if e == Recv then (a.(phase := Delivered), Notify(a.callback, true))
      else if n < MaxRetries then
        var (datagram, drained) := Transmit(a.buffer);
        (a.(buffer := drained, phase := Waiting(n + 1)), [Resend(a.receiver.addr, datagram)])
      else (a.(phase := Exhausted), Notify(a.callback, false))
    case _ => (a, [])
  }

  function Run<C>(a: Ack<C>, es: seq<Event>): (r: (Ack<C>, seq<Output<C>>))
    requires Valid(a)
    ensures Valid(r.0)
    ensures r.0.rpc == a.rpc && r.0.receiver == a.receiver && r.0.buffer == a.buffer && r.0.callback == a.callback
    decreases |es|
  {
    if |es| == 0 then (a, [])
    else
      var first := Step(a, es[0]);
      var rest := Run(first.0, es[1..]);
      (rest.0, first.1 + rest.1)
  }

  /**
   * Two output lists that agree in everything but the datagrams the resends
   * carry: the same events at the same places, resends to the same address.
   */
  ghost predicate AlikeButResends<C>(xs: seq<Output<C>>, ys: seq<Output<C>>) {
    && |xs| == |ys|
    && forall i | 0 <= i < |xs| :: if xs[i].Resend? then ys[i].Resend? && ys[i].to == xs[i].to else ys[i] == xs[i]
  }

  lemma AlikeConcat<C>(xs: seq<Output<C>>, ys: seq<Output<C>>, us: seq<Output<C>>, vs: seq<Output<C>>)
    requires AlikeButResends(xs, ys) && AlikeButResends(us, vs)
    ensures AlikeButResends(xs + us, ys + vs)
  {
    forall i | 0 <= i < |xs + us|
      ensures if (xs + us)[i].Resend? then (ys + vs)[i].Resend? && (ys + vs)[i].to == (xs + us)[i].to else (ys + vs)[i] == (xs + us)[i]
    {
      if i >= |xs| {
        assert (xs + us)[i] == us[i - |xs|] && (ys + vs)[i] == vs[i - |xs|];
      }
    }
  }

  /** The phases and callbacks of a run do not depend on the buffer; only the resends' datagrams do. */
  lemma {:induction false} RunIgnoresBuffer<C>(a: Ack<C>, b: Ack<C>, es: seq<Event>)
    requires Valid(a) && Valid(b)
    requires a.phase == b.phase && a.receiver == b.receiver && a.callback == b.callback
    ensures Run(a, es).0.phase == Run(b, es).0.phase
    ensures AlikeButResends(Run(a, es).1, Run(b, es).1)
    decreases |es|
  {
    if 0 < |es| {
      var fa := Step(a, es[0]);
      var fb := Step(b, es[0]);
      RunIgnoresBuffer(fa.0, fb.0, es[1..]);
      AlikeConcat(fa.1, fb.1, Run(fa.0, es[1..]).1, Run(fb.0, es[1..]).1);
    }
  }

  /**
   * The run as the Java thread performs it: the same phases and the same
   * callbacks at the same places as `Run`; only what each resend carries
   * differs.
   */
  function RunAsWritten<C>(a: Ack<C>, es: seq<Event>): (r: (Ack<C>, seq<Output<C>>))
    requires Valid(a)
    ensures Valid(r.0)
    ensures r.0.phase == Run(a, es).0.phase
    ensures AlikeButResends(r.1, Run(a, es).1)
    decreases |es|
  {
    if |es| == 0 then (a, [])
    else
      var first := StepAsWritten(a, es[0]);
      var rest := RunAsWritten(first.0, es[1..]);
      var step := Step(a, es[0]);
      RunIgnoresBuffer(first.0, step.0, es[1..]);
      AlikeConcat(first.1, step.1, rest.1, Run(step.0, es[1..]).1);
      (rest.0, first.1 + rest.1)
  }

  function Ticks(n: nat): (es: seq<Event>)
    ensures |es| == n && forall i | 0 <= i < n :: es[i] == Tick
  {
    seq(n, _ => Tick)
  }

  function Resends<C>(to: Addr, datagram: seq<Byte>, n: nat): (os: seq<Output<C>>)
    ensures |os| == n && forall i | 0 <= i < n :: os[i] == Resend(to, datagram)
  {
    seq(n, _ => Resend(to, datagram))
  }

  predicate IsCallback<C>(o: Output<C>) {
    o.OnReceive? || o.OnTimeout?
  }

  function CallbackCount<C>(os: seq<Output<C>>): nat {
    if |os| == 0 then 0
    else (if IsCallback(os[0]) then 1 else 0) + CallbackCount(os[1..])
  }

  lemma {:induction false} CallbackCountConcat<C>(a: seq<Output<C>>, b: seq<Output<C>>)
    ensures CallbackCount(a + b) == CallbackCount(a) + CallbackCount(b)
  {
    if |a| == 0 {
      assert a + b == b;
    } else {
      CallbackCountConcat(a[1..], b);
      assert (a + b)[1..] == a[1..] + b;
    }
  }

  /** A finished thread stays finished and silent, whatever happens afterwards. */
  lemma {:induction false} FinishedIsQuiet<C>(a: Ack<C>, es: seq<Event>)
    requires Valid(a) && !a.phase.Waiting?
    ensures Run(a, es) == (a, [])
    decreases |es|
  {
    if |es| > 0 {
      FinishedIsQuiet(a, es[1..]);
      var first := Step(a, es[0]);
      assert first == (a, []);
      var rest := Run(first.0, es[1..]);
      assert rest == (a, []);
      assert Run(a, es) == (rest.0, first.1 + rest.1);
      assert first.1 + rest.1 == [];
    }
  }

  /**
   * Never acknowledged: after `retries` resends, enough timeouts give the
   * remaining resends of the whole frame and then `onTimeout` once, and never
   * `onReceive`.
   */
  lemma {:induction false} UnansweredFrom<C>(a: Ack<C>, m: nat)
    requires Valid(a) && a.phase.Waiting? && m >= MaxRetries - a.phase.retries + 1
    ensures Run(a, Ticks(m)).0.phase == Exhausted
    ensures Run(a, Ticks(m)).1
      == Resends(a.receiver.addr, Frame(a), MaxRetries - a.phase.retries) + Notify(a.callback, false)
    decreases m
  {
    var es := Ticks(m);
    var (a1, o1) := Step(a, Tick);
    assert es[1..] == Ticks(m - 1);
    if a.phase.retries < MaxRetries {
      UnansweredFrom(a1, m - 1);
      assert Resends<C>(a.receiver.addr, Frame(a), MaxRetries - a.phase.retries)
        == [Resend(a.receiver.addr, Frame(a))] + Resends(a.receiver.addr, Frame(a), MaxRetries - a.phase.retries - 1);
    } else {
      FinishedIsQuiet(a1, es[1..]);
    }
  }

  /** From construction: exactly `MaxRetries` resends, then `onTimeout` exactly once. */
  lemma Unanswered<C>(rpc: Id, receiver: Contact, sent: Buffer, callback: Option<C>, m: nat)
    requires sent.Valid() && m > MaxRetries
    ensures var r := Run(Create(rpc, receiver, sent, callback), Ticks(m));
      && r.0.phase == Exhausted
      && r.1 == Resends(receiver.addr, sent.data[..sent.limit], MaxRetries) + Notify(callback, false)
  {
    UnansweredFrom(Create(rpc, receiver, sent, callback), m);
  }

  /** `k` timeouts then the answer: `k` resends of the whole frame, then `onReceive` once. */
  lemma {:induction false} AnsweredAfterFrom<C>(a: Ack<C>, k: nat)
    requires Valid(a) && a.phase.Waiting? && a.phase.retries + k <= MaxRetries
    ensures Run(a, Ticks(k) + [Recv]).0.phase == Delivered
    ensures Run(a, Ticks(k) + [Recv]).1 == Resends(a.receiver.addr, Frame(a), k) + Notify(a.callback, true)
    decreases k
  {
    var es := Ticks(k) + [Recv];
    if k == 0 {
      assert es == [Recv];
    } else {
      var (a1, o1) := Step(a, Tick);
      assert es[0] == Tick;
      assert es[1..] == Ticks(k - 1) + [Recv];
      AnsweredAfterFrom(a1, k - 1);
      assert Resends<C>(a.receiver.addr, Frame(a), k)
        == [Resend(a.receiver.addr, Frame(a))] + Resends(a.receiver.addr, Frame(a), k - 1);
    }
  }

  lemma AnsweredAfter<C>(rpc: Id, receiver: Contact, sent: Buffer, callback: Option<C>, k: nat)
    requires sent.Valid() && k <= MaxRetries
    ensures var r := Run(Create(rpc, receiver, sent, callback), Ticks(k) + [Recv]);
      && r.0.phase == Delivered
      && r.1 == Resends(receiver.addr, sent.data[..sent.limit], k) + Notify(callback, true)
  {
    AnsweredAfterFrom(Create(rpc, receiver, sent, callback), k);
  }

  /** Whatever the events, at most one callback fires, and none once the thread is finished. */
  lemma {:induction false} AtMostOneCallback<C>(a: Ack<C>, es: seq<Event>)
    requires Valid(a)
    ensures CallbackCount(Run(a, es).1) <= 1
    ensures !a.phase.Waiting? ==> CallbackCount(Run(a, es).1) == 0
    ensures !Run(a, es).0.phase.Waiting? || CallbackCount(Run(a, es).1) == 0
    decreases |es|
  {
    if |es| > 0 {
      var (a1, o1) := Step(a, es[0]);
      AtMostOneCallback(a1, es[1..]);
      CallbackCountConcat(o1, Run(a1, es[1..]).1);
      if a.phase.Waiting? {
        assert CallbackCount(o1) <= 1;
        if CallbackCount(o1) == 1 {
          FinishedIsQuiet(a1, es[1..]);
        }
      } else {
        FinishedIsQuiet(a, es);
      }
    }
  }

  /** Every resend goes to the receiver given at construction and carries the whole frame. */
  lemma {:induction false} ResendsCarryFrame<C>(a: Ack<C>, es: seq<Event>)
    requires Valid(a)
    ensures forall o | o in Run(a, es).1 && o.Resend? :: o.to == a.receiver.addr && o.datagram == Frame(a)
    decreases |es|
  {
    if |es| > 0 {
      var (a1, o1) := Step(a, es[0]);
      ResendsCarryFrame(a1, es[1..]);
    }
  }

  /** The resends of a run, callbacks dropped. */
  function ResendsOf<C>(os: seq<Output<C>>): (r: seq<Output<C>>)
    ensures forall o | o in r :: o.Resend? && o in os
  {
    if |os| == 0 then []
    else if os[0].Resend? then [os[0]] + ResendsOf(os[1..])
    else ResendsOf(os[1..])
  }

  lemma {:induction false} ResendsOfConcat<C>(a: seq<Output<C>>, b: seq<Output<C>>)
    ensures ResendsOf(a + b) == ResendsOf(a) + ResendsOf(b)
  {
    if |a| == 0 {
      assert a + b == b;
    } else {
      var ab := a + b;
      assert ab[0] == a[0] && ab[1..] == a[1..] + b;
      ResendsOfConcat(a[1..], b);
      if a[0].Resend? {
        assert ResendsOf(ab) == [a[0]] + ResendsOf(a[1..] + b);
        assert ResendsOf(a) == [a[0]] + ResendsOf(a[1..]);
      }
    }
  }

  /**
   * A null callback changes nothing but the callbacks: the same phases and
   * the same resends, and no callback output at all.
   */
  lemma {:induction false} NullCallback<C>(a: Ack<C>, es: seq<Event>)
    requires Valid(a)
    ensures Run(a.(callback := None), es).0 == Run(a, es).0.(callback := None)
    ensures Run(a.(callback := None), es).1 == ResendsOf(Run(a, es).1)
    decreases |es|
  {
    if |es| > 0 {
      var (a1, o1) := Step(a, es[0]);
      assert Step(a.(callback := None), es[0]).0 == a1.(callback := None);
      NullCallback(a1, es[1..]);
      ResendsOfConcat(o1, Run(a1, es[1..]).1);
      assert ResendsOf(o1) == Step(a.(callback := None), es[0]).1;
    }
  }

  /**
   * As written, the first resend carries the frame and the next two carry
   * empty datagrams.
   */
  lemma EmptyResendsAsWritten<C>(rpc: Id, receiver: Contact, sent: Buffer, callback: Option<C>)
    requires sent.Valid()
    ensures RunAsWritten(Create(rpc, receiver, sent, callback), Ticks(3)).1
      == [Resend(receiver.addr, sent.data[..sent.limit]), Resend(receiver.addr, []), Resend(receiver.addr, [])]
  {
    var a := Create(rpc, receiver, sent, callback);
    var es := Ticks(3);
    assert es[1..] == Ticks(2) && Ticks(2)[1..] == Ticks(1) && Ticks(1)[1..] == [];
  }

  /** The corrected machine resends the same frame all three times. */
  lemma FullResends<C>(rpc: Id, receiver: Contact, sent: Buffer, callback: Option<C>)
    requires sent.Valid()
    ensures Run(Create(rpc, receiver, sent, callback), Ticks(3)).1 == Resends(receiver.addr, sent.data[..sent.limit], 3)
  {
    var a := Create(rpc, receiver, sent, callback);
    var es := Ticks(3);
    assert es[1..] == Ticks(2) && Ticks(2)[1..] == Ticks(1) && Ticks(1)[1..] == [];
  }
}

=== FILE: bucket.dfy ===
/**
 * src/routingtable/Bucket.java: the binary trie of k-buckets.  A leaf holds an
 * ordered list of contacts; a full leaf splits, whatever its position in the
 * trie, into two children one level deeper.  Contacts whose bit at the
 * bucket's level is set live under `left`, the others under `right`.
 */
module Buckets {
  import opened Wrappers
  import opened Identifier
  import opened NodeIdentifier

  datatype Bucket =
    | Leaf(level: nat, entries: seq<Contact>)
    | Split(level: nat, left: Bucket, right: Bucket)

  /** Every contact in the trie, left subtree first. */
  function Contents(b: Bucket): seq<Contact> {
    match b
    case Leaf(_, es) => es
    case Split(_, l, r) => Contents(l) + Contents(r)
  }

  function IdsOf(s: seq<Contact>): set<Id> {
    set c | c in s :: c.id
  }

  function Ids(b: Bucket): set<Id> {
    IdsOf(Contents(b))
  }

  /** No two entries share an identifier (`equals` compares identifiers only). */
  predicate DistinctIds(s: seq<Contact>) {
    forall i, j | 0 <= i < j < |s| :: s[i].id != s[j].id
  }

  /** Levels grow by one per split and every split happens above depth `ID_BITS`. */
  predicate Shaped(b: Bucket) {
    match b
    case Leaf(d, _) => d <= IdBits
    case Split(d, l, r) =>
      && d < IdBits
      && l.level == d + 1 && r.level == d + 1
      && Shaped(l) && Shaped(r)
  }

  /** Under a level-d split, the left subtree has bit d set and the right subtree has it clear. */
  predicate Sorted(b: Bucket)
    requires Shaped(b)
  {
    match b
    case Leaf(_, _) => true
    case Split(d, l, r) =>
      && (forall c | c in Contents(l) :: BitAt(c.id, d))
      && (forall c | c in Contents(r) :: !BitAt(c.id, d))
      && Sorted(l) && Sorted(r)
  }

  predicate LeavesDistinct(b: Bucket) {
    match b
    case Leaf(_, es) => DistinctIds(es)
    case Split(_, l, r) => LeavesDistinct(l) && LeavesDistinct(r)
  }

  /** The trie invariant the Java code keeps as long as it never inserts a contact twice. */
  predicate Valid(b: Bucket) {
    Shaped(b) && Sorted(b) && LeavesDistinct(b)
  }

  /** No leaf holds more than `k` contacts. */
  predicate Bounded(b: Bucket, k: nat) {
    match b
    case Leaf(_, es) => |es| <= k
    case Split(_, l, r) => Bounded(l, k) && Bounded(r, k)
  }

  /** `a` and `p` agree on MSB-first positions 0..n-1. */
  predicate AgreeBelow(a: Id, p: Id, n: nat)
    requires n <= IdBits
  {
    forall i | 0 <= i < n :: BitAt(a, i) == BitAt(p, i)
  }

  /** Every contact of `b` shares the first `b.level` bits with `p`: `p` routes to `b`. */
  predicate Agrees(b: Bucket, p: Id)
    requires Shaped(b)
  {
    forall c | c in Contents(b) :: AgreeBelow(c.id, p, b.level)
  }

  /** A split bucket stays split, at the same level, all the way down: there is no merge. */
  predicate Grows(b: Bucket, b': Bucket) {
    match b
    case Leaf(d, _) => b'.level == d
    case Split(d, l, r) => b'.Split? && b'.level == d && Grows(l, b'.left) && Grows(r, b'.right)
  }

  /** Same splits at the same levels; only leaf lists may differ. */
  predicate SameShape(b: Bucket, b': Bucket) {
    match b
    case Leaf(d, _) => b'.Leaf? && b'.level == d
    case Split(d, l, r) => b'.Split? && b'.level == d && SameShape(l, b'.left) && SameShape(r, b'.right)
  }

  // ---------------------------------------------------------------------------
  // Helpers on contact lists

  function Filter(s: seq<Contact>, d: nat, set_: bool): (r: seq<Contact>)
    requires d < IdBits
    ensures forall c | c in r :: c in s && BitAt(c.id, d) == set_
    ensures forall c | c in s && BitAt(c.id, d) == set_ :: c in r
    ensures |r| <= |s|
  {
    if |s| == 0 then []
    else if BitAt(s[0].id, d) == set_ then [s[0]] + Filter(s[1..], d, set_)
    else Filter(s[1..], d, set_)
  }

  lemma {:induction false} FilterPartition(s: seq<Contact>, d: nat)
    requires d < IdBits
    ensures multiset(Filter(s, d, true)) + multiset(Filter(s, d, false)) == multiset(s)
  {
    if |s| > 0 {
      FilterPartition(s[1..], d);
      assert s == [s[0]] + s[1..];
    }
  }

  lemma {:induction false} FilterDistinct(s: seq<Contact>, d: nat, set_: bool)
    requires d < IdBits && DistinctIds(s)
    ensures DistinctIds(Filter(s, d, set_))
  {
    if |s| > 0 {
      FilterDistinct(s[1..], d, set_);
    }
  }

  /**
   * The distribution loop of a split as written (Bucket.java:108-114): the
   * entries whose `isBitSetAt(level)` is `set_`, in order.  An entry whose
   * test throws ends the insert, which is `None`.
   */
  function SrcFilter(s: seq<Contact>, d: nat, set_: bool): (r: Option<seq<Contact>>)
    ensures r.Some? <==> forall c | c in s :: SrcIndexOk(c.id, d)
    ensures r.Some? ==> |r.value| <= |s| && forall c | c in r.value :: c in s
    decreases |s|
  {
    if |s| == 0 then Some([])
    else if !SrcIndexOk(s[0].id, d) then None
    else
      match SrcFilter(s[1..], d, set_)
      case None => None
      case Some(t) => Some(if SrcBitAt(s[0].id, d) == set_ then [s[0]] + t else t)
  }

  /** For identifiers with the top bit set the split as written is the corrected one. */
  lemma {:induction false} SrcFilterAgreesWhenTopBitSet(s: seq<Contact>, d: nat, set_: bool)
    requires d < IdBits
    requires forall c | c in s :: 128 <= c.id as int
    ensures SrcFilter(s, d, set_) == Some(Filter(s, d, set_))
    decreases |s|
  {
    if 0 < |s| {
      SrcBitAtAgreesWhenTopBitSet(s[0].id, d);
      assert forall c | c in s[1..] :: c in s;
      SrcFilterAgreesWhenTopBitSet(s[1..], d, set_);
    }
  }

  /** Below every entry's leading zeros the split as written sends all entries to the bit-clear child. */
  lemma {:induction false} SrcFilterBelowZeros(s: seq<Contact>, d: nat)
    requires forall c | c in s :: d < LeadingZeros(c.id)
    ensures SrcFilter(s, d, true) == Some([]) && SrcFilter(s, d, false) == Some(s)
    decreases |s|
  {
    if 0 < |s| {
      LeadingZerosAreClear(s[0].id, d);
      assert forall c | c in s[1..] :: c in s;
      SrcFilterBelowZeros(s[1..], d);
      assert [s[0]] + s[1..] == s;
    }
  }

  /** When bit `d` of every entry is clear, the split sends all entries to the bit-clear child. */
  lemma {:induction false} FilterAllClear(s: seq<Contact>, d: nat)
    requires d < IdBits
    requires forall c | c in s :: !BitAt(c.id, d)
    ensures Filter(s, d, true) == [] && Filter(s, d, false) == s
    decreases |s|
  {
    if 0 < |s| {
      assert forall c | c in s[1..] :: c in s;
      FilterAllClear(s[1..], d);
      assert [s[0]] + s[1..] == s;
    }
  }

  /**
   * Identifiers 1, 2 and 3 in a bucket of size 2, as written: the splits at
   * levels 0 to 5 send all three to the bit-clear child, which is full again
   * and splits one level deeper; at level 6 `isBitSetAt(6)` of identifier 2
   * asks `BitSet.get` for index -11 and the insert throws.
   */
  lemma SrcSplitsOneTwoThree(c1: Contact, c2: Contact, c3: Contact)
    requires c1.id == 1 && c2.id == 2 && c3.id == 3
    ensures forall d | 0 <= d < 6 ::
      SrcFilter([c1, c2, c3], d, true) == Some([]) && SrcFilter([c1, c2, c3], d, false) == Some([c1, c2, c3])
    ensures SrcFilter([c1, c2, c3], 6, true).None? && SrcFilter([c1, c2, c3], 6, false).None?
  {
    LowIdZeros();
    var all := [c1, c2, c3];
    forall d | 0 <= d < 6
      ensures SrcFilter(all, d, true) == Some([]) && SrcFilter(all, d, false) == Some(all)
    {
      SrcFilterBelowZeros(all, d);
    }
    assert SrcIndex(2, 6) == -11;
    assert all[1..] == [c2, c3];
    assert SrcFilter([c2, c3], 6, true).None? && SrcFilter([c2, c3], 6, false).None?;
  }

  /**
   * Identifier 64 (0100 0000) at a split of level 1: as written it goes to the
   * bit-clear child, although its bit at depth 1 is set, which the corrected
   * split follows.
   */
  lemma SrcSplitMisroutes64(c: Contact)
    requires c.id == 64
    ensures SrcFilter([c], 1, false) == Some([c]) && SrcFilter([c], 1, true) == Some([])
    ensures Filter([c], 1, true) == [c] && Filter([c], 1, false) == []
  {
    SrcBitAtWrongAt64();
    assert [c][1..] == [];
    assert SrcFilter([], 1, false) == Some([]) && SrcFilter([], 1, true) == Some([]);
    assert Filter([], 1, true) == [] && Filter([], 1, false) == [];
    assert [c] + [] == [c];
  }

  /** The leading zeros of 1, 2 and 3: seven, six and six. */
  lemma LowIdZeros()
    ensures LeadingZeros(1) == 7 && LeadingZeros(2) == 6 && LeadingZeros(3) == 6
  {
    assert !BitAt(1, 0) && !BitAt(1, 1) && !BitAt(1, 2) && !BitAt(1, 3) && !BitAt(1, 4) && !BitAt(1, 5) && !BitAt(1, 6) && BitAt(1, 7);
    assert !BitAt(2, 0) && !BitAt(2, 1) && !BitAt(2, 2) && !BitAt(2, 3) && !BitAt(2, 4) && !BitAt(2, 5) && BitAt(2, 6);
    assert !BitAt(3, 0) && !BitAt(3, 1) && !BitAt(3, 2) && !BitAt(3, 3) && !BitAt(3, 4) && !BitAt(3, 5) && BitAt(3, 6);
  }

  /**
   * Corrected: the same three identifiers stay together down to level 5,
   * and the split at level 6 separates 1 from 2 and 3.
   */
  lemma SplitsOneTwoThree(c1: Contact, c2: Contact, c3: Contact)
    requires c1.id == 1 && c2.id == 2 && c3.id == 3
    ensures forall d | 0 <= d < 6 ::
      Filter([c1, c2, c3], d, true) == [] && Filter([c1, c2, c3], d, false) == [c1, c2, c3]
    ensures Filter([c1, c2, c3], 6, true) == [c2, c3] && Filter([c1, c2, c3], 6, false) == [c1]
  {
    LowIdZeros();
    var all := [c1, c2, c3];
    forall d | 0 <= d < 6
      ensures Filter(all, d, true) == [] && Filter(all, d, false) == all
    {
      LeadingZerosAreClear(1, d);
      LeadingZerosAreClear(2, d);
      LeadingZerosAreClear(3, d);
      FilterAllClear(all, d);
    }
    assert !BitAt(1, 6) && BitAt(2, 6) && BitAt(3, 6);
    assert all[1..] == [c2, c3] && all[1..][1..] == [c3] && all[1..][1..][1..] == [];
    assert Filter([c3], 6, true) == [c3] && Filter([c3], 6, false) == [];
    assert Filter([c2, c3], 6, true) == [c2, c3] && Filter([c2, c3], 6, false) == [];
  }

  /** Index of the first entry equal (by identifier) to `id`, or `|s|`. */
  function FindId(s: seq<Contact>, id: Id): (i: nat)
    ensures i <= |s|
    ensures i < |s| ==> s[i].id == id
    ensures forall j | 0 <= j < i :: s[j].id != id
    ensures i == |s| <==> id !in IdsOf(s)
  {
    if |s| == 0 then 0
    else if s[0].id == id then 0
    else 1 + FindId(s[1..], id)
  }

  /** `List.remove(Object)`: drop the first entry equal (by identifier) to `x`. */
  function RemoveFirst(s: seq<Contact>, x: Contact): (r: seq<Contact>)
    ensures x.id in IdsOf(s) ==> |r| == |s| - 1
    ensures x.id !in IdsOf(s) ==> r == s
    ensures forall c | c in r :: c in s
    ensures forall c | c in s && c.id != x.id :: c in r
  {
    var i := FindId(s, x.id);
    if i < |s| then
      assert forall c | c in s && c.id != x.id :: c in s[..i] || c in s[i + 1..] by {
        forall c | c in s && c.id != x.id ensures c in s[..i] || c in s[i + 1..] {
          var j :| 0 <= j < |s| && s[j] == c;
          if j < i { assert s[..i][j] == c; }
          else { assert j > i; assert s[i + 1..][j - i - 1] == c; }
        }
      }
      s[..i] + s[i + 1..]
    else s
  }

  lemma RemoveAtDistinct(s: seq<Contact>, i: nat)
    requires DistinctIds(s) && i < |s|
    ensures DistinctIds(s[..i] + s[i + 1..])
  {
    var r := s[..i] + s[i + 1..];
    forall a, b | 0 <= a < b < |r| ensures r[a].id != r[b].id {
      var a' := if a < i then a else a + 1;
      var b' := if b < i then b else b + 1;
      assert r[a] == s[a'] && r[b] == s[b'];
    }
  }

  lemma RemoveAtDropsId(s: seq<Contact>, i: nat)
    requires DistinctIds(s) && i < |s|
    ensures s[i].id !in IdsOf(s[..i] + s[i + 1..])
  {
    var r := s[..i] + s[i + 1..];
    forall c | c in r ensures c.id != s[i].id {
      var j :| 0 <= j < |r| && r[j] == c;
      var j' := if j < i then j else j + 1;
      assert r[j] == s[j'];
    }
  }

  lemma RemoveFirstDistinct(s: seq<Contact>, x: Contact)
    requires DistinctIds(s)
    ensures DistinctIds(RemoveFirst(s, x))
    ensures IdsOf(RemoveFirst(s, x)) == IdsOf(s) - {x.id}
  {
    var i := FindId(s, x.id);
    if i < |s| {
      RemoveAtDistinct(s, i);
      RemoveAtDropsId(s, i);
    }
  }

  /** The leaf list `id` is routed to by `update`/`remove`: left iff bit `level` is set. */
  function Route(b: Bucket, id: Id): seq<Contact>
    requires Shaped(b)
  {
    match b
    case Leaf(_, es) => es
    case Split(d, l, r) => if BitAt(id, d) then Route(l, id) else Route(r, id)
  }

  /** In a sorted trie a contact can only sit in the leaf its identifier routes to. */
  lemma {:induction false} RouteFindsAll(b: Bucket, c: Contact)
    requires Shaped(b) && Sorted(b)
    requires c in Contents(b)
    ensures c in Route(b, c.id)
  {
    match b
    case Leaf(_, _) =>
    case Split(d, l, r) =>
      if c in Contents(l) {
        RouteFindsAll(l, c);
      } else {
        RouteFindsAll(r, c);
      }
  }

  lemma {:induction false} ValidContentsDistinct(b: Bucket)
    requires Valid(b)
    ensures DistinctIds(Contents(b))
  {
    match b
    case Leaf(_, _) =>
    case Split(d, l, r) =>
      ValidContentsDistinct(l);
      ValidContentsDistinct(r);
      var s := Contents(b);
      forall i, j | 0 <= i < j < |s| ensures s[i].id != s[j].id {
        var nl := |Contents(l)|;
        if j < nl {
          assert s[i] == Contents(l)[i] && s[j] == Contents(l)[j];
        } else if nl <= i {
          assert s[i] == Contents(r)[i - nl] && s[j] == Contents(r)[j - nl];
        } else {
          assert s[i] in Contents(l) && s[j] in Contents(r);
        }
      }
  }

  // ---------------------------------------------------------------------------
  // Operations

  /** `contains`: some leaf holds an entry equal (by identifier) to `x`. */
  function Contains(b: Bucket, x: Contact): (r: bool)
    ensures r <==> x.id in Ids(b)
  {
    match b
    case Leaf(_, es) => x.id in IdsOf(es)
    case Split(_, l, r) => Contains(l, x) || Contains(r, x)
  }

  /** The contacts to insert share the trie's prefix, and are new to it and to each other. */
  predicate Insertable(b: Bucket, xs: seq<Contact>)
    requires Shaped(b)
  {
    && DistinctIds(xs)
    && (forall c | c in xs :: c.id !in Ids(b))
    && (|xs| > 0 ==> Agrees(b, xs[0].id) && forall c | c in xs :: AgreeBelow(c.id, xs[0].id, b.level))
  }

  // Proof steps for Insert, SplitLeaf and InsertAll, kept apart so that each
  // function's own obligation stays small.

  lemma AgreeTrans(a: Id, b: Id, c: Id, n: nat)
    requires n <= IdBits && AgreeBelow(a, b, n) && AgreeBelow(b, c, n)
    ensures AgreeBelow(a, c, n)
  {
  }

  lemma AgreeSym(a: Id, b: Id, n: nat)
    requires n <= IdBits && AgreeBelow(a, b, n)
    ensures AgreeBelow(b, a, n)
  {
  }

  lemma IdsConcat(s: seq<Contact>, t: seq<Contact>)
    ensures IdsOf(s + t) == IdsOf(s) + IdsOf(t)
  {
  }

  lemma InsertedContents(before: seq<Contact>, after: seq<Contact>, xs: seq<Contact>)
    requires multiset(after) == multiset(before) + multiset(xs)
    ensures forall c | c in after :: c in before || c in xs
    ensures forall c | c in before :: c in after
    ensures IdsOf(after) == IdsOf(before) + IdsOf(xs)
  {
    forall c | c in after ensures c in before || c in xs {
      assert c in multiset(after);
    }
    forall c | c in before + xs ensures c in after {
      assert multiset(after)[c] == multiset(before)[c] + multiset(xs)[c];
      if c in before { assert c in multiset(before); } else { assert c in multiset(xs); }
    }
  }

  lemma AppendDistinct(es: seq<Contact>, x: Contact)
    requires DistinctIds(es) && x.id !in IdsOf(es)
    ensures DistinctIds(es + [x])
  {
    var s := es + [x];
    forall i, j | 0 <= i < j < |s| ensures s[i].id != s[j].id {
      if j == |es| {
        assert s[i] in es;
      } else {
        assert s[i] == es[i] && s[j] == es[j];
      }
    }
  }

  /** A child of a split agrees with every identifier that routes into it. */
  lemma AgreesChild(b: Bucket, p: Id)
    requires b.Split? && Shaped(b) && Sorted(b) && Agrees(b, p)
    ensures BitAt(p, b.level) ==> Agrees(b.left, p)
    ensures !BitAt(p, b.level) ==> Agrees(b.right, p)
    ensures Ids(b) == Ids(b.left) + Ids(b.right)
  {
    IdsConcat(Contents(b.left), Contents(b.right));
  }

  /** A full leaf that agrees with a new identifier can still split. */
  lemma FullLeafSplits(b: Bucket, x: Contact, k: nat)
    requires Valid(b) && b.Leaf? && 1 <= k <= |b.entries|
    requires Agrees(b, x.id) && x.id !in Ids(b)
    ensures b.level < IdBits
    ensures DistinctIds(b.entries + [x])
    ensures forall c | c in b.entries + [x] :: AgreeBelow(c.id, (b.entries + [x])[0].id, b.level)
  {
    var es := b.entries;
    var d := b.level;
    AppendDistinct(es, x);
    assert es[0] in Contents(b);
    if d == IdBits {
      BitsDetermineId(es[0].id, x.id);
      assert false;
    }
    assert (es + [x])[0] == es[0];
    forall c | c in es + [x] ensures AgreeBelow(c.id, es[0].id, d) {
      AgreeSym(es[0].id, x.id, d);
      if c in es {
        AgreeTrans(c.id, x.id, es[0].id, d);
      }
    }
  }

  lemma {:induction false} GrowsReflexive(b: Bucket)
    ensures Grows(b, b)
  {
    match b
    case Leaf(_, _) =>
    case Split(_, l, r) =>
      GrowsReflexive(l);
      GrowsReflexive(r);
  }

  /** After splitting on bit `d`, each child's contacts share their first `d + 1` bits. */
  lemma ChildPrefix(all: seq<Contact>, d: nat, set_: bool)
    requires d < IdBits && |all| > 0
    requires forall c | c in all :: AgreeBelow(c.id, all[0].id, d)
    ensures var s := Filter(all, d, set_);
      |s| > 0 ==> forall c | c in s :: AgreeBelow(c.id, s[0].id, d + 1)
  {
    var s := Filter(all, d, set_);
    if |s| > 0 {
      assert s[0] in s;
      forall c | c in s ensures AgreeBelow(c.id, s[0].id, d + 1) {
        forall i | 0 <= i < d + 1 ensures BitAt(c.id, i) == BitAt(s[0].id, i) {
          if i < d {
            assert BitAt(c.id, i) == BitAt(all[0].id, i);
            assert BitAt(s[0].id, i) == BitAt(all[0].id, i);
          }
        }
      }
    }
  }

  /** Putting two valid children under a split on the bit that separates them. */
  lemma SplitValid(d: nat, l: Bucket, r: Bucket)
    requires d < IdBits && Valid(l) && Valid(r)
    requires l.level == d + 1 && r.level == d + 1
    requires forall c | c in Contents(l) :: BitAt(c.id, d)
    requires forall c | c in Contents(r) :: !BitAt(c.id, d)
    ensures Valid(Split(d, l, r))
  {
  }

  /** The children of a split start empty, so any list that shares a prefix may go in. */
  lemma EmptyChildInsertable(d: nat, s: seq<Contact>)
    requires d < IdBits && DistinctIds(s)
    requires |s| > 0 ==> forall c | c in s :: AgreeBelow(c.id, s[0].id, d + 1)
    ensures Valid(Leaf(d + 1, [])) && Insertable(Leaf(d + 1, []), s)
  {
  }

  lemma InsertableTail(b: Bucket, b': Bucket, xs: seq<Contact>)
    requires Shaped(b) && Shaped(b') && b'.level == b.level
    requires |xs| > 0 && Insertable(b, xs)
    requires multiset(Contents(b')) == multiset(Contents(b)) + multiset{xs[0]}
    ensures Insertable(b', xs[1..])
  {
    InsertedContents(Contents(b), Contents(b'), [xs[0]]);
    var t := xs[1..];
    forall c | c in t ensures c.id !in Ids(b') {
      var j :| 0 <= j < |t| && t[j] == c;
      assert xs[j + 1] == c;
      assert c in xs;
    }
    if |t| > 0 {
      var n := b.level;
      assert t[0] in xs;
      forall c | c in Contents(b') ensures AgreeBelow(c.id, t[0].id, n) {
        AgreeSym(t[0].id, xs[0].id, n);
        if c in Contents(b) {
          AgreeTrans(c.id, xs[0].id, t[0].id, n);
        } else {
          assert c == xs[0];
        }
      }
      forall c | c in t ensures AgreeBelow(c.id, t[0].id, n) {
        assert c in xs;
        AgreeSym(t[0].id, xs[0].id, n);
        AgreeTrans(c.id, xs[0].id, t[0].id, n);
      }
    }
  }

  /**
   * `insert`: append to a leaf with room; split a full leaf into two fresh
   * children at `level + 1` and insert the old entries followed by the new
   * one into them; on a split bucket descend by bit `level`.
   */
  function Insert(b: Bucket, x: Contact, k: nat): (r: Bucket)
    requires 1 <= k && Valid(b)
    requires Agrees(b, x.id) && x.id !in Ids(b)
    ensures Valid(r) && r.level == b.level
    ensures multiset(Contents(r)) == multiset(Contents(b)) + multiset{x}
    ensures Bounded(b, k) ==> Bounded(r, k)
    ensures Grows(b, r)
    decreases IdBits - b.level, 1, 0
  {
    match b
    case Leaf(d, es) =>
      if |es| < k then
        AppendDistinct(es, x);
        Leaf(d, es + [x])
      else
        FullLeafSplits(b, x, k);
        SplitLeaf(d, es + [x], k)
    case Split(_, _, _) => InsertBelow(b, x, k)
  }

  /** `insert` on a split bucket: the child that bit `level` of the identifier selects takes the contact. */
  function InsertBelow(b: Bucket, x: Contact, k: nat): (r: Bucket)
    requires 1 <= k && Valid(b) && b.Split?
    requires Agrees(b, x.id) && x.id !in Ids(b)
    ensures Valid(r) && r.level == b.level
    ensures multiset(Contents(r)) == multiset(Contents(b)) + multiset{x}
    ensures Bounded(b, k) ==> Bounded(r, k)
    ensures Grows(b, r)
    decreases IdBits - b.level, 0, 1
  {
    var Split(d, l, r) := b;
    AgreesChild(b, x.id);
    if BitAt(x.id, d) then
      var l' := Insert(l, x, k);
      InsertedLeft(d, l, l', r, x, k);
      Split(d, l', r)
    else
      var r' := Insert(r, x, k);
      InsertedRight(d, l, r, r', x, k);
      Split(d, l, r')
  }

  /** The split bucket after its left child took `x`. */
  lemma InsertedLeft(d: nat, l: Bucket, l': Bucket, r: Bucket, x: Contact, k: nat)
    requires Valid(Split(d, l, r)) && BitAt(x.id, d)
    requires Valid(l') && l'.level == l.level && Grows(l, l')
    requires multiset(Contents(l')) == multiset(Contents(l)) + multiset{x}
    requires Bounded(l, k) ==> Bounded(l', k)
    ensures Valid(Split(d, l', r))
    ensures multiset(Contents(Split(d, l', r))) == multiset(Contents(Split(d, l, r))) + multiset{x}
    ensures Bounded(Split(d, l, r), k) ==> Bounded(Split(d, l', r), k)
    ensures Grows(Split(d, l, r), Split(d, l', r))
  {
    InsertedContents(Contents(l), Contents(l'), [x]);
    SplitValid(d, l', r);
    GrowsReflexive(r);
  }

  /** The split bucket after its right child took `x`. */
  lemma InsertedRight(d: nat, l: Bucket, r: Bucket, r': Bucket, x: Contact, k: nat)
    requires Valid(Split(d, l, r)) && !BitAt(x.id, d)
    requires Valid(r') && r'.level == r.level && Grows(r, r')
    requires multiset(Contents(r')) == multiset(Contents(r)) + multiset{x}
    requires Bounded(r, k) ==> Bounded(r', k)
    ensures Valid(Split(d, l, r'))
    ensures multiset(Contents(Split(d, l, r'))) == multiset(Contents(Split(d, l, r))) + multiset{x}
    ensures Bounded(Split(d, l, r), k) ==> Bounded(Split(d, l, r'), k)
    ensures Grows(Split(d, l, r), Split(d, l, r'))
  {
    InsertedContents(Contents(r), Contents(r'), [x]);
    SplitValid(d, l, r');
    GrowsReflexive(l);
  }

  /** The split of a full leaf at level `d` holding (old entries, new entry) = `all`. */
  function SplitLeaf(d: nat, all: seq<Contact>, k: nat): (r: Bucket)
    requires 1 <= k && d < IdBits
    requires DistinctIds(all) && |all| > 0
    requires forall c | c in all :: AgreeBelow(c.id, all[0].id, d)
    ensures Valid(r) && r.Split? && r.level == d
    ensures multiset(Contents(r.left)) == multiset(Filter(all, d, true))
    ensures multiset(Contents(r.right)) == multiset(Filter(all, d, false))
    ensures multiset(Contents(r)) == multiset(all)
    ensures Bounded(r, k)
    decreases IdBits - d, 0, 1
  {
    FilterPartition(all, d);
    var l := SplitChild(d, all, k, true);
    var r := SplitChild(d, all, k, false);
    SplitValid(d, l, r);
    Split(d, l, r)
  }

  /** One child of the split: the entries whose bit `d` is `side`, inserted in order into an empty leaf. */
  function SplitChild(d: nat, all: seq<Contact>, k: nat, side: bool): (r: Bucket)
    requires 1 <= k && d < IdBits
    requires DistinctIds(all) && |all| > 0
    requires forall c | c in all :: AgreeBelow(c.id, all[0].id, d)
    ensures Valid(r) && r.level == d + 1 && Bounded(r, k)
    ensures multiset(Contents(r)) == multiset(Filter(all, d, side))
    ensures forall c | c in Contents(r) :: BitAt(c.id, d) == side
    decreases IdBits - d, 0, 0
  {
    var xs := Filter(all, d, side);
    FilterDistinct(all, d, side);
    ChildPrefix(all, d, side);
    EmptyChildInsertable(d, xs);
    var child := InsertAll(Leaf(d + 1, []), xs, k);
    InsertedContents([], Contents(child), xs);
    child
  }

  /** Inserting the given contacts one after another, as the split loop does per child. */
  function InsertAll(b: Bucket, xs: seq<Contact>, k: nat): (r: Bucket)
    requires 1 <= k && Valid(b)
    requires Insertable(b, xs)
    ensures Valid(r) && r.level == b.level
    ensures multiset(Contents(r)) == multiset(Contents(b)) + multiset(xs)
    ensures Bounded(b, k) ==> Bounded(r, k)
    ensures Grows(b, r)
    decreases IdBits - b.level, 2, |xs|
  {
    if |xs| == 0 then
      GrowsReflexive(b);
      b
    else
      var b' := Insert(b, xs[0], k);
      InsertableTail(b, b', xs);
      var r := InsertAll(b', xs[1..], k);
      GrowsTrans(b, b', r);
      MultisetStep(multiset(Contents(b)), multiset(Contents(b')), multiset(Contents(r)), xs);
      r
  }

  lemma MultisetStep(before: multiset<Contact>, mid: multiset<Contact>, after: multiset<Contact>, xs: seq<Contact>)
    requires |xs| > 0
    requires mid == before + multiset{xs[0]} && after == mid + multiset(xs[1..])
    ensures after == before + multiset(xs)
  {
    MultisetHeadTail(xs);
  }

  lemma MultisetHeadTail(xs: seq<Contact>)
    requires |xs| > 0
    ensures multiset(xs) == multiset{xs[0]} + multiset(xs[1..])
  {
    assert xs == [xs[0]] + xs[1..];
  }

  lemma {:induction false} GrowsTrans(a: Bucket, b: Bucket, c: Bucket)
    requires Grows(a, b) && Grows(b, c)
    ensures Grows(a, c)
  {
    match a
    case Leaf(_, _) =>
    case Split(_, l, r) =>
      GrowsTrans(l, b.left, c.left);
      GrowsTrans(r, b.right, c.right);
  }

  /** After `insert(x)`, `contains(x)` holds and every earlier contact is still there. */
  lemma InsertContains(b: Bucket, x: Contact, k: nat)
    requires 1 <= k && Valid(b)
    requires Agrees(b, x.id) && x.id !in Ids(b)
    ensures Contains(Insert(b, x, k), x)
    ensures forall c | c in Contents(b) :: c in Contents(Insert(b, x, k))
    ensures Ids(Insert(b, x, k)) == Ids(b) + {x.id}
  {
    InsertedContents(Contents(b), Contents(Insert(b, x, k)), [x]);
  }

  /** A leaf with room gets the new contact appended at the end, nothing else changes. */
  lemma InsertAppends(b: Bucket, x: Contact, k: nat)
    requires 1 <= k && Valid(b) && b.Leaf? && |b.entries| < k
    requires Agrees(b, x.id) && x.id !in Ids(b)
    ensures Insert(b, x, k) == Leaf(b.level, b.entries + [x])
  {
  }

  /**
   * A full leaf turns into a split at the same level whose children, one
   * level deeper, hold the old entries and the new one, divided by bit `level`.
   */
  lemma InsertSplitsFullLeaf(b: Bucket, x: Contact, k: nat)
    requires 1 <= k && Valid(b) && b.Leaf? && |b.entries| >= k
    requires Agrees(b, x.id) && x.id !in Ids(b)
    ensures var r := Insert(b, x, k);
      && r.Split? && r.level == b.level
      && r.left.level == b.level + 1 && r.right.level == b.level + 1
      && multiset(Contents(r.left)) + multiset(Contents(r.right)) == multiset(b.entries) + multiset{x}
      && (forall c | c in Contents(r.left) :: BitAt(c.id, b.level))
      && (forall c | c in Contents(r.right) :: !BitAt(c.id, b.level))
  {
    FullLeafSplits(b, x, k);
  }

  /** Insertion into a split bucket follows bit `level` and leaves the other child alone. */
  lemma InsertDescends(b: Bucket, x: Contact, k: nat)
    requires 1 <= k && Valid(b) && b.Split?
    requires Agrees(b, x.id) && x.id !in Ids(b)
    ensures BitAt(x.id, b.level) ==> Insert(b, x, k).right == b.right
    ensures !BitAt(x.id, b.level) ==> Insert(b, x, k).left == b.left
  {
  }

  lemma {:induction false} SameShapeReflexive(b: Bucket)
    ensures SameShape(b, b)
  {
    match b
    case Leaf(_, _) =>
    case Split(_, l, r) =>
      SameShapeReflexive(l);
      SameShapeReflexive(r);
  }

  /** `remove` (and the timeout callback): drop the contact from the leaf its identifier routes to. */
  function Remove(b: Bucket, x: Contact): (r: Bucket)
    requires Shaped(b)
    ensures SameShape(b, r) && Shaped(r) && r.level == b.level
    ensures Route(r, x.id) == RemoveFirst(Route(b, x.id), x)
    ensures forall c | c in Contents(r) :: c in Contents(b)
    ensures forall c | c in Contents(b) && c.id != x.id :: c in Contents(r)
  {
    match b
    case Leaf(d, es) => Leaf(d, RemoveFirst(es, x))
    case Split(d, l, r) =>
      if BitAt(x.id, d) then SameShapeReflexive(r); Split(d, Remove(l, x), r)
      else SameShapeReflexive(l); Split(d, l, Remove(r, x))
  }

  /** `onReceive`: move (a copy of) the answering contact to the front of its leaf. */
  function Touch(b: Bucket, x: Contact): (r: Bucket)
    requires Shaped(b)
    ensures SameShape(b, r) && Shaped(r) && r.level == b.level
    ensures Route(r, x.id) == [x] + RemoveFirst(Route(b, x.id), x)
    ensures forall c | c in Contents(r) :: c in Contents(b) || c == x
    ensures forall c | c in Contents(b) && c.id != x.id :: c in Contents(r)
  {
    match b
    case Leaf(d, es) => Leaf(d, [x] + RemoveFirst(es, x))
    case Split(d, l, r) =>
      if BitAt(x.id, d) then SameShapeReflexive(r); Split(d, Touch(l, x), r)
      else SameShapeReflexive(l); Split(d, l, Touch(r, x))
  }

  lemma {:induction false} SameShapeGrows(b: Bucket, b': Bucket)
    requires SameShape(b, b')
    ensures Grows(b, b')
  {
    match b
    case Leaf(_, _) =>
    case Split(_, l, r) =>
      SameShapeGrows(l, b'.left);
      SameShapeGrows(r, b'.right);
  }

  /** `remove` keeps the trie valid and bounded, and removes exactly `x`'s identifier. */
  lemma {:induction false} RemoveKeepsValid(b: Bucket, x: Contact, k: nat)
    requires Valid(b)
    ensures Valid(Remove(b, x))
    ensures Bounded(b, k) ==> Bounded(Remove(b, x), k)
    ensures Ids(Remove(b, x)) == Ids(b) - {x.id}
    ensures Grows(b, Remove(b, x))
  {
    SameShapeGrows(b, Remove(b, x));
    RemoveIds(b, x);
    match b
    case Leaf(_, es) =>
      RemoveFirstDistinct(es, x);
    case Split(d, l, r) =>
      RemoveKeepsValid(l, x, k);
      RemoveKeepsValid(r, x, k);
  }

  /** `remove` drops exactly `x`'s identifier. */
  lemma {:induction false} RemoveIds(b: Bucket, x: Contact)
    requires Valid(b)
    ensures Ids(Remove(b, x)) == Ids(b) - {x.id}
  {
    match b
    case Leaf(_, es) =>
      RemoveFirstDistinct(es, x);
    case Split(d, l, r) =>
      IdsConcat(Contents(l), Contents(r));
      if BitAt(x.id, d) {
        RemoveIds(l, x);
        IdsConcat(Contents(Remove(l, x)), Contents(r));
        assert x.id !in Ids(r) by {
          assert forall c | c in Contents(r) :: c.id != x.id;
        }
        MinusUnion(Ids(l), Ids(r), x.id);
      } else {
        RemoveIds(r, x);
        IdsConcat(Contents(l), Contents(Remove(r, x)));
        assert x.id !in Ids(l) by {
          assert forall c | c in Contents(l) :: c.id != x.id;
        }
        MinusUnion(Ids(r), Ids(l), x.id);
      }
  }

  lemma MinusUnion(a: set<Id>, b: set<Id>, x: Id)
    requires x !in b
    ensures (a - {x}) + b == (a + b) - {x} && b + (a - {x}) == (a + b) - {x}
  {
  }

  lemma TouchLeaf(es: seq<Contact>, x: Contact)
    requires DistinctIds(es)
    ensures DistinctIds([x] + RemoveFirst(es, x))
    ensures IdsOf([x] + RemoveFirst(es, x)) == IdsOf(es) + {x.id}
    ensures x.id in IdsOf(es) ==> |[x] + RemoveFirst(es, x)| == |es|
  {
    RemoveFirstDistinct(es, x);
    var t := RemoveFirst(es, x);
    var s := [x] + t;
    forall i, j | 0 <= i < j < |s| ensures s[i].id != s[j].id {
      if i == 0 { assert s[j] in t; }
      else { assert s[i] == t[i - 1] && s[j] == t[j - 1]; }
    }
    IdsConcat([x], t);
  }

  /** `onReceive` keeps the trie valid and adds no split and removes none. */
  lemma {:induction false} TouchKeepsValid(b: Bucket, x: Contact)
    requires Valid(b) && Agrees(b, x.id)
    ensures Valid(Touch(b, x))
    ensures Grows(b, Touch(b, x))
  {
    SameShapeGrows(b, Touch(b, x));
    match b
    case Leaf(_, es) =>
      TouchLeaf(es, x);
    case Split(d, l, r) =>
      AgreesChild(b, x.id);
      if BitAt(x.id, d) {
        TouchKeepsValid(l, x);
        SplitValid(d, Touch(l, x), r);
      } else {
        TouchKeepsValid(r, x);
        SplitValid(d, l, Touch(r, x));
      }
  }

  /** `onReceive` adds `x`'s identifier and keeps all the others. */
  lemma {:induction false} TouchIds(b: Bucket, x: Contact)
    requires Valid(b) && Agrees(b, x.id)
    ensures Ids(Touch(b, x)) == Ids(b) + {x.id}
  {
    match b
    case Leaf(_, es) =>
      TouchLeaf(es, x);
    case Split(d, l, r) =>
      AgreesChild(b, x.id);
      IdsConcat(Contents(Touch(b, x).left), Contents(Touch(b, x).right));
      if BitAt(x.id, d) {
        TouchIds(l, x);
      } else {
        TouchIds(r, x);
      }
  }

  /** A leaf stays within `k` entries under `onReceive` when `x` was still in it. */
  lemma {:induction false} TouchBounded(b: Bucket, x: Contact, k: nat)
    requires Valid(b) && Agrees(b, x.id) && Bounded(b, k)
    requires Contains(b, x)
    ensures Bounded(Touch(b, x), k)
  {
    match b
    case Leaf(_, es) =>
      TouchLeaf(es, x);
    case Split(d, l, r) =>
      AgreesChild(b, x.id);
      if BitAt(x.id, d) {
        assert forall c | c in Contents(r) :: c.id != x.id;
        TouchBounded(l, x, k);
      } else {
        assert forall c | c in Contents(l) :: c.id != x.id;
        TouchBounded(r, x, k);
      }
  }


}

=== FILE: buffer_util.dfy ===
/**
 * `java.nio.ByteBuffer` as far as the peer uses it, `InetSocketAddress`, and
 * the two helpers of src/util/BufferUtil.java.
 */
module BufferUtil {
  import opened Wrappers
  import opened Bytes

  /** A heap `ByteBuffer`: the backing array (its length is the capacity), position and limit. */
  datatype Buffer = Buffer(data: seq<Byte>, position: nat, limit: nat) {
    predicate Valid() {
      position <= limit <= |data|
    }

    function Capacity(): nat {
      |data|
    }

    /** The bytes between position and limit: what a channel write transmits. */
    function Remaining(): seq<Byte>
      requires Valid()
    {
      data[position..limit]
    }
  }

  function Zeros(n: nat): (z: seq<Byte>)
    ensures |z| == n
    ensures forall i | 0 <= i < n :: z[i] == 0
  {
    seq(n, _ => 0)
  }

  /** `ByteBuffer.allocate`: zero-filled, position 0, limit at capacity. */
  function Allocate(capacity: nat): (b: Buffer)
    ensures b.Valid() && b.Capacity() == capacity
  {
    Buffer(Zeros(capacity), 0, capacity)
  }

  /** `put(byte[])`: `None` is the `BufferOverflowException` when fewer bytes remain. */
  function Put(b: Buffer, bs: seq<Byte>): (r: Option<Buffer>)
    requires b.Valid()
    ensures r.Some? <==> |bs| <= b.limit - b.position
    ensures r.Some? ==> r.value.Valid() && r.value.Capacity() == b.Capacity()
    ensures r.Some? ==> r.value.position == b.position + |bs| && r.value.limit == b.limit
    ensures r.Some? ==> r.value.data[b.position..r.value.position] == bs
    ensures r.Some? ==> r.value.data[..b.position] == b.data[..b.position]
  {
    if |bs| <= b.limit - b.position then
      var data := b.data[..b.position] + bs + b.data[b.position + |bs|..];
      assert data[b.position..b.position + |bs|] == bs;
      Some(Buffer(data, b.position + |bs|, b.limit))
    else None
  }

  /** `flip`: the limit moves to the position, the position to 0. */
  function Flip(b: Buffer): (r: Buffer)
    requires b.Valid()
    ensures r.Valid()
  {
    Buffer(b.data, 0, b.position)
  }

  /** `rewind`: the position moves to 0. */
  function Rewind(b: Buffer): (r: Buffer)
    requires b.Valid()
    ensures r.Valid()
  {
    b.(position := 0)
  }

  /** `position(p)`. */
  function SetPosition(b: Buffer, p: nat): (r: Buffer)
    requires b.Valid() && p <= b.limit
    ensures r.Valid()
  {
    b.(position := p)
  }

  /**
   * `DatagramChannel.send(buffer, target)`: the remaining bytes form the
   * datagram and the position advances to the limit.
   */
  function Transmit(b: Buffer): (r: (seq<Byte>, Buffer))
    requires b.Valid()
    ensures r.0 == b.Remaining()
    ensures r.1.Valid() && r.1.Remaining() == []
  {
    (b.Remaining(), b.(position := b.limit))
  }

  /**
   * `BufferUtil.clone`: copy the original's bytes [0, limit) into a fresh
   * buffer of the same capacity, flip the copy, and put the original's
   * position back.  The result is (copy, original afterwards).
   */
  function Clone(original: Buffer): (r: (Buffer, Buffer))
    requires original.Valid()
    ensures r.1 == original
    ensures r.0.Valid() && r.0.Capacity() == original.Capacity()
    ensures r.0.position == 0 && r.0.limit == original.limit
    ensures r.0.data[..original.limit] == original.data[..original.limit]
    ensures r.0.Remaining() == original.data[..original.limit]
  {
    var oldPosition := original.position;
    var rewound := Rewind(original);
    var blank := Allocate(original.Capacity());
    var copied := Put(blank, rewound.Remaining()).value;
    var drained := rewound.(position := rewound.limit);
    var restored := SetPosition(drained, oldPosition);
    (Flip(copied), restored)
  }

  /** The host part of an `InetSocketAddress`, written as four dot-separated numbers. */
  type Quad = s: seq<int> | |s| == 4 witness [0, 0, 0, 0]

  /** `InetSocketAddress`: its constructor rejects ports outside 0..65535. */
  type Port = p: int | 0 <= p < 0x1_0000

  datatype Addr = Addr(host: Quad, port: Port)

  /** `Byte.valueOf` accepts exactly the decimal texts of -128..127. */
  predicate ByteValueOfAccepts(n: int) {
    -128 <= n < 128
  }

  /**
   * `BufferUtil.addrToBytes`: each part of the dotted host through
   * `Byte.valueOf`, then the port with `putInt`, in an 8-byte buffer.
   * `None` is the `NumberFormatException` for a part outside -128..127.
   */
  function AddrToBytes(a: Addr): (r: Option<seq<Byte>>)
    ensures r.Some? <==> forall i | 0 <= i < 4 :: ByteValueOfAccepts(a.host[i])
    ensures r.Some? ==> |r.value| == 8
    ensures r.Some? ==> forall i | 0 <= i < 4 :: Signed(r.value[i]) == a.host[i]
    ensures r.Some? ==> r.value[4..] == Int32BE(a.port)
  {
    if forall i | 0 <= i < 4 :: ByteValueOfAccepts(a.host[i]) then
      SignedOfInt(a.host[0]);
      SignedOfInt(a.host[1]);
      SignedOfInt(a.host[2]);
      SignedOfInt(a.host[3]);
      var octets := [OfInt(a.host[0]), OfInt(a.host[1]), OfInt(a.host[2]), OfInt(a.host[3])];
      Some(octets + Int32BE(a.port))
    else None
  }
}

=== FILE: bytes.dfy ===
/**
 * Octets as they appear in Java's `byte[]` and `ByteBuffer`: the signed view
 * Java reads them with, the big-endian `int` layout of `putInt`/`getInt`, and
 * the one-byte-per-character text conversion used for DATA frames.
 */
module Bytes {
  import Decimal

  type Byte = bv8

  /** The octet whose unsigned value is `n`, counted up from zero. */
  function Octet(n: nat): (b: Byte)
    requires n < 256
    ensures b as int == n
  {
    if n == 0 then 0 else OctetSucc(Octet(n - 1)); Octet(n - 1) + 1
  }

  lemma OctetSucc(b: Byte)
    requires b as int < 255
    ensures (b + 1) as int == b as int + 1
  {
  }

  /** The octet whose unsigned value is `x` modulo 256 (a narrowing cast). */
  function OfInt(x: int): (b: Byte)
    ensures b as int == x % 256
  {
    Octet(x % 256)
  }

  /** Two octets with the same unsigned value are the same octet. */
  lemma OctetValueInjective(a: Byte, b: Byte)
    requires a as int == b as int
    ensures a == b
  {
  }

  /** The value Java sees when it reads the octet as a (signed) `byte`. */
  function Signed(b: Byte): (v: int)
    ensures -128 <= v < 128
  {
    if b as int < 128 then b as int else b as int - 256
  }

  /** Writing back the signed value of an octet gives the same octet. */
  lemma OfIntSigned(b: Byte)
    ensures OfInt(Signed(b)) == b
  {
    var n := b as int;
    assert Signed(b) % 256 == n by {
      if n >= 128 {
        ModWrap(n);
      } else {
        SmallMod(n);
      }
    }
    OctetValueInjective(OfInt(Signed(b)), b);
  }

  lemma SignedOfInt(v: int)
    requires -128 <= v < 128
    ensures Signed(OfInt(v)) == v
  {
  }

  lemma ModWrap(n: int)
    requires 128 <= n < 256
    ensures (n - 256) % 256 == n
  {
  }

  /** `ByteBuffer.putInt`: four octets, most significant first. */
  function Int32BE(x: int): (bs: seq<Byte>)
    ensures |bs| == 4
  {
    var u := x % 0x1_0000_0000;
    [OfInt(u / 0x100_0000), OfInt(u / 0x1_0000), OfInt(u / 0x100), OfInt(u)]
  }

  /** `ByteBuffer.getInt`: four octets, most significant first, as a signed `int`. */
  function ReadInt32BE(bs: seq<Byte>): (x: int)
    requires |bs| == 4
    ensures Decimal.MinInt <= x <= Decimal.MaxInt
  {
    var u := ((bs[0] as int * 0x100 + bs[1] as int) * 0x100 + bs[2] as int) * 0x100 + bs[3] as int;
    if u < 0x8000_0000 then u else u - 0x1_0000_0000
  }

  lemma Base256Digits(u: int)
    requires 0 <= u < 0x1_0000_0000
    ensures (((u / 0x100_0000) * 0x100 + (u / 0x1_0000) % 256) * 0x100 + (u / 0x100) % 256) * 0x100 + u % 256 == u
  {
    var q1 := u / 0x100;
    var q2 := q1 / 0x100;
    var q3 := q2 / 0x100;
    assert u == q1 * 256 + u % 256;
    assert q1 == q2 * 256 + q1 % 256;
    assert q2 == q3 * 256 + q2 % 256;
    assert u / 0x1_0000 == q2;
    assert u / 0x100_0000 == q3;
  }

  /** `getInt` reads back exactly what `putInt` wrote. */
  lemma Int32RoundTrip(x: int)
    requires Decimal.MinInt <= x <= Decimal.MaxInt
    ensures ReadInt32BE(Int32BE(x)) == x
  {
    var u := x % 0x1_0000_0000;
    Wrap32(x);
    OctetsOfInt32(x);
    ReadDigits(Int32BE(x), u);
  }

  lemma Wrap32(x: int)
    requires Decimal.MinInt <= x <= Decimal.MaxInt
    ensures x % 0x1_0000_0000 == if x < 0 then x + 0x1_0000_0000 else x
  {
  }

  lemma ReadDigits(bs: seq<Byte>, u: int)
    requires |bs| == 4 && 0 <= u < 0x1_0000_0000
    requires bs[0] as int == u / 0x100_0000
    requires bs[1] as int == (u / 0x1_0000) % 256
    requires bs[2] as int == (u / 0x100) % 256
    requires bs[3] as int == u % 256
    ensures ReadInt32BE(bs) == if u < 0x8000_0000 then u else u - 0x1_0000_0000
  {
    Base256Digits(u);
  }

  lemma OctetsOfInt32(x: int)
    ensures Int32BE(x)[0] as int == (x % 0x1_0000_0000) / 0x100_0000
    ensures Int32BE(x)[1] as int == ((x % 0x1_0000_0000) / 0x1_0000) % 256
    ensures Int32BE(x)[2] as int == ((x % 0x1_0000_0000) / 0x100) % 256
    ensures Int32BE(x)[3] as int == (x % 0x1_0000_0000) % 256
  {
    HighOctet(x % 0x1_0000_0000);
  }

  lemma HighOctet(u: int)
    requires 0 <= u < 0x1_0000_0000
    ensures u / 0x100_0000 < 256
    ensures (u / 0x100_0000) % 256 == u / 0x100_0000
  {
  }

  /** `String.getBytes` with charset conversion left out: one octet per character. */
  function TextBytes(s: string): (bs: seq<Byte>)
    ensures |bs| == |s|
    ensures forall i | 0 <= i < |s| :: bs[i] as int == s[i] as int % 256
  {
    seq(|s|, i requires 0 <= i < |s| => OfInt(s[i] as int))
  }

  /** `new String(bytes)` with charset conversion left out: one character per octet. */
  function BytesText(bs: seq<Byte>): (s: string)
    ensures |s| == |bs|
    ensures forall i | 0 <= i < |bs| :: s[i] as int == bs[i] as int
  {
    seq(|bs|, i requires 0 <= i < |bs| => bs[i] as int as char)
  }

  predicate IsLatin1(s: string) {
    forall i | 0 <= i < |s| :: s[i] as int < 256
  }

  lemma SmallMod(n: int)
    requires 0 <= n < 256
    ensures n % 256 == n
  {
  }

  /** Text made of characters below 256 survives the trip through octets. */
  lemma TextRoundTrip(s: string)
    requires IsLatin1(s)
    ensures BytesText(TextBytes(s)) == s
  {
    var bs := TextBytes(s);
    var t := BytesText(bs);
    forall i | 0 <= i < |s|
      ensures t[i] == s[i]
    {
      var n := s[i] as int;
      SmallMod(n);
      assert t[i] as int == bs[i] as int == n;
    }
  }

  /** Distinct octet strings give distinct texts. */
  lemma BytesTextInjective(a: seq<Byte>, b: seq<Byte>)
    requires BytesText(a) == BytesText(b)
    ensures a == b
  {
    forall i | 0 <= i < |a|
      ensures a[i] == b[i]
    {
      assert BytesText(a)[i] == BytesText(b)[i];
    }
  }
}

=== FILE: chunks.dfy ===
/**
 * The DATA text frame `fid-count-index-content` of src/node/Node.java's
 * `sendData`, the way src/node/UDPHandler.java's `receiveData` splits it with
 * `String.split("-")`, and the per-file chunk buffers that reassemble a file.
 */
module DataFrame {
  import opened Wrappers
  import opened Decimal

  /** `Node.CHUNK_SIZE`: characters of file text per DATA frame. */
  const ChunkSize: nat := 4

  const Dash: char := '-'

  /** The index of the first dash of `s`. */
  function FirstDash(s: string): (i: nat)
    requires Dash in s
    ensures i < |s| && s[i] == Dash
    ensures forall j | 0 <= j < i :: s[j] != Dash
  {
    if s[0] == Dash then 0
    else
      assert Dash in s[1..] by {
        var k :| 0 <= k < |s| && s[k] == Dash;
        assert s[1..][k - 1] == Dash;
      }
      1 + FirstDash(s[1..])
  }

  /** The text between consecutive dashes, empty pieces included. */
  function Pieces(s: string): (r: seq<string>)
    ensures 1 <= |r|
    decreases |s|
  {
    if Dash !in s then [s]
    else
      var i := FirstDash(s);
      [s[..i]] + Pieces(s[i + 1..])
  }

  /** Java's `split` removes trailing empty strings from the piece list. */
  function DropTrailingEmpty(ps: seq<string>): (r: seq<string>)
    ensures |r| <= |ps| && r == ps[..|r|]
    ensures 0 < |r| ==> r[|r| - 1] != ""
    ensures forall j | |r| <= j < |ps| :: ps[j] == ""
  {
    if |ps| == 0 then []
    else if ps[|ps| - 1] == "" then DropTrailingEmpty(ps[..|ps| - 1])
    else ps
  }

  /**
   * `s.split("-")`: a string without a dash is returned whole (even when
   * empty); otherwise the pieces, with trailing empty ones removed.
   */
  function JavaSplit(s: string): (r: seq<string>)
    ensures Dash !in s ==> r == [s]
    ensures Dash in s ==> r == DropTrailingEmpty(Pieces(s))
  {
    if Dash !in s then [s] else DropTrailingEmpty(Pieces(s))
  }

  /** The fields of one DATA frame. */
  datatype Chunk = Chunk(fid: string, count: int, index: int, content: string)

  /** The text of chunk `index` of `count`: `fid-count-index-content`. */
  function Format(fid: string, count: nat, index: nat, content: string): string {
    fid + [Dash] + ToDecimal(count) + [Dash] + ToDecimal(index) + [Dash] + content
  }

  /**
   * `receiveData`'s field extraction: piece 0 is the file name, pieces 1 and
   * 2 go through `Integer.parseInt` and piece 3 is the content. A missing
   * piece (`ArrayIndexOutOfBoundsException`) or a malformed number
   * (`NumberFormatException`) is `None`.
   */
  function Parse(text: string): (r: Option<Chunk>)
    ensures r.Some? <==>
      (4 <= |JavaSplit(text)| && ParseInt(JavaSplit(text)[1]).Some? && ParseInt(JavaSplit(text)[2]).Some?)
    ensures r.Some? ==> r.value.fid == JavaSplit(text)[0] && r.value.content == JavaSplit(text)[3]
  {
    var parts := JavaSplit(text);
    if |parts| < 4 then None
    else
      var count :- ParseInt(parts[1]);
      var index :- ParseInt(parts[2]);
      Some(Chunk(parts[0], count, index, parts[3]))
  }

  /** A text that does not open with a dash keeps its first character at the head of piece 0. */
  lemma FirstPieceStart(text: string)
    requires 0 < |text| && text[0] != Dash
    ensures 0 < |JavaSplit(text)| && 0 < |JavaSplit(text)[0]| && JavaSplit(text)[0][0] == text[0]
  {
    if Dash in text {
      var ps := Pieces(text);
      var i := FirstDash(text);
      assert ps[0] == text[..i] && 0 < i;
      assert ps[0] != "";
      assert JavaSplit(text)[0] == ps[0];
    }
  }

  lemma DigitsHaveNoDash(s: string)
    requires AllDigits(s)
    ensures Dash !in s
  {
    assert forall k | 0 <= k < |s| :: s[k] != Dash by {
      forall k | 0 <= k < |s| ensures s[k] != Dash {
        assert IsDigit(s[k]);
      }
    }
  }

  /** The first dash of `a + b` lies in `a` when `a` has one. */
  lemma FirstDashInPrefix(a: string, b: string)
    requires Dash in a
    ensures FirstDash(a + b) == FirstDash(a)
  {
    var s := a + b;
    var i, j := FirstDash(s), FirstDash(a);
    assert s[j] == Dash;
  }

  /** A dash-free head followed by a dash is split off as one piece. */
  lemma PiecesAfter(a: string, b: string)
    requires Dash !in a
    ensures Pieces(a + [Dash] + b) == [a] + Pieces(b)
  {
    var s := a + [Dash] + b;
    assert s[|a|] == Dash;
    var i := FirstDash(s);
    assert s[..i] == a;
    assert s[i + 1..] == b;
  }

  /** Three dash-free fields joined by dashes ahead of `rest` are split off as three pieces. */
  lemma ThreePieces(a: string, b: string, d: string, rest: string)
    requires Dash !in a && Dash !in b && Dash !in d
    ensures Pieces(a + [Dash] + b + [Dash] + d + [Dash] + rest) == [a, b, d] + Pieces(rest)
  {
    var pr := Pieces(rest);
    var t2 := d + [Dash] + rest;
    var t1 := b + [Dash] + t2;
    assert a + [Dash] + b + [Dash] + d + [Dash] + rest == a + [Dash] + t1;
    PiecesAfter(a, t1);
    PiecesAfter(b, t2);
    PiecesAfter(d, rest);
    ConsThree(a, b, d, pr);
  }

  lemma ConsFour<T>(a: T, b: T, d: T, e: T, f: T)
    ensures [a] + ([b, d, e] + [f]) == [a, b, d, e, f]
  {
  }

  lemma ConsThree<T>(a: T, b: T, d: T, p: seq<T>)
    ensures [a] + ([b] + ([d] + p)) == [a, b, d] + p
  {
  }

  /** The pieces of a formatted frame are its four fields followed by the pieces of the content. */
  lemma FormatPieces(fid: string, count: nat, index: nat, content: string)
    requires Dash !in fid
    ensures Pieces(Format(fid, count, index, content))
      == [fid, ToDecimal(count), ToDecimal(index)] + Pieces(content)
  {
    DigitsHaveNoDash(ToDecimal(count));
    DigitsHaveNoDash(ToDecimal(index));
    ThreePieces(fid, ToDecimal(count), ToDecimal(index), content);
  }

  /**
   * Splitting a DATA frame recovers its four fields exactly when neither the
   * file name nor the content contains a dash and the content is non-empty
   * (an empty last piece is dropped by `split`); the counters are at most
   * `Integer.MAX_VALUE`, as Java `int` values are.
   */
  lemma FormatParse(fid: string, count: nat, index: nat, content: string)
    requires count <= MaxInt && index <= MaxInt
    ensures Parse(Format(fid, count, index, content)) == Some(Chunk(fid, count, index, content))
      <==> Dash !in fid && Dash !in content && content != ""
  {
    if Dash in fid {
      DashInNameBreaks(fid, count, index, content);
    } else if Dash in content {
      DashInContentBreaks(fid, count, index, content);
    } else if content == "" {
      EmptyContentBreaks(fid, count, index);
    } else {
      FormatParses(fid, count, index, content);
    }
  }

  lemma FormatParses(fid: string, count: nat, index: nat, content: string)
    requires count <= MaxInt && index <= MaxInt
    requires Dash !in fid && Dash !in content && content != ""
    ensures Parse(Format(fid, count, index, content)) == Some(Chunk(fid, count, index, content))
  {
    var text := Format(fid, count, index, content);
    assert text[|fid|] == Dash;
    FormatPieces(fid, count, index, content);
    ParseIntOfDecimal(count);
    ParseIntOfDecimal(index);
    assert JavaSplit(text) == [fid, ToDecimal(count), ToDecimal(index), content];
  }

  /** Text in front of a chunk text belongs to its file name. */
  lemma FormatPrefix(h: string, fid: string, count: nat, index: nat, content: string)
    ensures h + Format(fid, count, index, content) == Format(h + fid, count, index, content)
  {
  }

  /** A dash in the file name cuts the first piece short. */
  lemma DashInNameBreaks(fid: string, count: nat, index: nat, content: string)
    requires Dash in fid
    ensures Parse(Format(fid, count, index, content)) != Some(Chunk(fid, count, index, content))
  {
    var text := Format(fid, count, index, content);
    assert text[|fid|] == Dash;
    var parts := JavaSplit(text);
    assert text == fid + (text[|fid|..]);
    FirstDashInPrefix(fid, text[|fid|..]);
    var j := FirstDash(fid);
    if 4 <= |parts| {
      assert |parts[0]| == |Pieces(text)[0]| == j < |fid|;
    }
  }

  /** A dash in the content cuts the fourth piece short. */
  lemma DashInContentBreaks(fid: string, count: nat, index: nat, content: string)
    requires Dash !in fid && Dash in content
    ensures Parse(Format(fid, count, index, content)) != Some(Chunk(fid, count, index, content))
  {
    var text := Format(fid, count, index, content);
    assert text[|fid|] == Dash;
    var parts := JavaSplit(text);
    FormatPieces(fid, count, index, content);
    var j := FirstDash(content);
    assert Pieces(content)[0] == content[..j];
    if 4 <= |parts| {
      assert |parts[3]| == |Pieces(text)[3]| == j < |content|;
    }
  }

  /** An empty content is an empty trailing piece, which `split` drops. */
  lemma EmptyContentBreaks(fid: string, count: nat, index: nat)
    requires Dash !in fid
    ensures Parse(Format(fid, count, index, "")).None?
  {
    var text := Format(fid, count, index, "");
    assert text[|fid|] == Dash;
    FormatPieces(fid, count, index, "");
    var ps := Pieces(text);
    assert ps == [fid, ToDecimal(count), ToDecimal(index), ""];
    assert |DropTrailingEmpty(ps)| <= 3;
  }

  /** `data.length() / CHUNK_SIZE`: the number of frames `sendData` sends. */
  function ChunkCount(data: string): nat {
    |data| / ChunkSize
  }

  /** The contents of the frames `sendData` sends, in order: `data[4i, 4i+4)`. */
  function ChunkContents(data: string): (r: seq<string>)
    ensures |r| == ChunkCount(data)
    ensures forall i | 0 <= i < |r| :: |r[i]| == ChunkSize
  {
    seq(ChunkCount(data), i requires 0 <= i < ChunkCount(data) =>
      data[ChunkSize * i..ChunkSize * (i + 1)])
  }

  /** The frame texts `sendData` sends for file name `fid`. */
  function ChunkTexts(fid: string, data: string): (r: seq<string>)
    ensures |r| == ChunkCount(data)
  {
    var n := ChunkCount(data);
    seq(n, i requires 0 <= i < n => Format(fid, n, i, ChunkContents(data)[i]))
  }

  /** Strings joined in order. */
  function Concat(ss: seq<string>): (r: string)
    decreases |ss|
  {
    if |ss| == 0 then "" else Concat(ss[..|ss| - 1]) + ss[|ss| - 1]
  }

  lemma {:induction false} ConcatPrefix(data: string, n: nat)
    requires n <= ChunkCount(data)
    ensures Concat(ChunkContents(data)[..n]) == data[..ChunkSize * n]
  {
    if n > 0 {
      var cs := ChunkContents(data);
      assert cs[..n][..n - 1] == cs[..n - 1];
      ConcatPrefix(data, n - 1);
      assert data[..ChunkSize * n] == data[..ChunkSize * (n - 1)] + cs[n - 1];
    }
  }

  /**
   * Joined in order, the chunk contents are the first `4 * (len / 4)`
   * characters of the file: the whole file exactly when its length is a
   * multiple of 4, otherwise the last `len % 4` characters are lost.
   */
  lemma ChunksCoverData(data: string)
    ensures Concat(ChunkContents(data)) == data[..ChunkSize * ChunkCount(data)]
    ensures Concat(ChunkContents(data)) == data <==> |data| % ChunkSize == 0
  {
    var cs := ChunkContents(data);
    ConcatPrefix(data, |cs|);
    assert cs[..|cs|] == cs;
  }

  /** One file's received contents by chunk index. */
  type Received = map<int, string>

  /** The chunk buffers of all files being received, by file name. */
  type Buffers = map<string, Received>

  /** `put` only when the index has no content yet: the first write wins. */
  function Absorb(buf: Received, index: int, content: string): (r: Received)
    ensures r.Keys == buf.Keys + {index}
    ensures index in buf ==> r == buf
    ensures forall i | i in buf :: r[i] == buf[i]
    ensures index !in buf ==> r[index] == content
  {
    if index in buf then buf else buf[index := content]
  }

  /** The loop of `receiveData`: contents of indices `0 .. n-1`, `"null"` for a gap. */
  function Assemble(buf: Received, n: nat): (r: string)
  {
    if n == 0 then "" else Assemble(buf, n - 1) + (if n - 1 in buf then buf[n - 1] else "null")
  }

  /**
   * Feeding one parsed frame to the buffers: the first frame of a file opens
   * its buffer; when the number of distinct indices reaches `count` the file
   * text is assembled and the buffer dropped.
   */
  function Receive(bufs: Buffers, c: Chunk): (r: (Buffers, Option<string>))
    ensures r.1.Some? ==> r.0 == bufs - {c.fid}
    ensures r.1.None? ==> c.fid in r.0 && r.0 - {c.fid} == bufs - {c.fid}
    ensures r.1.Some? <==>
      c.count <= |Absorb(if c.fid in bufs then bufs[c.fid] else map[], c.index, c.content)|
  {
    var buf := Absorb(if c.fid in bufs then bufs[c.fid] else map[], c.index, c.content);
    if c.count <= |buf| then (bufs - {c.fid}, Some(Assemble(buf, |buf|)))
    else (bufs[c.fid := buf], None)
  }

  /** A dash-free head split off in front of a text whose last piece is not empty. */
  lemma SplitAfterHead(h: string, x: string)
    requires Dash !in h && Pieces(x)[|Pieces(x)| - 1] != ""
    ensures JavaSplit(h + [Dash] + x) == [h] + Pieces(x)
  {
    var q := Pieces(x);
    KeepsNonEmptyLast(h, q);
    var s := h + [Dash] + x;
    assert s[|h|] == Dash;
    PiecesAfter(h, x);
  }

  lemma KeepsNonEmptyLast(h: string, q: seq<string>)
    requires 0 < |q| && q[|q| - 1] != ""
    ensures DropTrailingEmpty([h] + q) == [h] + q
  {
    var ps := [h] + q;
    assert ps[|ps| - 1] == q[|q| - 1];
  }

  /**
   * A dash-free head and a dash in front of a chunk text whose name is a
   * number shift every field one place: the head is read as the name, the
   * name as the count, the count as the index and the index as the content.
   */
  lemma ShiftedParse(h: string, name: string, count: nat, index: nat, content: string)
    requires Dash !in h && Dash !in name && Dash !in content && content != ""
    requires ParseInt(name).Some? && count <= MaxInt
    ensures Parse(h + [Dash] + Format(name, count, index, content))
      == Some(Chunk(h, ParseInt(name).value, count, ToDecimal(index)))
  {
    var x := Format(name, count, index, content);
    var ps := [name, ToDecimal(count), ToDecimal(index), content];
    FormatFourPieces(name, count, index, content);
    ParseIntOfDecimal(count);
    ShiftedFields(h, x, ps);
  }

  /** The text of a chunk with dash-free fields splits into exactly those four fields. */
  lemma FormatFourPieces(name: string, count: nat, index: nat, content: string)
    requires Dash !in name && Dash !in content
    ensures Pieces(Format(name, count, index, content)) == [name, ToDecimal(count), ToDecimal(index), content]
  {
    FormatPieces(name, count, index, content);
    assert Pieces(content) == [content];
  }

  /** The four pieces of `x`, behind a dash-free head, are read one field later. */
  lemma ShiftedFields(h: string, x: string, ps: seq<string>)
    requires Dash !in h && Pieces(x) == ps && |ps| == 4 && ps[3] != ""
    requires ParseInt(ps[0]).Some? && ParseInt(ps[1]).Some?
    ensures Parse(h + [Dash] + x) == Some(Chunk(h, ParseInt(ps[0]).value, ParseInt(ps[1]).value, ps[2]))
  {
    SplitAfterHead(h, x);
    ParseFields(h + [Dash] + x, [h] + ps);
  }

  /** Parse reads the first four pieces of a split with at least four of them. */
  lemma ParseFields(text: string, ps: seq<string>)
    requires JavaSplit(text) == ps && 4 <= |ps|
    requires ParseInt(ps[1]).Some? && ParseInt(ps[2]).Some?
    ensures Parse(text) == Some(Chunk(ps[0], ParseInt(ps[1]).value, ParseInt(ps[2]).value, ps[3]))
  {
  }

  /** Two chunks of a two-chunk file under one name: the second completes it. */
  lemma ReceiveBothHalves(fid: string, content0: string, content1: string)
    ensures var first := Receive(map[], Chunk(fid, 2, 0, content0));
      && first.1.None?
      && Receive(first.0, Chunk(fid, 2, 1, content1)).1 == Some(content0 + content1)
  {
    var first := Receive(map[], Chunk(fid, 2, 0, content0));
    assert first.0 == map[fid := map[0 := content0]];
    var buf := map[0 := content0, 1 := content1];
    assert Absorb(first.0[fid], 1, content1) == buf;
    assert buf.Keys == {0, 1} && |buf| == 2;
    assert Assemble(buf, 0) == "";
    assert Assemble(buf, 1) == content0;
    assert Assemble(buf, 2) == content0 + content1;
    var second := Receive(first.0, Chunk(fid, 2, 1, content1));
    assert second.1 == Some(Assemble(buf, 2));
  }

  /** Two chunks of a two-chunk file under different names: each opens its own buffer. */
  lemma ReceiveHalvesApart(fid0: string, fid1: string, content0: string, content1: string)
    requires fid0 != fid1
    ensures var first := Receive(map[], Chunk(fid0, 2, 0, content0));
      && first.1.None?
      && Receive(first.0, Chunk(fid1, 2, 1, content1)).1.None?
  {
    var first := Receive(map[], Chunk(fid0, 2, 0, content0));
    assert first.0 == map[fid0 := map[0 := content0]];
    assert |Absorb(map[], 1, content1)| == 1;
  }

  /** A reordering of the indices `0 .. n-1`. */
  predicate IsPermutation(order: seq<nat>, n: nat) {
    && |order| == n
    && (forall j | 0 <= j < n :: order[j] < n)
    && (forall j, k | 0 <= j < k < n :: order[j] != order[k])
  }

  /** Frames of the file `fid` with contents `cs`, delivered in the given order. */
  function Deliveries(fid: string, cs: seq<string>, order: seq<nat>): (r: seq<Chunk>)
    requires forall j | 0 <= j < |order| :: order[j] < |cs|
    ensures |r| == |order|
  {
    seq(|order|, j requires 0 <= j < |order| => Chunk(fid, |cs|, order[j], cs[order[j]]))
  }

  /** Frames fed one by one; the file texts completed along the way, in order. */
  function ReceiveAll(bufs: Buffers, cs: seq<Chunk>): (r: (Buffers, seq<string>))
    decreases |cs|
  {
    if |cs| == 0 then (bufs, [])
    else
      var step := Receive(bufs, cs[0]);
      var rest := ReceiveAll(step.0, cs[1..]);
      (rest.0, (if step.1.Some? then [step.1.value] else []) + rest.1)
  }

  /** The buffer after the first `j` deliveries of a permutation. */
  function Delivered(cs: seq<string>, order: seq<nat>, j: nat): (r: Received)
    requires j <= |order|
    requires forall k | 0 <= k < |order| :: order[k] < |cs|
  {
    if j == 0 then map[]
    else Delivered(cs, order, j - 1)[order[j - 1] := cs[order[j - 1]]]
  }

  lemma {:induction false} DeliveredShape(cs: seq<string>, order: seq<nat>, j: nat)
    requires IsPermutation(order, |cs|) && j <= |order|
    ensures forall i | i in Delivered(cs, order, j) :: i in order[..j]
    ensures |Delivered(cs, order, j)| == j
    ensures forall i | i in Delivered(cs, order, j) :: 0 <= i < |cs| && Delivered(cs, order, j)[i] == cs[i]
  {
    if j > 0 {
      DeliveredShape(cs, order, j - 1);
      var prev := Delivered(cs, order, j - 1);
      assert order[j - 1] as int !in prev;
      assert order[..j] == order[..j - 1] + [order[j - 1]];
    }
  }

  /** The indices `0 .. n-1`. */
  function Range(n: nat): (r: set<int>)
    ensures forall i :: i in r <==> 0 <= i < n
    ensures |r| == n
  {
    if n == 0 then {} else Range(n - 1) + {n - 1}
  }

  lemma SubsetOfEqualCard(a: set<int>, b: set<int>)
    requires a <= b && |a| == |b|
    ensures a == b
  {
    assert b == a + (b - a);
    assert a * (b - a) == {};
  }

  /** Once every index has arrived, the buffer holds every chunk's content. */
  lemma DeliveredAll(cs: seq<string>, order: seq<nat>)
    requires IsPermutation(order, |cs|)
    ensures forall i | 0 <= i < |cs| :: i in Delivered(cs, order, |cs|)
  {
    var n := |cs|;
    DeliveredShape(cs, order, n);
    var keys := Delivered(cs, order, n).Keys;
    var range := Range(n);
    assert keys <= range;
    SubsetOfEqualCard(keys, range);
  }

  lemma {:induction false} AssembleComplete(buf: Received, cs: seq<string>, n: nat)
    requires n <= |cs|
    requires forall i | 0 <= i < |cs| :: i in buf && buf[i] == cs[i]
    ensures Assemble(buf, n) == Concat(cs[..n])
  {
    if n > 0 {
      AssembleComplete(buf, cs, n - 1);
      assert cs[..n][..n - 1] == cs[..n - 1];
    }
  }

  /** The frames before position `j` have filled the buffer with `Delivered(.., j)`. */
  predicate ReceivedUpTo(bufs: Buffers, fid: string, cs: seq<string>, order: seq<nat>, j: nat)
    requires j <= |order|
    requires forall k | 0 <= k < |order| :: order[k] < |cs|
  {
    (fid in bufs && bufs[fid] == Delivered(cs, order, j)) || (j == 0 && fid !in bufs)
  }

  /** The `j`-th index is new, so absorbing it extends the buffer by one entry. */
  lemma AbsorbNext(cs: seq<string>, order: seq<nat>, j: nat)
    requires IsPermutation(order, |cs|) && j < |cs|
    ensures Absorb(Delivered(cs, order, j), order[j], cs[order[j]]) == Delivered(cs, order, j + 1)
    ensures |Delivered(cs, order, j + 1)| == j + 1
  {
    DeliveredShape(cs, order, j);
    DeliveredShape(cs, order, j + 1);
    assert order[j] as int !in Delivered(cs, order, j);
  }

  /** With every index in, the assembled text is the contents joined by index. */
  lemma AssembleDelivered(cs: seq<string>, order: seq<nat>)
    requires IsPermutation(order, |cs|)
    ensures Assemble(Delivered(cs, order, |cs|), |cs|) == Concat(cs)
  {
    var n := |cs|;
    DeliveredShape(cs, order, n);
    DeliveredAll(cs, order);
    AssembleComplete(Delivered(cs, order, n), cs, n);
    assert cs[..n] == cs;
  }

  /** Delivering the `j`-th frame adds its content; the last one completes the file. */
  lemma ReceiveStep(bufs: Buffers, fid: string, cs: seq<string>, order: seq<nat>, j: nat, c: Chunk)
    requires IsPermutation(order, |cs|) && j < |cs|
    requires ReceivedUpTo(bufs, fid, cs, order, j)
    requires c == Chunk(fid, |cs|, order[j], cs[order[j]])
    ensures j + 1 < |cs| ==> Receive(bufs, c) == (bufs[fid := Delivered(cs, order, j + 1)], None)
    ensures j + 1 == |cs| ==> Receive(bufs, c) == (bufs - {fid}, Some(Concat(cs)))
  {
    var before: Received := if fid in bufs then bufs[fid] else map[];
    var after := Absorb(before, order[j], cs[order[j]]);
    assert after == Delivered(cs, order, j + 1) && |after| == j + 1 by {
      assert before == Delivered(cs, order, j);
      AbsorbNext(cs, order, j);
    }
    if j + 1 == |cs| {
      AssembleDelivered(cs, order);
      assert Assemble(after, |after|) == Concat(cs);
    }
  }

  lemma ReceiveAllQuiet(bufs: Buffers, ds: seq<Chunk>, next: Buffers)
    requires 0 < |ds| && Receive(bufs, ds[0]) == (next, None)
    ensures ReceiveAll(bufs, ds) == ReceiveAll(next, ds[1..])
  {
    assert [] + ReceiveAll(next, ds[1..]).1 == ReceiveAll(next, ds[1..]).1;
  }

  lemma ReceiveAllLast(bufs: Buffers, ds: seq<Chunk>, next: Buffers, text: string)
    requires |ds| == 1 && Receive(bufs, ds[0]) == (next, Some(text))
    ensures ReceiveAll(bufs, ds) == (next, [text])
  {
    assert ds[1..] == [];
    assert [text] + [] == [text];
  }

  /** The last frame completes the file. */
  lemma ReceiveFromLast(bufs: Buffers, fid: string, cs: seq<string>, order: seq<nat>, j: nat)
    requires IsPermutation(order, |cs|) && j + 1 == |cs|
    requires ReceivedUpTo(bufs, fid, cs, order, j)
    ensures ReceiveAll(bufs, Deliveries(fid, cs, order)[j..]) == (bufs - {fid}, [Concat(cs)])
  {
    var ds := Deliveries(fid, cs, order)[j..];
    assert ds[0] == Deliveries(fid, cs, order)[j];
    ReceiveStep(bufs, fid, cs, order, j, ds[0]);
    ReceiveAllLast(bufs, ds, bufs - {fid}, Concat(cs));
  }

  /** A frame before the last one only grows the buffer. */
  lemma ReceiveFromMiddle(bufs: Buffers, fid: string, cs: seq<string>, order: seq<nat>, j: nat)
    returns (next: Buffers)
    requires IsPermutation(order, |cs|) && j + 1 < |cs|
    requires ReceivedUpTo(bufs, fid, cs, order, j)
    ensures ReceivedUpTo(next, fid, cs, order, j + 1)
    ensures next - {fid} == bufs - {fid}
    ensures ReceiveAll(bufs, Deliveries(fid, cs, order)[j..])
      == ReceiveAll(next, Deliveries(fid, cs, order)[j + 1..])
  {
    var all := Deliveries(fid, cs, order);
    var ds := all[j..];
    assert ds[0] == all[j];
    ReceiveStep(bufs, fid, cs, order, j, ds[0]);
    next := bufs[fid := Delivered(cs, order, j + 1)];
    ReceiveAllQuiet(bufs, ds, next);
    assert ds[1..] == all[j + 1..];
    assert next - {fid} == bufs - {fid} by {
      assert (next - {fid}).Keys == (bufs - {fid}).Keys;
    }
  }

  lemma {:induction false} ReceiveFrom(bufs: Buffers, fid: string, cs: seq<string>, order: seq<nat>, j: nat)
    requires IsPermutation(order, |cs|) && j < |cs|
    requires ReceivedUpTo(bufs, fid, cs, order, j)
    ensures ReceiveAll(bufs, Deliveries(fid, cs, order)[j..]) == (bufs - {fid}, [Concat(cs)])
    decreases |cs| - j
  {
    if j + 1 == |cs| {
      ReceiveFromLast(bufs, fid, cs, order, j);
    } else {
      var next := ReceiveFromMiddle(bufs, fid, cs, order, j);
      ReceiveFrom(next, fid, cs, order, j + 1);
    }
  }

  /**
   * Reassembly does not depend on arrival order: delivering the chunks of a
   * file in any order, each exactly once, to buffers holding nothing for it,
   * completes the file on the last chunk with the contents joined by index,
   * and leaves the other files' buffers as they were.
   */
  lemma ReassemblyOrderIndependent(bufs: Buffers, fid: string, cs: seq<string>, order: seq<nat>)
    requires IsPermutation(order, |cs|) && 0 < |cs| && fid !in bufs
    ensures ReceiveAll(bufs, Deliveries(fid, cs, order)) == (bufs, [Concat(cs)])
  {
    ReceiveFrom(bufs, fid, cs, order, 0);
    assert Deliveries(fid, cs, order)[0..] == Deliveries(fid, cs, order);
    assert bufs - {fid} == bufs;
  }

  /**
   * End to end: the frames `sendData` sends for a file with at least one chunk,
   * parsed and delivered in any order, complete the file as its first
   * `4 * (len / 4)` characters, provided the file name and text contain no dash.
   */
  lemma SendDataReassembles(bufs: Buffers, fid: string, data: string, order: seq<nat>)
    requires Dash !in fid && Dash !in data && fid !in bufs
    requires 0 < ChunkCount(data) <= MaxInt
    requires IsPermutation(order, ChunkCount(data))
    ensures forall j | 0 <= j < |order| ::
      Parse(ChunkTexts(fid, data)[order[j]]) == Some(Deliveries(fid, ChunkContents(data), order)[j])
    ensures ReceiveAll(bufs, Deliveries(fid, ChunkContents(data), order))
      == (bufs, [data[..ChunkSize * ChunkCount(data)]])
  {
    var cs := ChunkContents(data);
    var n := ChunkCount(data);
    forall j | 0 <= j < |order|
      ensures Parse(ChunkTexts(fid, data)[order[j]]) == Some(Deliveries(fid, cs, order)[j])
    {
      var i := order[j];
      assert Dash !in cs[i];
      assert cs[i] != "" by {
        assert |cs[i]| == ChunkSize;
      }
      FormatParse(fid, n, i, cs[i]);
    }
    ReassemblyOrderIndependent(bufs, fid, cs, order);
    ChunksCoverData(data);
  }
}

=== FILE: decimal.dfy ===
/**
 * Decimal text of integers, as produced by `BigInteger.toString` and read back
 * by `Integer.parseInt`.  The identifier's `toString` and the DATA text frame
 * are built from these.
 */
module Decimal {
  import opened Wrappers

  const MinInt: int := -0x8000_0000
  const MaxInt: int := 0x7fff_ffff

  predicate IsDigit(c: char) {
    '0' <= c <= '9'
  }

  predicate AllDigits(s: string) {
    forall i | 0 <= i < |s| :: IsDigit(s[i])
  }

  function DigitChar(d: nat): (c: char)
    requires d < 10
    ensures IsDigit(c)
  {
    ('0' as int + d) as char
  }

  function DigitValue(c: char): (d: nat)
    requires IsDigit(c)
    ensures d < 10 && DigitChar(d) == c
  {
    c as int - '0' as int
  }

  /** The canonical decimal text of `n`: no sign, no leading zero. */
  function ToDecimal(n: nat): (s: string)
    ensures 1 <= |s|
    ensures AllDigits(s)
    ensures s[0] == '0' ==> n == 0 && |s| == 1
  {
    if n < 10 then [DigitChar(n)] else ToDecimal(n / 10) + [DigitChar(n % 10)]
  }

  /** The value of a string of decimal digits, most significant first. */
  function DigitsValue(s: string): nat
    requires AllDigits(s)
  {
    if |s| == 0 then 0 else 10 * DigitsValue(s[..|s| - 1]) + DigitValue(s[|s| - 1])
  }

  /**
   * `Integer.parseInt`: an optional sign followed by at least one decimal
   * digit, whose value must fit a Java `int`; anything else throws
   * `NumberFormatException`, modelled as `None`.
   */
  function ParseInt(s: string): (r: Option<int>)
    ensures r.Some? ==> MinInt <= r.value <= MaxInt
    ensures r.Some? ==> 0 < |s|
  {
    var negative := 0 < |s| && s[0] == '-';
    var digits := if 0 < |s| && (s[0] == '-' || s[0] == '+') then s[1..] else s;
    if |digits| == 0 || !AllDigits(digits) then None
    else
      var magnitude: int := DigitsValue(digits);
      var v := if negative then 0 - magnitude else magnitude;
      if v < MinInt || MaxInt < v then None else Some(v)
  }

  lemma {:induction false} DigitsValueOfDecimal(n: nat)
    ensures DigitsValue(ToDecimal(n)) == n
  {
    if n >= 10 {
      var s := ToDecimal(n);
      assert s[..|s| - 1] == ToDecimal(n / 10);
      DigitsValueOfDecimal(n / 10);
    }
  }

  /** Printing a Java `int` in decimal and parsing it back yields the same value. */
  lemma ParseIntOfDecimal(n: nat)
    requires n <= MaxInt
    ensures ParseInt(ToDecimal(n)) == Some(n)
  {
    DigitsValueOfDecimal(n);
  }

  /** Two numbers have the same decimal text exactly when they are equal. */
  lemma DecimalInjective(a: nat, b: nat)
    ensures ToDecimal(a) == ToDecimal(b) <==> a == b
  {
    if ToDecimal(a) == ToDecimal(b) {
      DigitsValueOfDecimal(a);
      DigitsValueOfDecimal(b);
    }
  }
}

=== FILE: identifier.dfy ===
/**
 * Kademlia identifiers of `Node.ID_BITS` = 8 bits (src/node/Identifier.java).
 *
 * The Java class keeps a little-endian `BitSet`; for an 8-bit space its
 * value is exactly one octet, so an identifier is modelled as a `bv8` whose
 * equality is the `BitSet` equality of `Identifier.equals`.
 */
module Identifier {
  import Decimal
  import opened Bytes

  /** `Node.ID_BITS`: the width of the identifier space. */
  const IdBits: nat := 8
  /** `Node.ID_BITS / 8`: octets of an identifier on the wire. */
  const IdOctets: nat := 1

  type Id = bv8

  /**
   * An identifier's numeric value, used to key finite maps (the Java code
   * keys its hash maps by identifier equality, which is equality of values).
   */
  type Key = n: nat | n < 256

  function KeyOf(v: Id): (k: Key)
    ensures k == v as int
  {
    v as int
  }

  function IdOf(k: Key): (v: Id)
    ensures KeyOf(v) == k
  {
    Octet(k)
  }

  lemma KeyRoundTrip(v: Id)
    ensures IdOf(KeyOf(v)) == v
  {
    OctetValueInjective(IdOf(KeyOf(v)), v);
  }

  lemma KeyInjective(a: Id, b: Id)
    ensures KeyOf(a) == KeyOf(b) <==> a == b
  {
    if KeyOf(a) == KeyOf(b) {
      OctetValueInjective(a, b);
    }
  }

  /** The single-bit mask of MSB-first position `i` (position 0 is weight 128). */
  function Mask(i: nat): Id
    requires i < IdBits
  {
    match i
    case 0 => 0x80
    case 1 => 0x40
    case 2 => 0x20
    case 3 => 0x10
    case 4 => 0x08
    case 5 => 0x04
    case 6 => 0x02
    case _ => 0x01
  }

  /** The numeric weight of MSB-first position `i`. */
  function Weight(i: nat): nat
    requires i < IdBits
  {
    match i
    case 0 => 128
    case 1 => 64
    case 2 => 32
    case 3 => 16
    case 4 => 8
    case 5 => 4
    case 6 => 2
    case _ => 1
  }

  lemma MaskCases(i: nat)
    requires i < IdBits
    ensures var m := Mask(i);
      m == 0x80 || m == 0x40 || m == 0x20 || m == 0x10 || m == 0x08 || m == 0x04 || m == 0x02 || m == 0x01
  {
  }

  /**
   * The documented bit test of `isBitSetAt`: "the MSB is at position 0", so
   * position `i` is bit `IdBits - 1 - i` of the value.  The routing trie uses
   * this definition.
   */
  predicate BitAt(v: Id, i: nat)
    requires i < IdBits
  {
    v & Mask(i) != 0
  }

  lemma XorBitAt(a: Id, b: Id, i: nat)
    requires i < IdBits
    ensures BitAt(a ^ b, i) == (BitAt(a, i) != BitAt(b, i))
  {
    MaskCases(i);
  }

  /** Identifiers that agree on every position are equal. */
  lemma BitsDetermineId(a: Id, b: Id)
    requires forall i | 0 <= i < IdBits :: BitAt(a, i) == BitAt(b, i)
    ensures a == b
  {
    assert BitAt(a, 0) == BitAt(b, 0);
    assert BitAt(a, 1) == BitAt(b, 1);
    assert BitAt(a, 2) == BitAt(b, 2);
    assert BitAt(a, 3) == BitAt(b, 3);
    assert BitAt(a, 4) == BitAt(b, 4);
    assert BitAt(a, 5) == BitAt(b, 5);
    assert BitAt(a, 6) == BitAt(b, 6);
    assert BitAt(a, 7) == BitAt(b, 7);
  }

  /** Position `i` of `BitAt` carries weight 2^(IdBits-1-i) in the numeric value. */
  lemma BitAtWeight(v: Id, i: nat)
    requires i < IdBits
    ensures BitAt(v, i) <==> (v as int / Weight(i)) % 2 == 1
  {
    match i
    case 0 => BitAtWeight0(v);
    case 1 => BitAtWeight1(v);
    case 2 => BitAtWeight2(v);
    case 3 => BitAtWeight3(v);
    case 4 => BitAtWeight4(v);
    case 5 => BitAtWeight5(v);
    case 6 => BitAtWeight6(v);
    case _ => BitAtWeight7(v);
  }

  lemma BitAtWeight0(v: Id) ensures BitAt(v, 0) <==> (v as int / 128) % 2 == 1 {}
  lemma BitAtWeight1(v: Id) ensures BitAt(v, 1) <==> (v as int / 64) % 2 == 1 {}
  lemma BitAtWeight2(v: Id) ensures BitAt(v, 2) <==> (v as int / 32) % 2 == 1 {}
  lemma BitAtWeight3(v: Id) ensures BitAt(v, 3) <==> (v as int / 16) % 2 == 1 {}
  lemma BitAtWeight4(v: Id) ensures BitAt(v, 4) <==> (v as int / 8) % 2 == 1 {}
  lemma BitAtWeight5(v: Id) ensures BitAt(v, 5) <==> (v as int / 4) % 2 == 1 {}
  lemma BitAtWeight6(v: Id) ensures BitAt(v, 6) <==> (v as int / 2) % 2 == 1 {}
  lemma BitAtWeight7(v: Id) ensures BitAt(v, 7) <==> v as int % 2 == 1 {}

  /** `BitSet.get(k)`: bit `k` counted from the least significant end. */
  predicate BitSetGet(v: Id, k: nat) {
    k < IdBits && BitAt(v, IdBits - 1 - k)
  }

  /** MSB-first position of the first set bit, searching from position `i`. */
  function FirstSetFrom(v: Id, i: nat): (p: nat)
    requires i <= IdBits
    ensures i <= p <= IdBits
    ensures forall j | i <= j < p :: !BitAt(v, j)
    ensures p < IdBits ==> BitAt(v, p)
    decreases IdBits - i
  {
    if i == IdBits then IdBits else if BitAt(v, i) then i else FirstSetFrom(v, i + 1)
  }

  /** `size - BigInteger.bitLength()`: the zeros trimmed above the highest set bit. */
  function LeadingZeros(v: Id): nat {
    FirstSetFrom(v, 0)
  }

  /** `BigInteger.bitLength()` = `BitSet.length()`: one past the highest set bit. */
  function BitLength(v: Id): (n: nat)
    ensures n <= IdBits
  {
    IdBits - LeadingZeros(v)
  }

  /** The `BitSet` index that `isBitSetAt(i)` reads once past the leading-zero guard. */
  function SrcIndex(v: Id, i: nat): int {
    BitLength(v) - (i + LeadingZeros(v)) - 1
  }

  /** `isBitSetAt` does not throw: either the guard answers or the index is not negative. */
  predicate SrcIndexOk(v: Id, i: nat) {
    i < LeadingZeros(v) || 0 <= SrcIndex(v, i)
  }

  /**
   * `Identifier.isBitSetAt` as written: false below the trimmed leading zeros,
   * otherwise `bits.get(bits.length() - (index + numOfTrimmedZeros) - 1)`.
   * A negative `BitSet` index throws, hence the precondition.
   */
  predicate SrcBitAt(v: Id, i: nat)
    requires SrcIndexOk(v, i)
  {
    if i < LeadingZeros(v) then false else BitSetGet(v, SrcIndex(v, i) as nat)
  }

  /** Below the leading zeros both bit tests answer false. */
  lemma LeadingZerosAreClear(v: Id, i: nat)
    requires i < LeadingZeros(v)
    ensures SrcIndexOk(v, i) && !SrcBitAt(v, i)
    ensures i < IdBits && !BitAt(v, i)
  {
  }

  /** With the top bit set there are no leading zeros and the two tests agree. */
  lemma SrcBitAtAgreesWhenTopBitSet(v: Id, i: nat)
    requires 128 <= v as int
    requires i < IdBits
    ensures SrcIndexOk(v, i)
    ensures SrcBitAt(v, i) == BitAt(v, i)
  {
    assert BitAt(v, 0) by { BitAtWeight0(v); }
    assert LeadingZeros(v) == 0;
  }

  /**
   * In general the literal formula reads MSB-first position `i + 2 * LeadingZeros(v)`:
   * the trimmed zeros are subtracted twice.
   */
  lemma SrcBitAtReadsShiftedPosition(v: Id, i: nat)
    requires LeadingZeros(v) <= i
    requires SrcIndexOk(v, i)
    ensures i + 2 * LeadingZeros(v) < IdBits
    ensures SrcBitAt(v, i) == BitAt(v, i + 2 * LeadingZeros(v))
  {
  }

  /** 64 (= 0b0100_0000): position 1 is set, yet the literal formula reads it as clear. */
  lemma SrcBitAtWrongAt64()
    ensures SrcIndexOk(64, 1) && !SrcBitAt(64, 1)
    ensures BitAt(64, 1)
  {
    assert LeadingZeros(64) == 1 by {
      assert !BitAt(64, 0) && BitAt(64, 1);
    }
  }

  /** For 64 the literal formula throws at position 6 (`BitSet.get(-1)`). */
  lemma SrcBitAtThrowsAt64()
    ensures !SrcIndexOk(64, 6)
  {
    assert LeadingZeros(64) == 1 by {
      assert !BitAt(64, 0) && BitAt(64, 1);
    }
  }

  /** `distanceTo`: the XOR of the two bit sets read as an unsigned number. */
  function Distance(a: Id, b: Id): (d: nat)
    ensures d < 256
    ensures d == 0 <==> a == b
  {
    (a ^ b) as int
  }

  lemma DistanceSymmetric(a: Id, b: Id)
    ensures Distance(a, b) == Distance(b, a)
  {
  }

  /** From a fixed target every distance is taken by exactly one identifier. */
  lemma DistanceInjective(t: Id, a: Id, b: Id)
    requires Distance(t, a) == Distance(t, b)
    ensures a == b
  {
    assert t ^ a == t ^ b by { OctetValueInjective(t ^ a, t ^ b); }
    assert a == t ^ (t ^ a);
  }

  /** The identifier at distance `d` from `t`. */
  function AtDistance(t: Id, d: nat): (v: Id)
    requires d < 256
    ensures Distance(t, v) == d
  {
    var x := Octet(d);
    assert t ^ (t ^ x) == x;
    t ^ x
  }

  /** `getStaticIdentifier(ID_BITS)`: only `BitSet` bit `size - 1` set. */
  function StaticIdentifier(): (v: Id)
    ensures BitSetGet(v, IdBits - 1)
    ensures forall k | 0 <= k < IdBits - 1 :: !BitSetGet(v, k)
    ensures v as int == 128
  {
    Mask(0)
  }

  /**
   * `getBytes` = `BitSet.toByteArray()`: empty for 0, one octet otherwise;
   * reading the octets back yields the identifier.
   */
  function GetBytes(v: Id): (bs: seq<Byte>)
    ensures |bs| <= IdOctets
    ensures FromBytes(bs) == v
    ensures |bs| == 0 <==> v == 0
  {
    if v == 0 then [] else [v]
  }

  /** `new Identifier(ID_BITS, bytes)` for at most `ID_BITS / 8` octets (`BitSet.valueOf`). */
  function FromBytes(bs: seq<Byte>): Id
    requires |bs| <= IdOctets
  {
    if |bs| == 0 then 0 else bs[0]
  }


  /** `toString`: the decimal text of the value. */
  function ToString(v: Id): string {
    Decimal.ToDecimal(v as int)
  }

  /** The decimal text identifies the value, so `toString` is consistent with `equals`. */
  lemma ToStringMatchesEquals(a: Id, b: Id)
    ensures ToString(a) == ToString(b) <==> a == b
  {
    Decimal.DecimalInjective(a as int, b as int);
    if a as int == b as int {
      OctetValueInjective(a, b);
    }
  }
}

=== FILE: ledger.dfy ===
/**
 * The reliable-RPC ledger of src/node/Node.java: the `rpcs` map from RPC id
 * to the Acks registered under it, `createRPCID`, the registration at the
 * end of `send`, and `receivedRPC`.  Timeouts reach one Ack at a time.
 */
module Ledger {
  import opened Wrappers
  import opened Identifier
  import opened NodeIdentifier
  import Acks

  /** `rpcs`: the Acks of each RPC id, in registration order. */
  type Rpcs<C> = map<Key, seq<Acks.Ack<C>>>

  /** Every Ack is well formed and filed under its own RPC id. */
  predicate Valid<C>(rpcs: Rpcs<C>) {
    forall key | key in rpcs ::
      forall i | 0 <= i < |rpcs[key]| :: Acks.Valid(rpcs[key][i]) && KeyOf(rpcs[key][i].rpc) == key
  }

  /** At most one Ack per RPC id, as when every reliable send draws a fresh id. */
  predicate AtMostOne<C>(rpcs: Rpcs<C>) {
    forall key | key in rpcs :: |rpcs[key]| <= 1
  }

  /** The key `offset` places after `seed`, wrapping around at 256. */
  function KeyAfter(seed: Key, offset: nat): Key {
    (seed + offset) % 256
  }

  /** Every key is some number of places after the seed. */
  lemma KeyAfterReaches(seed: Key, k: Key)
    ensures KeyAfter(seed, if seed <= k then k - seed else k + 256 - seed) == k
  {
    var j := if seed <= k then k - seed else k + 256 - seed;
    if seed <= k {
      assert seed + j == k;
    } else {
      assert seed + j == k + 256;
    }
  }

  function FreeFrom<C>(rpcs: Rpcs<C>, seed: Key, tried: nat): (r: Option<Key>)
    requires tried <= 256
    ensures r.Some? ==> r.value !in rpcs
    ensures r.None? ==> forall j | tried <= j < 256 :: KeyAfter(seed, j) in rpcs
    decreases 256 - tried
  {
    if tried == 256 then None
    else if KeyAfter(seed, tried) !in rpcs then Some(KeyAfter(seed, tried))
    else FreeFrom(rpcs, seed, tried + 1)
  }

  /**
   * `createRPCID`: draws identifiers until one is not a key of the ledger.
   * The random draws are a scan starting at `seed`; `None` is the case
   * where every identifier is taken and the source draws forever.
   */
  function CreateRpcId<C>(rpcs: Rpcs<C>, seed: Id): (r: Option<Id>)
    ensures r.Some? ==> KeyOf(r.value) !in rpcs
    ensures r.None? <==> forall v: Id :: KeyOf(v) in rpcs
  {
    var free := FreeFrom(rpcs, KeyOf(seed), 0);
    assert free.None? ==> forall v: Id :: KeyOf(v) in rpcs by {
      if free.None? {
        forall v: Id ensures KeyOf(v) in rpcs {
          KeyAfterReaches(KeyOf(seed), KeyOf(v));
        }
      }
    }
    assert free.Some? ==> KeyOf(IdOf(free.value)) == free.value;
    if free.None? then None else Some(IdOf(free.value))
  }

  /** With no RPC outstanding, the draw takes the seed itself. */
  lemma EmptyDrawsSeed<C>(seed: Id)
    ensures var none: Rpcs<C> := map[]; CreateRpcId(none, seed) == Some(seed)
  {
    var none: Rpcs<C> := map[];
    var key := KeyOf(seed);
    assert KeyAfter(key, 0) == key;
    assert FreeFrom(none, key, 0) == Some(key);
    KeyRoundTrip(seed);
    assert CreateRpcId(none, seed) == Some(IdOf(key));
  }

  /** The tail of `send` for a reliable message: the Ack joins the end of its RPC id's list. */
  function Register<C>(rpcs: Rpcs<C>, a: Acks.Ack<C>): (r: Rpcs<C>)
    ensures r.Keys == rpcs.Keys + {KeyOf(a.rpc)}
    ensures forall key | key in rpcs && key != KeyOf(a.rpc) :: r[key] == rpcs[key]
    ensures KeyOf(a.rpc) in rpcs ==> r[KeyOf(a.rpc)] == rpcs[KeyOf(a.rpc)] + [a]
    ensures KeyOf(a.rpc) !in rpcs ==> r[KeyOf(a.rpc)] == [a]
    ensures Valid(rpcs) && Acks.Valid(a) ==> Valid(r)
  {
    var key := KeyOf(a.rpc);
    rpcs[key := (if key in rpcs then rpcs[key] else []) + [a]]
  }

  /** The position of the first Ack addressed to `from`'s identifier, or `|acks|` when there is none. */
  function FirstMatch<C>(acks: seq<Acks.Ack<C>>, from: Contact): (i: nat)
    ensures i <= |acks|
    ensures forall j | 0 <= j < i :: !Acks.Check(acks[j], from)
    ensures i < |acks| ==> Acks.Check(acks[i], from)
    decreases |acks|
  {
    if |acks| == 0 then 0
    else if Acks.Check(acks[0], from) then 0
    else 1 + FirstMatch(acks[1..], from)
  }

  /** The ledger after an event, and what the Ack's thread did. */
  datatype Receipt<C> = Receipt(rpcs: Rpcs<C>, removed: bool, outputs: seq<Acks.Output<C>>)

  /**
   * `receivedRPC`: the first Ack under `rpc` whose receiver has `from`'s
   * identifier is told the answer arrived (`setReceived`) and leaves the
   * list; the key itself stays.  An unknown RPC id or no matching receiver
   * changes nothing.
   */
  function ReceivedRpc<C>(rpcs: Rpcs<C>, from: Contact, rpc: Id): (r: Receipt<C>)
    requires Valid(rpcs)
    ensures Valid(r.rpcs)
    ensures r.rpcs.Keys == rpcs.Keys
    ensures r.removed <==>
      KeyOf(rpc) in rpcs && exists i | 0 <= i < |rpcs[KeyOf(rpc)]| :: Acks.Check(rpcs[KeyOf(rpc)][i], from)
    ensures !r.removed ==> r.rpcs == rpcs && r.outputs == []
    ensures r.removed ==>
      var acks := rpcs[KeyOf(rpc)];
      var i := FirstMatch(acks, from);
      && i < |acks|
      && r.rpcs[KeyOf(rpc)] == acks[..i] + acks[i + 1..]
      && r.outputs == Acks.Step(acks[i], Acks.Recv).1
    ensures forall key | key in rpcs && key != KeyOf(rpc) :: r.rpcs[key] == rpcs[key]
  {
    var key := KeyOf(rpc);
    if key !in rpcs then Receipt(rpcs, false, [])
    else
      var acks := rpcs[key];
      var i := FirstMatch(acks, from);
      if i == |acks| then Receipt(rpcs, false, [])
      else
        var rest := acks[..i] + acks[i + 1..];
        assert forall j | 0 <= j < |rest| :: rest[j] in acks;
        Receipt(rpcs[key := rest], true, Acks.Step(acks[i], Acks.Recv).1)
  }

  /**
   * A timeout period of the `index`-th Ack under `rpc` elapsed.  The Ack is
   * stepped in place: a finished Ack stays in the list, since only
   * `receivedRPC` removes Acks.
   */
  function Timeout<C>(rpcs: Rpcs<C>, rpc: Id, index: nat): (r: Receipt<C>)
    requires Valid(rpcs)
    ensures Valid(r.rpcs)
    ensures !r.removed
    ensures r.rpcs.Keys == rpcs.Keys
    ensures forall key | key in rpcs :: |r.rpcs[key]| == |rpcs[key]|
    ensures KeyOf(rpc) !in rpcs || |rpcs[KeyOf(rpc)]| <= index ==> r == Receipt(rpcs, false, [])
    ensures KeyOf(rpc) in rpcs && index < |rpcs[KeyOf(rpc)]| ==>
      && r.rpcs[KeyOf(rpc)][index] == Acks.Step(rpcs[KeyOf(rpc)][index], Acks.Tick).0
      && r.outputs == Acks.Step(rpcs[KeyOf(rpc)][index], Acks.Tick).1
    ensures forall key, j | key in rpcs && 0 <= j < |rpcs[key]| && (key != KeyOf(rpc) || j != index) ::
      r.rpcs[key][j] == rpcs[key][j]
  {
    var key := KeyOf(rpc);
    if key !in rpcs || |rpcs[key]| <= index then Receipt(rpcs, false, [])
    else
      var step := Acks.Step(rpcs[key][index], Acks.Tick);
      Receipt(rpcs[key := rpcs[key][index := step.0]], false, step.1)
  }

  /** Keys are never removed, so once a reliable message was sent `hasAcks` stays true. */
  lemma KeysNeverRemoved<C>(rpcs: Rpcs<C>, a: Acks.Ack<C>, from: Contact, rpc: Id, index: nat)
    requires Valid(rpcs)
    ensures rpcs.Keys <= Register(rpcs, a).Keys && 0 < |Register(rpcs, a)|
    ensures rpcs.Keys == ReceivedRpc(rpcs, from, rpc).rpcs.Keys
    ensures rpcs.Keys == Timeout(rpcs, rpc, index).rpcs.Keys
  {
    assert KeyOf(a.rpc) in Register(rpcs, a);
  }

  /** Registering under a fresh RPC id keeps one Ack per id; answers and timeouts never add one. */
  lemma AtMostOnePreserved<C>(rpcs: Rpcs<C>, a: Acks.Ack<C>, from: Contact, rpc: Id, index: nat)
    requires Valid(rpcs) && AtMostOne(rpcs)
    ensures KeyOf(a.rpc) !in rpcs ==> AtMostOne(Register(rpcs, a))
    ensures AtMostOne(ReceivedRpc(rpcs, from, rpc).rpcs)
    ensures AtMostOne(Timeout(rpcs, rpc, index).rpcs)
  {
    var r := ReceivedRpc(rpcs, from, rpc);
    if r.removed {
      var acks := rpcs[KeyOf(rpc)];
      var i := FirstMatch(acks, from);
      assert |acks[..i] + acks[i + 1..]| == |acks| - 1;
    }
  }

  /**
   * The answer to a reliable message sent under a fresh RPC id: the Ack is
   * found, removed, and its callback's `onReceive` fires exactly once.
   */
  lemma AnswerResolvesFreshRpc<C>(rpcs: Rpcs<C>, a: Acks.Ack<C>, from: Contact)
    requires Valid(rpcs) && Acks.Valid(a) && a.phase == Acks.Waiting(0)
    requires KeyOf(a.rpc) !in rpcs && from.id == a.receiver.id
    ensures var r := ReceivedRpc(Register(rpcs, a), from, a.rpc);
      && r.removed
      && r.rpcs == Register(rpcs, a)[KeyOf(a.rpc) := []]
      && r.outputs == Acks.Notify(a.callback, true)
  {
    var reg := Register(rpcs, a);
    assert reg[KeyOf(a.rpc)] == [a];
    assert Acks.Check(reg[KeyOf(a.rpc)][0], from);
    assert FirstMatch(reg[KeyOf(a.rpc)], from) == 0;
  }

  /** `FirstMatch` looks at the sender's identifier only. */
  lemma {:induction false} FirstMatchById<C>(acks: seq<Acks.Ack<C>>, b: Contact, c: Contact)
    requires b.id == c.id
    ensures FirstMatch(acks, b) == FirstMatch(acks, c)
    decreases |acks|
  {
    if 0 < |acks| && !Acks.Check(acks[0], b) {
      FirstMatchById(acks[1..], b, c);
    }
  }

  /**
   * An answer from the receiver's identifier at any address does what the
   * answer from the address the message was sent to does: the same Ack is
   * resolved and the same callback fires.
   */
  lemma AnswerIgnoresAddress<C>(rpcs: Rpcs<C>, b: Contact, c: Contact, rpc: Id)
    requires Valid(rpcs) && b.id == c.id
    ensures ReceivedRpc(rpcs, b, rpc) == ReceivedRpc(rpcs, c, rpc)
  {
    if KeyOf(rpc) in rpcs {
      FirstMatchById(rpcs[KeyOf(rpc)], b, c);
    }
  }

  /**
   * Once all 256 RPC ids are keys, no event frees one: every later reliable
   * send finds no fresh id, whatever the draws.
   */
  lemma ExhaustedStaysExhausted<C>(rpcs: Rpcs<C>, seed: Id, a: Acks.Ack<C>, from: Contact, rpc: Id, index: nat, next: Id)
    requires Valid(rpcs) && CreateRpcId(rpcs, seed).None?
    ensures CreateRpcId(Register(rpcs, a), next).None?
    ensures CreateRpcId(ReceivedRpc(rpcs, from, rpc).rpcs, next).None?
    ensures CreateRpcId(Timeout(rpcs, rpc, index).rpcs, next).None?
  {
    KeysNeverRemoved(rpcs, a, from, rpc, index);
  }

  /** An answer from any other node leaves the ledger as it was. */
  lemma StrangerChangesNothing<C>(rpcs: Rpcs<C>, from: Contact, rpc: Id)
    requires Valid(rpcs)
    requires KeyOf(rpc) in rpcs ==> forall a | a in rpcs[KeyOf(rpc)] :: a.receiver.id != from.id
    ensures ReceivedRpc(rpcs, from, rpc) == Receipt(rpcs, false, [])
  {
    if KeyOf(rpc) in rpcs {
      var acks := rpcs[KeyOf(rpc)];
      assert forall i | 0 <= i < |acks| :: !Acks.Check(acks[i], from) by {
        forall i | 0 <= i < |acks| ensures !Acks.Check(acks[i], from) {
          assert acks[i] in acks;
        }
      }
    }
  }
}

=== FILE: node.dfy ===
/**
 * src/node/Node.java as a pure state transformer: every operation takes the
 * peer's state and returns the new state together with the messages it put
 * on the wire.  The socket, the clock and the random generator are not part
 * of the state: sending appends to the returned list, timeouts arrive as
 * events, and RPC ids come from a scan starting at `seed`.
 */
module Node {
  import opened Wrappers
  import opened Bytes
  import opened Identifier
  import opened BufferUtil
  import opened NodeIdentifier
  import opened Wire
  import RoutingTable
  import Buckets
  import Acks
  import Ledger
  import DataFrame

  /** The only callback the peer attaches to a message: `Bucket.update`'s PING, remembering the contact pinged. */
  datatype Callback = PingBack(contact: Contact)

  /** What leaves the node: a framed message, or an Ack's resend of a frame. */
  datatype Outbound =
    | Message(kind: MsgType, to: Contact, rpc: Id, payload: seq<Byte>, reliable: bool)
    | Retransmit(addr: Addr, datagram: seq<Byte>)

  /**
   * The peer: its own contact, the routing table, the `values` index (which
   * node holds a file), the `data` store, the DATA chunk buffers, the RPC
   * ledger, `searchID`, `lastlookup`, the RPC id generator, and whether an
   * uncaught exception has stopped it.
   */
  datatype State = State(
    self: Contact,
    table: RoutingTable.Table,
    values: map<Key, Id>,
    data: map<Key, string>,
    chunks: DataFrame.Buffers,
    rpcs: Ledger.Rpcs<Callback>,
    searchId: Option<Id>,
    lastLookup: Option<Contact>,
    seed: Id,
    halted: bool)

  predicate Valid(s: State) {
    RoutingTable.Valid(s.table) && Ledger.Valid(s.rpcs)
  }

  /** A new state and the messages sent on the way to it, in order. */
  datatype Out = Out(s: State, sent: seq<Outbound>)

  /** A fresh peer: an empty table with bucket size `k`, nothing stored, nothing outstanding. */
  function Init(self: Contact, k: nat, seed: Id): (s: State)
    requires k >= 1
    ensures Valid(s) && RoutingTable.WithinCapacity(s.table) && RoutingTable.Mirrors(s.table)
    ensures s.self == self && s.rpcs == map[] && !s.halted
    ensures s.table.k == k && s.table.entries == map[] && Buckets.Ids(s.table.root) == {}
    ensures s.values == map[] && s.data == map[] && s.chunks == map[]
    ensures s.searchId.None? && s.lastLookup.None? && s.seed == seed
  {
    State(self, RoutingTable.Empty(k), map[], map[], map[], map[], None, None, seed, false)
  }

  /**
   * A fresh peer knows no contact and no key, and the first RPC id it draws
   * is free: the draw starting at the seed takes the seed itself.
   */
  lemma FreshNodeKnowsNothing(self: Contact, k: nat, seed: Id, c: Contact, key: Id)
    requires k >= 1
    ensures var s := Init(self, k, seed);
      && !RoutingTable.Contains(s.table, c)
      && !HasKey(s, key)
      && Ledger.CreateRpcId(s.rpcs, s.seed) == Some(seed)
  {
    var s := Init(self, k, seed);
    assert !RoutingTable.Contains(s.table, c);
    assert !HasKey(s, key) by {
      assert KeyOf(key) !in s.values;
    }
    Ledger.EmptyDrawsSeed<Callback>(seed);
  }

  /** Only the ledger, the generator and the halted flag differ. */
  predicate SameExceptLedger(s: State, t: State) {
    t == s.(rpcs := t.rpcs, seed := t.seed, halted := t.halted)
  }

  /**
   * `after` is `before` with one more Ack, the last under `rpc`: waiting with
   * no resend yet, addressed to `to`, holding `frame` and the callback `cb`.
   */
  predicate Registered(before: Ledger.Rpcs<Callback>, after: Ledger.Rpcs<Callback>, rpc: Id, to: Contact,
                       frame: seq<Byte>, cb: Option<Callback>)
  {
    var key := KeyOf(rpc);
    var prior := if key in before then before[key] else [];
    && after.Keys == before.Keys + {key}
    && (forall other | other in before && other != key :: after[other] == before[other])
    && |after[key]| == |prior| + 1 && after[key][..|prior|] == prior
    && var a := after[key][|prior|];
       && a.rpc == rpc && a.receiver == to && a.callback == cb && a.phase == Acks.Waiting(0)
       && a.buffer.Valid() && Acks.Frame(a) == frame
  }

  /**
   * `send(to, type, rpcID, data, reliable, cb)`: the frame
   * `[type][own id][rpc id][payload]` goes to the channel, and a reliable
   * message files an Ack holding a copy of that frame under its RPC id.  A
   * frame longer than 512 octets throws before anything is sent or filed.
   */
  function Send(s: State, to: Contact, kind: MsgType, rpc: Id, payload: seq<Byte>, reliable: bool,
                cb: Option<Callback>): (r: Out)
    requires Valid(s)
    ensures Valid(r.s) && SameExceptLedger(s, r.s) && r.s.seed == s.seed
    ensures s.halted ==> r == Out(s, [])
    ensures !s.halted && BufferSize < |EncodeFrame(kind, s.self.id, rpc, payload)| ==>
      r == Out(s.(halted := true), [])
    ensures !s.halted && |EncodeFrame(kind, s.self.id, rpc, payload)| <= BufferSize ==>
      && r.sent == [Message(kind, to, rpc, payload, reliable)]
      && !r.s.halted
      && (reliable ==> Registered(s.rpcs, r.s.rpcs, rpc, to, EncodeFrame(kind, s.self.id, rpc, payload), cb))
      && (!reliable ==> r.s.rpcs == s.rpcs)
  {
    if s.halted then Out(s, [])
    else
      match BuildFrame(kind, s.self.id, rpc, payload)
      case None => Out(s.(halted := true), [])
      case Some(buffer) =>
        var afterSend := Transmit(buffer).1;
        if reliable then
          var a := Acks.Create(rpc, to, afterSend, cb);
          FreshAckRegistered(s.rpcs, a, EncodeFrame(kind, s.self.id, rpc, payload));
          Out(s.(rpcs := Ledger.Register(s.rpcs, a)), [Message(kind, to, rpc, payload, reliable)])
        else
          Out(s, [Message(kind, to, rpc, payload, reliable)])
  }

  /** Filing a new Ack that holds `frame` is what `Registered` describes. */
  lemma FreshAckRegistered(rpcs: Ledger.Rpcs<Callback>, a: Acks.Ack<Callback>, frame: seq<Byte>)
    requires Ledger.Valid(rpcs) && Acks.Valid(a) && a.phase == Acks.Waiting(0) && Acks.Frame(a) == frame
    ensures Ledger.Valid(Ledger.Register(rpcs, a))
    ensures Registered(rpcs, Ledger.Register(rpcs, a), a.rpc, a.receiver, frame, a.callback)
  {
  }

  /** Messages to one node, framed under the node's own id, are never longer than 512 octets here. */
  lemma SmallFrameFits(kind: MsgType, sender: Id, rpc: Id, payload: seq<Byte>)
    requires |payload| <= BufferSize - 3
    ensures |EncodeFrame(kind, sender, rpc, payload)| <= BufferSize
  {
  }

  /**
   * `send(to, type, data, reliable, cb)`: the same under a fresh
   * `createRPCID`, which is never a key of the ledger.  When every id is
   * taken the source draws forever; the peer stops.
   */
  function SendFresh(s: State, to: Contact, kind: MsgType, payload: seq<Byte>, reliable: bool,
                     cb: Option<Callback>): (r: Out)
    requires Valid(s)
    ensures Valid(r.s) && SameExceptLedger(s, r.s)
    ensures s.halted ==> r == Out(s, [])
    ensures |r.sent| <= 1
    ensures !s.halted && !r.s.halted ==> |r.sent| == 1
    ensures r.s.halted ==> r.sent == []
    ensures |r.sent| == 1 ==>
      var m := r.sent[0];
      && m.Message? && m == Message(kind, to, m.rpc, payload, reliable)
      && KeyOf(m.rpc) !in s.rpcs
      && (reliable ==> Registered(s.rpcs, r.s.rpcs, m.rpc, to, EncodeFrame(kind, s.self.id, m.rpc, payload), cb))
    ensures !reliable || r.sent == [] ==> r.s.rpcs == s.rpcs
  {
    if s.halted then Out(s, [])
    else
      match Ledger.CreateRpcId(s.rpcs, s.seed)
      case None => Out(s.(halted := true), [])
      case Some(rpc) => Send(s.(seed := rpc + 1), to, kind, rpc, payload, reliable, cb)
  }

  /** One message of a batch: its receiver and payload. */
  datatype Envelope = Envelope(to: Contact, payload: seq<Byte>)

  /** The same payload for each of `tos`, in order. */
  function ToEach(tos: seq<Contact>, payload: seq<Byte>): (r: seq<Envelope>)
    ensures |r| == |tos| && forall i | 0 <= i < |tos| :: r[i] == Envelope(tos[i], payload)
  {
    seq(|tos|, i requires 0 <= i < |tos| => Envelope(tos[i], payload))
  }

  /** The `i`-th message sent is the `i`-th envelope, of the given type and reliability. */
  predicate Delivers(sent: seq<Outbound>, kind: MsgType, batch: seq<Envelope>, reliable: bool) {
    && |sent| <= |batch|
    && forall i | 0 <= i < |sent| ::
      && sent[i].Message? && sent[i].kind == kind && sent[i].reliable == reliable
      && sent[i].to == batch[i].to && sent[i].payload == batch[i].payload
  }

  /**
   * A loop of sends with fresh RPC ids, one per envelope and in order, that
   * ends early if the peer stops.  The ids are new to the ledger, and the
   * reliable ones are all filed, hence pairwise different.
   */
  function SendBatch(s: State, kind: MsgType, batch: seq<Envelope>, reliable: bool): (r: Out)
    requires Valid(s)
    ensures Valid(r.s) && SameExceptLedger(s, r.s)
    ensures s.halted ==> r == Out(s, [])
    ensures Delivers(r.sent, kind, batch, reliable)
    ensures !r.s.halted ==> |r.sent| == |batch|
    ensures forall m | m in r.sent :: m.Message? && KeyOf(m.rpc) !in s.rpcs
    ensures s.rpcs.Keys <= r.s.rpcs.Keys
    ensures reliable ==> forall m | m in r.sent :: m.Message? && KeyOf(m.rpc) in r.s.rpcs
    ensures reliable ==> forall i, j | 0 <= i < j < |r.sent| :: r.sent[i].rpc != r.sent[j].rpc
    ensures !reliable ==> r.s.rpcs == s.rpcs
    decreases |batch|
  {
    if s.halted || |batch| == 0 then Out(s, [])
    else
      var first := SendFresh(s, batch[0].to, kind, batch[0].payload, reliable, None);
      var rest := SendBatch(first.s, kind, batch[1..], reliable);
      BatchStep(s, kind, batch, reliable, first, rest);
      Out(rest.s, first.sent + rest.sent)
  }

  /** One step of the batch: the first send, then the rest of the batch from the state it left. */
  lemma BatchStep(s: State, kind: MsgType, batch: seq<Envelope>, reliable: bool, first: Out, rest: Out)
    requires Valid(s) && !s.halted && 0 < |batch|
    requires first == SendFresh(s, batch[0].to, kind, batch[0].payload, reliable, None)
    requires Valid(rest.s) && SameExceptLedger(first.s, rest.s)
    requires first.s.halted ==> rest == Out(first.s, [])
    requires Delivers(rest.sent, kind, batch[1..], reliable)
    requires !rest.s.halted ==> |rest.sent| == |batch| - 1
    requires forall m | m in rest.sent :: m.Message? && KeyOf(m.rpc) !in first.s.rpcs
    requires first.s.rpcs.Keys <= rest.s.rpcs.Keys
    requires reliable ==> forall m | m in rest.sent :: m.Message? && KeyOf(m.rpc) in rest.s.rpcs
    requires reliable ==> forall i, j | 0 <= i < j < |rest.sent| :: rest.sent[i].rpc != rest.sent[j].rpc
    requires !reliable ==> rest.s.rpcs == first.s.rpcs
    ensures var sent := first.sent + rest.sent;
      && SameExceptLedger(s, rest.s)
      && Delivers(sent, kind, batch, reliable)
      && (!rest.s.halted ==> |sent| == |batch|)
      && (forall m | m in sent :: m.Message? && KeyOf(m.rpc) !in s.rpcs)
      && s.rpcs.Keys <= rest.s.rpcs.Keys
      && (reliable ==> forall m | m in sent :: m.Message? && KeyOf(m.rpc) in rest.s.rpcs)
      && (reliable ==> forall i, j | 0 <= i < j < |sent| :: sent[i].rpc != sent[j].rpc)
      && (!reliable ==> rest.s.rpcs == s.rpcs)
  {
    if first.sent == [] {
      assert first.sent + rest.sent == rest.sent;
      assert s.rpcs == first.s.rpcs;
    } else {
      var m0 := first.sent[0];
      assert first.sent == [m0];
      ConsDelivers(m0, rest.sent, kind, batch, reliable);
      BatchKeys(s.rpcs, first.s.rpcs, rest.s.rpcs, m0, rest.sent, reliable);
    }
  }

  /** The ledger keys along a batch step whose first send produced `m0`. */
  lemma BatchKeys(before: Ledger.Rpcs<Callback>, mid: Ledger.Rpcs<Callback>, after: Ledger.Rpcs<Callback>,
                  m0: Outbound, rest: seq<Outbound>, reliable: bool)
    requires m0.Message? && KeyOf(m0.rpc) !in before
    requires reliable ==> before.Keys + {KeyOf(m0.rpc)} == mid.Keys
    requires !reliable ==> mid == before
    requires forall m | m in rest :: m.Message? && KeyOf(m.rpc) !in mid
    requires mid.Keys <= after.Keys
    requires reliable ==> forall m | m in rest :: m.Message? && KeyOf(m.rpc) in after
    requires reliable ==> forall i, j | 0 <= i < j < |rest| :: rest[i].rpc != rest[j].rpc
    ensures forall m | m in [m0] + rest :: m.Message? && KeyOf(m.rpc) !in before
    ensures before.Keys <= after.Keys
    ensures reliable ==> forall m | m in [m0] + rest :: m.Message? && KeyOf(m.rpc) in after
    ensures reliable ==> forall i, j | 0 <= i < j < |[m0] + rest| :: ([m0] + rest)[i].rpc != ([m0] + rest)[j].rpc
  {
    if reliable {
      assert forall m | m in rest :: m.rpc != m0.rpc;
      ConsDistinct(m0, rest);
    }
  }

  lemma ConsDelivers(m0: Outbound, rest: seq<Outbound>, kind: MsgType, batch: seq<Envelope>, reliable: bool)
    requires 0 < |batch| && Delivers(rest, kind, batch[1..], reliable)
    requires m0.Message? && m0 == Message(kind, batch[0].to, m0.rpc, batch[0].payload, reliable)
    ensures Delivers([m0] + rest, kind, batch, reliable)
  {
    var sent := [m0] + rest;
    forall i | 1 <= i < |sent|
      ensures sent[i] == rest[i - 1] && batch[i] == batch[1..][i - 1]
    {
    }
  }

  lemma ConsDistinct(m0: Outbound, rest: seq<Outbound>)
    requires m0.Message?
    requires forall m | m in rest :: m.Message? && m.rpc != m0.rpc
    requires forall i, j | 0 <= i < j < |rest| :: rest[i].rpc != rest[j].rpc
    ensures forall i, j | 0 <= i < j < |[m0] + rest| :: ([m0] + rest)[i].rpc != ([m0] + rest)[j].rpc
  {
    var sent := [m0] + rest;
    forall i, j | 0 <= i < j < |sent| ensures sent[i].rpc != sent[j].rpc {
      assert sent[j] == rest[j - 1] && sent[j] in rest;
      if 0 < i {
        assert sent[i] == rest[i - 1];
      }
    }
  }

  /**
   * `updateBuckets`, i.e. `RoutingTableImpl.insert`: a new contact enters the
   * table; a known one is PINGed reliably, with the callback that refreshes
   * or expires it.
   */
  function UpdateBuckets(s: State, c: Contact): (r: Out)
    requires Valid(s)
    ensures Valid(r.s)
    ensures s.halted ==> r == Out(s, [])
    ensures !s.halted ==> RoutingTable.Contains(r.s.table, c)
    ensures Buckets.Ids(s.table.root) <= Buckets.Ids(r.s.table.root)
    ensures r.s.self == s.self && r.s.values == s.values && r.s.data == s.data
    ensures !s.halted && !RoutingTable.Contains(s.table, c) ==>
      r == Out(s.(table := RoutingTable.Insert(s.table, c).0), [])
    ensures !s.halted && RoutingTable.Contains(s.table, c) ==>
      && SameExceptLedger(s, r.s)
      && |r.sent| <= 1
      && (r.s.halted || |r.sent| == 1)
      && (|r.sent| == 1 ==>
            var m := r.sent[0];
            && m.Message? && m == Message(Ping, c, m.rpc, [], true)
            && Registered(s.rpcs, r.s.rpcs, m.rpc, c, EncodeFrame(Ping, s.self.id, m.rpc, []), Some(PingBack(c))))
  {
    if s.halted then Out(s, [])
    else
      var (table, ping) := RoutingTable.Insert(s.table, c);
      var s1 := s.(table := table);
      if ping.Some? then SendFresh(s1, c, Ping, [], true, Some(PingBack(c)))
      else Out(s1, [])
  }

  /** Contacts taken one by one through `updateBuckets`, as `receiveNodes` does. */
  function UpdateAll(s: State, cs: seq<Contact>): (r: Out)
    requires Valid(s)
    ensures Valid(r.s)
    ensures s.halted ==> r == Out(s, [])
    ensures r.s.self == s.self && r.s.values == s.values && r.s.data == s.data
    ensures Buckets.Ids(s.table.root) <= Buckets.Ids(r.s.table.root)
    ensures !r.s.halted ==> forall c | c in cs :: RoutingTable.Contains(r.s.table, c)
    decreases |cs|
  {
    if s.halted || |cs| == 0 then Out(s, [])
    else
      var first := UpdateBuckets(s, cs[0]);
      var rest := UpdateAll(first.s, cs[1..]);
      assert forall c | c in cs :: c == cs[0] || c in cs[1..];
      Out(rest.s, first.sent + rest.sent)
  }

  /**
   * What an Ack's thread does to the peer: a resend goes to the wire, and a
   * PING callback refreshes (`onReceive`) or expires (`onTimeout`) the
   * pinged contact in the trie.
   */
  function ApplyOutputs(s: State, outs: seq<Acks.Output<Callback>>): (r: Out)
    requires Valid(s)
    ensures Valid(r.s)
    ensures r.s == s.(table := r.s.table)
    ensures r.s.table.entries == s.table.entries && r.s.table.k == s.table.k
    ensures (forall i | 0 <= i < |outs| :: !outs[i].OnTimeout?) ==> Buckets.Ids(s.table.root) <= Buckets.Ids(r.s.table.root)
    ensures |r.sent| == |ResendsIn(outs)| && forall i | 0 <= i < |r.sent| :: r.sent[i] == ResendsIn(outs)[i]
    decreases |outs|
  {
    if |outs| == 0 then Out(s, [])
    else
      var rest := ApplyOutputs(ApplyOne(s, outs[0]), outs[1..]);
      var here: seq<Outbound> := if outs[0].Resend? then [Retransmit(outs[0].to, outs[0].datagram)] else [];
      assert ResendsIn(outs) == here + ResendsIn(outs[1..]);
      Out(rest.s, here + rest.sent)
  }

  /** The resends among an Ack thread's outputs, as datagrams. */
  function ResendsIn(outs: seq<Acks.Output<Callback>>): (r: seq<Outbound>)
    ensures forall o | o in r :: o.Retransmit?
    decreases |outs|
  {
    if |outs| == 0 then []
    else (if outs[0].Resend? then [Retransmit(outs[0].to, outs[0].datagram)] else []) + ResendsIn(outs[1..])
  }

  function ApplyOne(s: State, o: Acks.Output<Callback>): (r: State)
    requires Valid(s)
    ensures Valid(r) && r == s.(table := r.table)
    ensures r.table.entries == s.table.entries && r.table.k == s.table.k
    ensures o.OnReceive? ==> Buckets.Ids(r.table.root) == Buckets.Ids(s.table.root) + {o.cb.contact.id}
    ensures o.OnTimeout? ==> Buckets.Ids(r.table.root) == Buckets.Ids(s.table.root) - {o.cb.contact.id}
    ensures o.Resend? ==> r == s
  {
    match o
    case Resend(_, _) => s
    case OnReceive(PingBack(c)) => s.(table := RoutingTable.Refresh(s.table, c))
    case OnTimeout(PingBack(c)) => s.(table := RoutingTable.Expire(s.table, c))
  }

  /** `receivedRPC`, with the Ack's thread reacting to `setReceived` at once. */
  function ReceivedRpc(s: State, from: Contact, rpc: Id): (r: Out)
    requires Valid(s)
    ensures Valid(r.s)
    ensures r.sent == []
    ensures r.s == s.(rpcs := r.s.rpcs, table := r.s.table)
    ensures r.s.rpcs == Ledger.ReceivedRpc(s.rpcs, from, rpc).rpcs
    ensures r.s.rpcs.Keys == s.rpcs.Keys
    ensures Buckets.Ids(s.table.root) <= Buckets.Ids(r.s.table.root)
    ensures !Ledger.ReceivedRpc(s.rpcs, from, rpc).removed ==> r.s == s
  {
    var receipt := Ledger.ReceivedRpc(s.rpcs, from, rpc);
    var applied := ApplyOutputs(s.(rpcs := receipt.rpcs), receipt.outputs);
    assert ResendsIn(receipt.outputs) == []
      && forall i | 0 <= i < |receipt.outputs| :: !receipt.outputs[i].OnTimeout?
    by {
      if receipt.removed {
        var acks := s.rpcs[KeyOf(rpc)];
        AnswerOutputs(acks[Ledger.FirstMatch(acks, from)]);
      }
    }
    applied
  }

  /** An answer never makes an Ack resend or time out: at most `onReceive` fires. */
  lemma AnswerOutputs(a: Acks.Ack<Callback>)
    requires Acks.Valid(a)
    ensures forall i | 0 <= i < |Acks.Step(a, Acks.Recv).1| :: Acks.Step(a, Acks.Recv).1[i].OnReceive?
    ensures ResendsIn(Acks.Step(a, Acks.Recv).1) == []
  {
    var outs := Acks.Step(a, Acks.Recv).1;
    if a.phase.Waiting? && a.callback.Some? {
      assert outs == [Acks.OnReceive(a.callback.value)];
      assert ResendsIn(outs) == [] + ResendsIn(outs[1..]);
    }
  }

  /**
   * One timeout period of one Ack, applied to the peer: a waiting Ack with
   * resends left retransmits its frame and changes nothing else; the tick
   * after the last resend gives up, and a PING callback then takes the
   * pinged contact out of the trie; a finished Ack does nothing.
   */
  lemma ApplyTick(s: State, a: Acks.Ack<Callback>)
    requires Valid(s) && Acks.Valid(a)
    ensures var r := ApplyOutputs(s, Acks.Step(a, Acks.Tick).1);
      && (a.phase == Acks.Waiting(Acks.MaxRetries) && a.callback.Some? ==>
            Buckets.Ids(r.s.table.root) == Buckets.Ids(s.table.root) - {a.callback.value.contact.id})
      && (!(a.phase == Acks.Waiting(Acks.MaxRetries) && a.callback.Some?) ==> r.s == s)
      && r.sent == if a.phase.Waiting? && a.phase.retries < Acks.MaxRetries then [Retransmit(a.receiver.addr, Acks.Frame(a))] else []
  {
    var outs := Acks.Step(a, Acks.Tick).1;
    if a.phase.Waiting? && a.phase.retries < Acks.MaxRetries {
      assert outs == [Acks.Resend(a.receiver.addr, Acks.Frame(a))];
      assert outs[1..] == [];
      assert [Retransmit(a.receiver.addr, Acks.Frame(a))] + [] == [Retransmit(a.receiver.addr, Acks.Frame(a))];
    } else if a.phase == Acks.Waiting(Acks.MaxRetries) && a.callback.Some? {
      assert outs[0] in outs;
      assert outs == [Acks.OnTimeout(a.callback.value)];
      assert outs[1..] == [];
    } else {
      assert outs == [];
    }
  }

  /** The `index`-th Ack under `rpc` exists and has used its last resend: its next tick gives up. */
  predicate LastTick(s: State, rpc: Id, index: nat) {
    KeyOf(rpc) in s.rpcs && index < |s.rpcs[KeyOf(rpc)]| && s.rpcs[KeyOf(rpc)][index].phase == Acks.Waiting(Acks.MaxRetries)
  }

  /**
   * A timeout period of the `index`-th Ack under `rpc` elapsed: its thread
   * resends the frame, or gives up and runs `onTimeout`, which evicts the
   * pinged contact from the trie.  The flat set never changes.
   */
  function Timeout(s: State, rpc: Id, index: nat): (r: Out)
    requires Valid(s)
    ensures Valid(r.s)
    ensures r.s == s.(rpcs := r.s.rpcs, table := r.s.table)
    ensures r.s.rpcs == Ledger.Timeout(s.rpcs, rpc, index).rpcs
    ensures r.s.table.entries == s.table.entries && r.s.table.k == s.table.k
    ensures LastTick(s, rpc, index) && s.rpcs[KeyOf(rpc)][index].callback.Some? ==>
      Buckets.Ids(r.s.table.root) == Buckets.Ids(s.table.root) - {s.rpcs[KeyOf(rpc)][index].callback.value.contact.id}
    ensures !(LastTick(s, rpc, index) && s.rpcs[KeyOf(rpc)][index].callback.Some?) ==> r.s.table == s.table
    ensures forall o | o in r.sent :: o.Retransmit?
    ensures |r.sent| <= 1
    ensures KeyOf(rpc) in s.rpcs && index < |s.rpcs[KeyOf(rpc)]| ==>
      var a := s.rpcs[KeyOf(rpc)][index];
      r.sent == if a.phase.Waiting? && a.phase.retries < Acks.MaxRetries then [Retransmit(a.receiver.addr, Acks.Frame(a))] else []
  {
    var key := KeyOf(rpc);
    var receipt := Ledger.Timeout(s.rpcs, rpc, index);
    var applied := ApplyOutputs(s.(rpcs := receipt.rpcs), receipt.outputs);
    if key in s.rpcs && index < |s.rpcs[key]| then
      ApplyTick(s.(rpcs := receipt.rpcs), s.rpcs[key][index]);
      applied
    else
      assert receipt.outputs == [];
      applied
  }

  /**
   * `joinNetworkVia`: the bootstrap contact enters the table and is asked,
   * reliably, for the nodes closest to this node's own id.
   */
  function Join(s: State, via: Contact): (r: Out)
    requires Valid(s)
    ensures Valid(r.s)
    ensures s.halted ==> r == Out(s, [])
    ensures !r.s.halted ==> RoutingTable.Contains(r.s.table, via)
    ensures !r.s.halted ==>
      && 0 < |r.sent|
      && var m := r.sent[|r.sent| - 1];
         m.Message? && m == Message(FindNode, via, m.rpc, GetBytes(s.self.id), true)
  {
    var o1 := UpdateBuckets(s, via);
    var o2 := SendFresh(o1.s, via, FindNode, GetBytes(s.self.id), true, None);
    FreshLast(o1, o2, via, FindNode, GetBytes(s.self.id), true);
    Out(o2.s, o1.sent + o2.sent)
  }

  /** A fresh send after earlier output: unless the peer stopped, its message comes last. */
  lemma FreshLast(o1: Out, o2: Out, to: Contact, kind: MsgType, payload: seq<Byte>, reliable: bool)
    requires Valid(o1.s) && o2 == SendFresh(o1.s, to, kind, payload, reliable, None)
    ensures !o2.s.halted ==>
      && 0 < |o1.sent + o2.sent|
      && var m := (o1.sent + o2.sent)[|o1.sent + o2.sent| - 1];
         m.Message? && m == Message(kind, to, m.rpc, payload, reliable)
  {
    if !o2.s.halted {
      assert |o2.sent| == 1;
      assert (o1.sent + o2.sent)[|o1.sent + o2.sent| - 1] == o2.sent[0];
    }
  }

  /**
   * `store(key)`: this node becomes the key's owner in its own index, and
   * each of the closest known nodes gets a reliable STORE of the key.
   */
  function Store(s: State, key: Id): (r: Out)
    requires Valid(s)
    ensures Valid(r.s)
    ensures s.halted ==> r == Out(s, [])
    ensures !s.halted ==> KeyOf(key) in r.s.values && r.s.values[KeyOf(key)] == s.self.id
    ensures !s.halted ==>
      var closest := RoutingTable.Closest(s.table, key);
      && Delivers(r.sent, Wire.Store, ToEach(closest, GetBytes(key)), true)
      && (!r.s.halted ==> |r.sent| == |closest|)
    ensures r.s.table == s.table && r.s.data == s.data
  {
    if s.halted then Out(s, [])
    else
      var s1 := s.(values := s.values[KeyOf(key) := s.self.id]);
      SendBatch(s1, Wire.Store, ToEach(RoutingTable.Closest(s.table, key), GetBytes(key)), true)
  }

  /** `storePair(key, owner)`: the owner recorded for a key, replacing any earlier one. */
  function StorePair(s: State, key: Id, owner: Id): (r: State)
    ensures KeyOf(key) in r.values && r.values[KeyOf(key)] == owner
    ensures forall other | other in s.values && other != KeyOf(key) :: other in r.values && r.values[other] == s.values[other]
    ensures r == s.(values := r.values)
  {
    s.(values := s.values[KeyOf(key) := owner])
  }

  /** `hasKey`. */
  function HasKey(s: State, key: Id): (r: bool)
    ensures r <==> exists owner :: StorePair(s, key, owner) == s
  {
    assert KeyOf(key) in s.values ==> StorePair(s, key, s.values[KeyOf(key)]) == s;
    KeyOf(key) in s.values
  }

  /** `storeData`: the text of a file, replacing any earlier text under the key. */
  function StoreData(s: State, key: Id, text: string): (r: State)
    ensures KeyOf(key) in r.data && r.data[KeyOf(key)] == text
    ensures forall other | other in s.data && other != KeyOf(key) :: other in r.data && r.data[other] == s.data[other]
    ensures r == s.(data := r.data)
  {
    s.(data := s.data[KeyOf(key) := text])
  }

  /**
   * `sendFindValue` to each of `tos`: `searchID` is set to the key before
   * the first message, and each node gets a reliable FIND_VALUE of the key.
   */
  function FindValues(s: State, tos: seq<Contact>, key: Id): (r: Out)
    requires Valid(s)
    ensures Valid(r.s)
    ensures s.halted ==> r == Out(s, [])
    ensures !s.halted && 0 < |tos| ==> r.s.searchId == Some(key)
    ensures |tos| == 0 ==> r == Out(s, [])
    ensures Delivers(r.sent, Wire.FindValue, ToEach(tos, GetBytes(key)), true)
    ensures !r.s.halted ==> |r.sent| == |tos|
    ensures r.s.self == s.self && r.s.table == s.table && r.s.values == s.values && r.s.data == s.data
  {
    if s.halted || |tos| == 0 then Out(s, [])
    else SendBatch(s.(searchId := Some(key)), Wire.FindValue, ToEach(tos, GetBytes(key)), true)
  }

  /** `findValue(key)`: FIND_VALUE to each of the closest known nodes. */
  function FindValue(s: State, key: Id): (r: Out)
    requires Valid(s)
    ensures Valid(r.s)
    ensures Delivers(r.sent, Wire.FindValue, ToEach(RoutingTable.Closest(s.table, key), GetBytes(key)), true)
    ensures !r.s.halted ==> |r.sent| == |RoutingTable.Closest(s.table, key)|
  {
    FindValues(s, RoutingTable.Closest(s.table, key), key)
  }

  /**
   * `sendDataReq`: nothing while no FOUND_VALUE has named a node; otherwise
   * a reliable DATA_REQ of the key to that node.
   */
  function SendDataReq(s: State, key: Id): (r: Out)
    requires Valid(s)
    ensures Valid(r.s) && SameExceptLedger(s, r.s)
    ensures s.lastLookup.None? ==> r == Out(s, [])
    ensures s.lastLookup.Some? && !r.s.halted ==>
      && |r.sent| == 1 && r.sent[0].Message?
      && r.sent[0] == Message(DataReq, s.lastLookup.value, r.sent[0].rpc, GetBytes(key), true)
  {
    if s.lastLookup.None? then Out(s, [])
    else
      var r := SendFresh(s, s.lastLookup.value, DataReq, GetBytes(key), true, None);
      assert !r.s.halted ==> r.sent[0] in r.sent;
      r
  }

  /** `leave`: an unreliable LEAVE to every contact of the flat set. */
  function Leave(s: State): (r: Out)
    requires Valid(s)
    ensures Valid(r.s) && SameExceptLedger(s, r.s) && r.s.rpcs == s.rpcs
    ensures Delivers(r.sent, Wire.Leave, ToEach(RoutingTable.ByDistance(s.table.entries, s.self.id, 0), []), false)
    ensures forall key | key in s.table.entries :: !r.s.halted ==>
      exists m | m in r.sent :: m.to == s.table.entries[key]
  {
    var all := RoutingTable.ByDistance(s.table.entries, s.self.id, 0);
    RoutingTable.ByDistanceComplete(s.table.entries, s.self.id, 0);
    var r := SendBatch(s, Wire.Leave, ToEach(all, []), false);
    assert forall key | key in s.table.entries :: !r.s.halted ==> exists m | m in r.sent :: m.to == s.table.entries[key] by {
      forall key | key in s.table.entries && !r.s.halted
        ensures exists m | m in r.sent :: m.to == s.table.entries[key]
      {
        var i :| 0 <= i < |all| && all[i] == s.table.entries[key];
        assert r.sent[i] in r.sent && r.sent[i].to == all[i];
      }
    }
    r
  }

  /**
   * `sendClosestNodesTo`: NODES (for FIND_NODE) or VALUE_NODES (for
   * FIND_VALUE) with the closest known contacts other than the receiver,
   * unreliable and under the request's RPC id.
   */
  function SendClosestNodesTo(s: State, to: Contact, target: Id, rpc: Id, nodeType: bool): (r: Out)
    requires Valid(s)
    ensures Valid(r.s) && SameExceptLedger(s, r.s) && r.s.rpcs == s.rpcs
    ensures s.halted ==> r == Out(s, [])
    ensures !r.s.halted ==>
      var closest := RoutingTable.Closest(s.table, target);
      && NodesPayload(closest, to).Some?
      && r.sent == [Message(if nodeType then Nodes else ValueNodes, to, rpc, NodesPayload(closest, to).value, false)]
  {
    if s.halted then Out(s, [])
    else
      match NodesPayload(RoutingTable.Closest(s.table, target), to)
      case None => Out(s.(halted := true), [])
      case Some(payload) => Send(s, to, if nodeType then Nodes else ValueNodes, rpc, payload, false, None)
  }

  /** The frame texts of `sendData` as octets: `fid-count-index-content` with the decimal key as `fid`. */
  function DataPayloads(key: Id, text: string): (r: seq<seq<Byte>>)
    ensures |r| == DataFrame.ChunkCount(text)
    ensures forall i | 0 <= i < |r| :: r[i] == TextBytes(DataFrame.ChunkTexts(ToString(key), text)[i])
  {
    var texts := DataFrame.ChunkTexts(ToString(key), text);
    seq(|texts|, i requires 0 <= i < |texts| => TextBytes(texts[i]))
  }

  /**
   * `sendData`: nothing when the file is not stored here; otherwise one
   * reliable DATA frame per whole chunk of four characters, in order.
   */
  function SendData(s: State, to: Contact, key: Id): (r: Out)
    requires Valid(s)
    ensures Valid(r.s) && SameExceptLedger(s, r.s)
    ensures KeyOf(key) !in s.data ==> r == Out(s, [])
    ensures KeyOf(key) in s.data ==>
      var payloads := DataPayloads(key, s.data[KeyOf(key)]);
      && Delivers(r.sent, Data, seq(|payloads|, i requires 0 <= i < |payloads| => Envelope(to, payloads[i])), true)
      && (!r.s.halted ==> |r.sent| == |payloads| == DataFrame.ChunkCount(s.data[KeyOf(key)]))
  {
    if KeyOf(key) !in s.data then Out(s, [])
    else
      var payloads := DataPayloads(key, s.data[KeyOf(key)]);
      SendBatch(s, Data, seq(|payloads|, i requires 0 <= i < |payloads| => Envelope(to, payloads[i])), true)
  }
}

=== FILE: node_identifier.dfy ===
/**
 * src/node/NodeIdentifier.java: an identifier together with the peer's
 * socket address, its 9-byte "triple" encoding, and the reading of triples
 * in src/node/UDPHandler.java (`getIPFromBuffer`, `getNodeTripleFromBuffer`).
 */
module NodeIdentifier {
  import opened Wrappers
  import opened Bytes
  import opened Identifier
  import opened BufferUtil

  /** `Node.SIZE_IP_ADDRESS`: four host octets plus a four-byte port. */
  const SizeIpAddress: nat := 8
  /** `SIZE_IP_ADDRESS + ID_BITS / 8`. */
  const TripleSize: nat := SizeIpAddress + IdOctets

  /** A peer: its identifier and its socket address (`getAddress` reads `addr`). */
  datatype Contact = Contact(id: Id, addr: Addr)

  /** `equals` is inherited from `Identifier`: only the identifier bits are compared. */
  predicate SameNode(a: Contact, b: Contact) {
    a.id == b.id
  }

  /** A host octet `addrToBytes` can write. */
  predicate Encodable(c: Contact) {
    forall i | 0 <= i < 4 :: ByteValueOfAccepts(c.addr.host[i])
  }

  /**
   * `getTripleAsBytes`: a zero-filled buffer of `TripleSize` bytes holding the
   * address bytes and then `getBytes()` of the identifier.  `None` is the
   * exception `addrToBytes` throws.
   */
  function TripleBytes(c: Contact): (r: Option<seq<Byte>>)
    ensures r.Some? <==> Encodable(c)
    ensures r.Some? ==> |r.value| == TripleSize
    ensures r.Some? ==> r.value[..SizeIpAddress] == AddrToBytes(c.addr).value
    ensures r.Some? ==> r.value[SizeIpAddress] == c.id
  {
    var addr :- AddrToBytes(c.addr);
    var idBytes := GetBytes(c.id);
    var triple := addr + idBytes + Zeros(IdOctets - |idBytes|);
    assert triple[SizeIpAddress] == c.id;
    Some(triple)
  }

  /**
   * `getNodeTripleFromBuffer` on exactly one triple: four signed octets form
   * the dotted host, `getInt` the port, and `ID_BITS / 8` bytes the identifier.
   * `None` is the exception `InetSocketAddress` throws for a port out of range.
   */
  function DecodeTriple(bs: seq<Byte>): (r: Option<Contact>)
    requires |bs| == TripleSize
    ensures r.Some? ==> r.value.id == bs[SizeIpAddress]
    ensures r.Some? ==> forall i | 0 <= i < 4 :: r.value.addr.host[i] == Signed(bs[i])
  {
    var host: Quad := [Signed(bs[0]), Signed(bs[1]), Signed(bs[2]), Signed(bs[3])];
    var port := ReadInt32BE(bs[4..8]);
    if 0 <= port < 0x1_0000 then
      Some(Contact(FromBytes(bs[SizeIpAddress..]), Addr(host, port)))
    else None
  }

  /** Reading a triple gives back the contact it was written from, address included. */
  lemma TripleRoundTrip(c: Contact)
    requires Encodable(c)
    ensures DecodeTriple(TripleBytes(c).value) == Some(c)
  {
    var bs := TripleBytes(c).value;
    var a := AddrToBytes(c.addr).value;
    assert bs[..SizeIpAddress] == a;
    assert bs[4..8] == a[4..] by {
      assert bs[4..8] == bs[..SizeIpAddress][4..];
    }
    Int32RoundTrip(c.addr.port);
    var host: Quad := [Signed(bs[0]), Signed(bs[1]), Signed(bs[2]), Signed(bs[3])];
    assert bs[0] == a[0] && bs[1] == a[1] && bs[2] == a[2] && bs[3] == a[3];
    assert host == c.addr.host;
  }

  /** What `while (buffer.hasRemaining())` reads: the triples, and whether it ended without an exception. */
  datatype Triples = Triples(contacts: seq<Contact>, complete: bool)

  /**
   * The payload loop of `receiveNodes`/`receiveValueNodes`: triples are read
   * until the buffer is exhausted; a short tail or a bad port ends the loop
   * with an exception.
   */
  function DecodeTriples(bs: seq<Byte>): (r: Triples)
    ensures r.complete ==> |r.contacts| * TripleSize == |bs|
    ensures |r.contacts| * TripleSize <= |bs|
    decreases |bs|
  {
    if |bs| == 0 then Triples([], true)
    else if |bs| < TripleSize then Triples([], false)
    else match DecodeTriple(bs[..TripleSize])
      case None => Triples([], false)
      case Some(c) =>
        var rest := DecodeTriples(bs[TripleSize..]);
        Triples([c] + rest.contacts, rest.complete)
  }

  /** The concatenated triples of a list of contacts, as `sendClosestNodesTo` fills its buffer. */
  function EncodeTriples(cs: seq<Contact>): (r: Option<seq<Byte>>)
    ensures r.Some? <==> forall i | 0 <= i < |cs| :: Encodable(cs[i])
    ensures r.Some? ==> |r.value| == |cs| * TripleSize
  {
    if |cs| == 0 then Some([])
    else
      var head := TripleBytes(cs[0]);
      var tail := EncodeTriples(cs[1..]);
      if head.Some? && tail.Some? then
        assert forall i | 1 <= i < |cs| :: Encodable(cs[i]) by {
          forall i | 1 <= i < |cs| ensures Encodable(cs[i]) { assert cs[1..][i - 1] == cs[i]; }
        }
        Some(head.value + tail.value)
      else
        assert !Encodable(cs[0]) || exists i | 1 <= i < |cs| :: !Encodable(cs[i]) by {
          if head.Some? {
            var j :| 0 <= j < |cs[1..]| && !Encodable(cs[1..][j]);
            assert cs[1..][j] == cs[j + 1];
          }
        }
        None
  }

  /** A NODES payload of encodable contacts decodes to exactly those contacts. */
  lemma {:induction false} TriplesRoundTrip(cs: seq<Contact>)
    requires forall i | 0 <= i < |cs| :: Encodable(cs[i])
    ensures DecodeTriples(EncodeTriples(cs).value) == Triples(cs, true)
  {
    if |cs| > 0 {
      var bs := EncodeTriples(cs).value;
      var head := TripleBytes(cs[0]).value;
      assert bs == head + EncodeTriples(cs[1..]).value;
      assert bs[..TripleSize] == head;
      assert bs[TripleSize..] == EncodeTriples(cs[1..]).value;
      TripleRoundTrip(cs[0]);
      TriplesRoundTrip(cs[1..]);
      assert [cs[0]] + cs[1..] == cs;
    }
  }

  /** A zero-filled triple reads as identifier 0 at 0.0.0.0, port 0. */
  lemma ZeroTriple()
    ensures DecodeTriple(Zeros(TripleSize)) == Some(Contact(0, Addr([0, 0, 0, 0], 0)))
  {
    var z := Zeros(TripleSize);
    assert z[4..8] == [0, 0, 0, 0];
  }
}

=== FILE: routing_table.dfy ===
/**
 * src/routingtable/RoutingTableImpl.java: the bucket trie together with the
 * flat set of every contact ever inserted, and the closest-contacts query.
 */
module RoutingTable {
  import opened Wrappers
  import opened Identifier
  import opened NodeIdentifier
  import Buckets
  import BufferUtil

  /** `Node.BUCKET_SIZE`, which fixes the size of a closest-contacts answer. */
  const BucketSize := 2

  /**
   * `k` is the table's own bucket size; `entries` is the flat `HashSet`,
   * keyed by identifier because contact equality compares identifiers only.
   * A contact added twice keeps the first copy.
   */
  datatype Table = Table(k: nat, entries: map<Key, Contact>, root: Buckets.Bucket)

  /** Each flat entry sits under its own identifier's key. */
  predicate Keyed(m: map<Key, Contact>) {
    forall key | key in m :: KeyOf(m[key].id) == key
  }

  predicate Valid(t: Table) {
    && t.k >= 1
    && Buckets.Valid(t.root) && t.root.level == 0
    && Keyed(t.entries)
  }

  /**
   * No leaf holds more than `k` contacts. Inserting keeps this, but a PING
   * answered after its contact was dropped puts the contact back without a
   * size check, so it is not part of `Valid`.
   */
  predicate WithinCapacity(t: Table) {
    Buckets.Bounded(t.root, t.k)
  }

  /** The flat set and the trie hold the same identifiers. */
  ghost predicate Mirrors(t: Table) {
    forall id: Id :: KeyOf(id) in t.entries <==> id in Buckets.Ids(t.root)
  }

  function Empty(k: nat): (t: Table)
    requires k >= 1
    ensures Valid(t) && WithinCapacity(t) && Mirrors(t) && |t.entries| == 0
  {
    Table(k, map[], Buckets.Leaf(0, []))
  }

  lemma AgreesAtRoot(b: Buckets.Bucket, p: Id)
    requires Buckets.Shaped(b) && b.level == 0
    ensures Buckets.Agrees(b, p)
  {
  }

  /** `contains`: membership in the trie (not in the flat set). */
  function Contains(t: Table, c: Contact): (r: bool)
    ensures r <==> c.id in Buckets.Ids(t.root)
  {
    Buckets.Contains(t.root, c)
  }

  /** `remove` has an empty body. */
  function Remove(t: Table, c: Contact): (r: Table)
    ensures r == t
  {
    t
  }

  /**
   * `insert`: a contact already in the trie changes nothing and asks for a
   * PING (`update`, whose callbacks are `Refresh` and `Expire` below); a
   * new one goes into the flat set and into the trie.
   */
  function Insert(t: Table, c: Contact): (r: (Table, Option<Contact>))
    requires Valid(t)
    ensures Valid(r.0) && r.0.k == t.k
    ensures WithinCapacity(t) ==> WithinCapacity(r.0)
    ensures Contains(t, c) ==> r.0 == t && r.1 == Some(c)
    ensures !Contains(t, c) ==> r.1 == None
    ensures !Contains(t, c) ==> Buckets.Ids(r.0.root) == Buckets.Ids(t.root) + {c.id}
    ensures !Contains(t, c) ==> r.0.entries.Keys == t.entries.Keys + {KeyOf(c.id)}
    ensures !Contains(t, c) && KeyOf(c.id) !in t.entries ==> r.0.entries[KeyOf(c.id)] == c
    ensures forall key | key in t.entries :: key in r.0.entries && r.0.entries[key] == t.entries[key]
    ensures Mirrors(t) ==> Mirrors(r.0)
    ensures Contains(r.0, c)
  {
    if Buckets.Contains(t.root, c) then
      (t, Some(c))
    else
      AgreesAtRoot(t.root, c.id);
      Buckets.InsertContains(t.root, c, t.k);
      var entries := AddNew(t.entries, c);
      var root := Buckets.Insert(t.root, c, t.k);
      assert Buckets.Valid(root) && root.level == 0;
      (Table(t.k, entries, root), None)
  }

  /**
   * A known node heard from at a new address is still known: the table
   * keeps the contact at its old address and asks for a PING to the new
   * one.  When that PING is answered, the contact at the new address heads
   * its leaf and the trie holds the same identifiers as before.
   */
  lemma KnownAtNewAddress(t: Table, c: Contact, addr: BufferUtil.Addr)
    requires Valid(t) && Contains(t, c)
    ensures Insert(t, Contact(c.id, addr)) == (t, Some(Contact(c.id, addr)))
    ensures var moved := Refresh(t, Contact(c.id, addr));
      && Buckets.Route(moved.root, c.id)[0] == Contact(c.id, addr)
      && Buckets.Ids(moved.root) == Buckets.Ids(t.root)
  {
    assert Contains(t, Contact(c.id, addr));
  }

  /** `HashSet.add`: a contact whose identifier is already present is not added. */
  function AddNew(m: map<Key, Contact>, c: Contact): (r: map<Key, Contact>)
    requires Keyed(m)
    ensures Keyed(r)
    ensures r.Keys == m.Keys + {KeyOf(c.id)}
    ensures forall key | key in m :: r[key] == m[key]
    ensures KeyOf(c.id) !in m ==> r[KeyOf(c.id)] == c
  {
    if KeyOf(c.id) in m then m else m[KeyOf(c.id) := c]
  }

  /** The PING of `update` was answered: move the contact to the front of its leaf. */
  function Refresh(t: Table, c: Contact): (r: Table)
    requires Valid(t)
    ensures Valid(r)
    ensures WithinCapacity(t) && Contains(t, c) ==> WithinCapacity(r)
    ensures Buckets.Ids(r.root) == Buckets.Ids(t.root) + {c.id}
    ensures r.entries == t.entries && r.k == t.k
    ensures Buckets.Route(r.root, c.id) == [c] + Buckets.RemoveFirst(Buckets.Route(t.root, c.id), c)
  {
    AgreesAtRoot(t.root, c.id);
    Buckets.TouchKeepsValid(t.root, c);
    Buckets.TouchIds(t.root, c);
    assert Buckets.Bounded(t.root, t.k) && Buckets.Contains(t.root, c) ==> Buckets.Bounded(Buckets.Touch(t.root, c), t.k) by {
      if Buckets.Bounded(t.root, t.k) && Buckets.Contains(t.root, c) {
        Buckets.TouchBounded(t.root, c, t.k);
      }
    }
    t.(root := Buckets.Touch(t.root, c))
  }

  /** The PING of `update` timed out: drop the contact from its leaf, not from the flat set. */
  function Expire(t: Table, c: Contact): (r: Table)
    requires Valid(t)
    ensures Valid(r)
    ensures WithinCapacity(t) ==> WithinCapacity(r)
    ensures Buckets.Ids(r.root) == Buckets.Ids(t.root) - {c.id}
    ensures r.entries == t.entries && r.k == t.k
  {
    Buckets.RemoveKeepsValid(t.root, c, t.k);
    t.(root := Buckets.Remove(t.root, c))
  }

  /** The flat set is not told about a timeout, so it stops mirroring the trie. */
  lemma ExpireBreaksMirror(t: Table, c: Contact)
    requires Valid(t) && Mirrors(t) && Contains(t, c)
    ensures !Mirrors(Expire(t, c))
  {
    assert KeyOf(c.id) in Expire(t, c).entries;
  }

  // ---------------------------------------------------------------------------
  // Closest contacts

  function IdsOf(s: seq<Contact>): set<Id> {
    set c | c in s :: c.id
  }

  /** Ordered by strictly increasing distance to `target` (so no identifier twice). */
  predicate Ascending(s: seq<Contact>, target: Id) {
    forall i, j | 0 <= i < j < |s| :: Distance(target, s[i].id) < Distance(target, s[j].id)
  }

  /**
   * The entries at distance `d` or more from `target`, nearest first.
   * Distances from a fixed target are all different, so sorting the flat set
   * by distance is scanning the distances upwards.
   */
  function ByDistance(m: map<Key, Contact>, target: Id, d: nat): (r: seq<Contact>)
    requires d <= 256 && Keyed(m)
    ensures forall c | c in r :: KeyOf(c.id) in m && m[KeyOf(c.id)] == c
    decreases 256 - d
  {
    if d == 256 then []
    else
      var key := KeyOf(AtDistance(target, d));
      if key in m then [m[key]] + ByDistance(m, target, d + 1)
      else ByDistance(m, target, d + 1)
  }

  /** The scan yields strictly increasing distances, all at least `d`. */
  lemma {:induction false} ByDistanceAscending(m: map<Key, Contact>, target: Id, d: nat)
    requires d <= 256 && Keyed(m)
    ensures forall c | c in ByDistance(m, target, d) :: Distance(target, c.id) >= d
    ensures Ascending(ByDistance(m, target, d), target)
    decreases 256 - d
  {
    if d < 256 {
      var id := AtDistance(target, d);
      ByDistanceAscending(m, target, d + 1);
      if KeyOf(id) in m {
        var rest := ByDistance(m, target, d + 1);
        var r := [m[KeyOf(id)]] + rest;
        KeyInjective(m[KeyOf(id)].id, id);
        forall i, j | 0 <= i < j < |r| ensures Distance(target, r[i].id) < Distance(target, r[j].id) {
          if i == 0 {
            assert r[j] in rest;
          } else {
            assert r[i] == rest[i - 1] && r[j] == rest[j - 1];
          }
        }
      }
    }
  }

  /** Every entry at distance `d` or more is in the scan. */
  lemma {:induction false} ByDistanceComplete(m: map<Key, Contact>, target: Id, d: nat)
    requires d <= 256 && Keyed(m)
    ensures forall key | key in m && Distance(target, m[key].id) >= d :: m[key] in ByDistance(m, target, d)
    decreases 256 - d
  {
    if d < 256 {
      ByDistanceComplete(m, target, d + 1);
      forall other | other in m && Distance(target, m[other].id) >= d
        ensures m[other] in ByDistance(m, target, d)
      {
        EntryInScan(m, target, d, other);
      }
    }
  }

  /** One scan step: an entry at distance `d` is the head, one further away is in the rest. */
  lemma EntryInScan(m: map<Key, Contact>, target: Id, d: nat, other: Key)
    requires d < 256 && Keyed(m) && other in m && Distance(target, m[other].id) >= d
    requires forall key | key in m && Distance(target, m[key].id) >= d + 1 :: m[key] in ByDistance(m, target, d + 1)
    ensures m[other] in ByDistance(m, target, d)
  {
    var key := KeyOf(AtDistance(target, d));
    if Distance(target, m[other].id) == d {
      OnlyKeyAtDistance(m, target, d, other);
      assert ByDistance(m, target, d)[0] == m[other];
    } else {
      InRestInScan(m, target, d, m[other]);
    }
  }

  /** The scan from `d` keeps everything the scan from `d + 1` finds. */
  lemma InRestInScan(m: map<Key, Contact>, target: Id, d: nat, c: Contact)
    requires d < 256 && Keyed(m) && c in ByDistance(m, target, d + 1)
    ensures c in ByDistance(m, target, d)
  {
    var key := KeyOf(AtDistance(target, d));
    var rest := ByDistance(m, target, d + 1);
    if key in m {
      assert ByDistance(m, target, d) == [m[key]] + rest;
    }
  }

  /** In a keyed map, the entry at distance `d` can only be the one under `AtDistance`'s key. */
  lemma OnlyKeyAtDistance(m: map<Key, Contact>, target: Id, d: nat, key: Key)
    requires d < 256 && Keyed(m) && key in m && Distance(target, m[key].id) == d
    ensures key == KeyOf(AtDistance(target, d))
  {
    DistanceInjective(target, m[key].id, AtDistance(target, d));
  }

  lemma SubsetCard(a: set<Key>, b: set<Key>)
    requires a <= b
    ensures |a| <= |b|
  {
    assert b == a + (b - a);
  }

  /** Fewer than two scanned entries means fewer than two entries. */
  lemma ShortScan(m: map<Key, Contact>, s: seq<Contact>)
    requires |s| < 2
    requires forall key | key in m :: m[key] in s
    requires Keyed(m)
    ensures |m| <= |s|
  {
    if |s| == 0 {
      assert m.Keys == {};
    } else {
      assert m.Keys <= {KeyOf(s[0].id)};
      SubsetCard(m.Keys, {KeyOf(s[0].id)});
    }
  }

  /** What a prefix leaves out is in the rest. */
  lemma PrefixSplit(s: seq<Contact>, n: nat)
    requires n <= |s|
    ensures forall c | c in s && c !in s[..n] :: c in s[n..]
  {
    forall c | c in s && c !in s[..n] ensures c in s[n..] {
      var j :| 0 <= j < |s| && s[j] == c;
      assert s[n..][j - n] == c;
    }
  }

  /** In an ascending list every entry of a prefix is nearer than every entry after it. */
  lemma PrefixCloser(s: seq<Contact>, n: nat, target: Id)
    requires n <= |s| && Ascending(s, target)
    ensures forall c, e | c in s[..n] && e in s[n..] :: Distance(target, c.id) < Distance(target, e.id)
  {
    forall c, e | c in s[..n] && e in s[n..] ensures Distance(target, c.id) < Distance(target, e.id) {
      var i :| 0 <= i < n && s[..n][i] == c;
      var j :| 0 <= j < |s| - n && s[n..][j] == e;
      assert s[i] == c && s[n + j] == e;
    }
  }

  /** A new contact joins a root leaf with room at its end, and the flat set under its key. */
  lemma InsertIntoRoomyRoot(t: Table, c: Contact)
    requires Valid(t) && t.root.Leaf? && |t.root.entries| < t.k
    requires !Contains(t, c) && KeyOf(c.id) !in t.entries
    ensures Insert(t, c).0 == Table(t.k, t.entries[KeyOf(c.id) := c], Buckets.Leaf(0, t.root.entries + [c]))
  {
    AgreesAtRoot(t.root, c.id);
    Buckets.InsertAppends(t.root, c, t.k);
  }

  /** A new contact arriving at a full root leaf splits the root. */
  lemma InsertIntoFullRoot(t: Table, c: Contact)
    requires Valid(t) && t.root.Leaf? && |t.root.entries| >= t.k
    requires !Contains(t, c) && KeyOf(c.id) !in t.entries
    ensures Insert(t, c).0.root.Split? && Insert(t, c).0.root.level == 0
    ensures Insert(t, c).0.entries == t.entries[KeyOf(c.id) := c]
  {
    AgreesAtRoot(t.root, c.id);
    Buckets.InsertSplitsFullLeaf(t.root, c, t.k);
  }

  /** The three inserts of the scenario below, applied one at a time. */
  function InsertThree(c5: Contact, c130: Contact, c68: Contact): Table {
    Insert(Insert(Insert(Empty(2), c5).0, c130).0, c68).0
  }

  /** The first insert of the scenario below starts the root leaf. */
  lemma FirstInsert(c5: Contact)
    ensures Insert(Empty(2), c5).0 == Table(2, map[KeyOf(c5.id) := c5], Buckets.Leaf(0, [c5]))
  {
    InsertIntoRoomyRoot(Empty(2), c5);
    assert [] + [c5] == [c5];
  }

  /** The second insert of the scenario below fills the root leaf. */
  lemma SecondInsert(t1: Table, c5: Contact, c130: Contact)
    requires c5.id == 5 && c130.id == 130
    requires t1 == Table(2, map[KeyOf(c5.id) := c5], Buckets.Leaf(0, [c5]))
    ensures Insert(t1, c130).0 == Table(2, map[KeyOf(c5.id) := c5, KeyOf(c130.id) := c130], Buckets.Leaf(0, [c5, c130]))
  {
    KeyInjective(c5.id, c130.id);
    assert Buckets.Ids(t1.root) == {c5.id};
    InsertIntoRoomyRoot(t1, c130);
    assert [c5] + [c130] == [c5, c130];
  }

  /** The first two inserts of the scenario below fill the root leaf in arrival order. */
  lemma TwoInsertsFillRoot(c5: Contact, c130: Contact)
    requires c5.id == 5 && c130.id == 130
    ensures var t := Insert(Insert(Empty(2), c5).0, c130).0;
      && t == Table(2, map[KeyOf(c5.id) := c5, KeyOf(c130.id) := c130], Buckets.Leaf(0, [c5, c130]))
      && Valid(t)
  {
    FirstInsert(c5);
    SecondInsert(Insert(Empty(2), c5).0, c5, c130);
  }

  /**
   * Identifiers 5, 130 and 68 inserted in that order into an empty table of
   * bucket size 2: the third insert splits the root, and the flat set holds
   * all three.
   */
  lemma ThreeInsertsSplitRoot(c5: Contact, c130: Contact, c68: Contact)
    requires c5.id == 5 && c130.id == 130 && c68.id == 68
    ensures var t := InsertThree(c5, c130, c68);
      && Valid(t) && t.k == 2 && t.root.Split? && t.root.level == 0
      && t.entries == map[KeyOf(c5.id) := c5, KeyOf(c130.id) := c130, KeyOf(c68.id) := c68]
  {
    TwoInsertsFillRoot(c5, c130);
    var t2 := Insert(Insert(Empty(2), c5).0, c130).0;
    KeyInjective(c5.id, c68.id);
    KeyInjective(c130.id, c68.id);
    assert Buckets.Ids(t2.root) == {c5.id, c130.id};
    InsertIntoFullRoot(t2, c68);
  }

  /** The table of the scenario holds 68, 5 and 130, in increasing distance from 64. */
  lemma ScenarioHoldsThree(t: Table, c5: Contact, c130: Contact, c68: Contact)
    requires c5.id == 5 && c130.id == 130 && c68.id == 68
    requires Valid(t) && t.k == 2
    requires t.entries == map[KeyOf(c5.id) := c5, KeyOf(c130.id) := c130, KeyOf(c68.id) := c68]
    ensures HoldsThree(t, 64, c68, c5, c130)
  {
    KeyInjective(c5.id, c68.id);
    KeyInjective(c130.id, c68.id);
    KeyInjective(c5.id, c130.id);
    assert Distance(64, 68) == 4 && Distance(64, 5) == 69 && Distance(64, 130) == 194;
  }

  /**
   * After the same three inserts, the two contacts nearest to 64 are 68
   * (distance 4) and then 5 (distance 69); 130 (distance 194) is left out.
   */
  lemma ThreeInsertsClosest(c5: Contact, c130: Contact, c68: Contact)
    requires c5.id == 5 && c130.id == 130 && c68.id == 68
    ensures Closest(InsertThree(c5, c130, c68), 64) == [c68, c5]
  {
    ThreeInsertsSplitRoot(c5, c130, c68);
    ScenarioHoldsThree(InsertThree(c5, c130, c68), c5, c130, c68);
    ClosestOfThree(InsertThree(c5, c130, c68), 64, c68, c5, c130);
  }

  /** A table whose flat set is exactly `a`, `b` and `c`, in increasing distance from `target`. */
  predicate HoldsThree(t: Table, target: Id, a: Contact, b: Contact, c: Contact) {
    && Valid(t) && t.k == 2
    && Distance(target, a.id) < Distance(target, b.id) < Distance(target, c.id)
    && t.entries.Keys == {KeyOf(a.id), KeyOf(b.id), KeyOf(c.id)}
    && t.entries[KeyOf(a.id)] == a && t.entries[KeyOf(b.id)] == b && t.entries[KeyOf(c.id)] == c
  }

  /** Of three entries, a table of bucket size 2 answers the nearer two, nearest first. */
  lemma ClosestOfThree(t: Table, target: Id, a: Contact, b: Contact, c: Contact)
    requires HoldsThree(t, target, a, b, c)
    ensures Closest(t, target) == [a, b]
  {
    var r := Closest(t, target);
    ClosestAmongThree(t, target, a, b, c);
    ClosestHasNearest(t, target, a, b, c);
    ClosestSkipsFarthest(t, target, a, b, c);
    assert r[0] in r && r[1] in r;
  }

  lemma ClosestAmongThree(t: Table, target: Id, a: Contact, b: Contact, c: Contact)
    requires HoldsThree(t, target, a, b, c)
    ensures |Closest(t, target)| == 2
    ensures forall x | x in Closest(t, target) :: x == a || x == b || x == c
  {
    KeyInjective(a.id, b.id);
    KeyInjective(b.id, c.id);
    KeyInjective(a.id, c.id);
    assert |t.entries| == 3 by {
      assert |t.entries.Keys| == 3;
    }
    var r := Closest(t, target);
    forall x | x in r ensures x == a || x == b || x == c {
      var key := KeyOf(x.id);
      assert key in t.entries.Keys && t.entries[key] == x;
    }
  }

  lemma ClosestHasNearest(t: Table, target: Id, a: Contact, b: Contact, c: Contact)
    requires HoldsThree(t, target, a, b, c)
    ensures a in Closest(t, target)
  {
    ClosestAmongThree(t, target, a, b, c);
    var r := Closest(t, target);
    assert r[0] in r;
  }

  lemma ClosestSkipsFarthest(t: Table, target: Id, a: Contact, b: Contact, c: Contact)
    requires HoldsThree(t, target, a, b, c)
    ensures c !in Closest(t, target)
  {
    var r := Closest(t, target);
    ClosestAmongThree(t, target, a, b, c);
    ClosestHasNearest(t, target, a, b, c);
    assert t.entries[KeyOf(b.id)] == b;
    assert c in r ==> b in r;
    NotAllThree(r, a, b, c);
  }

  /** Two places cannot hold three different contacts. */
  lemma NotAllThree(r: seq<Contact>, a: Contact, b: Contact, c: Contact)
    requires |r| == 2 && a != b && b != c && a != c
    ensures !(a in r && b in r && c in r)
  {
  }

  /**
   * `getClosestNodesTo`: every entry while the flat set holds at most `k`
   * of them, else the `BucketSize` entries nearest to `target`.
   */
  function Closest(t: Table, target: Id): (r: seq<Contact>)
    requires Valid(t)
    ensures forall c | c in r :: KeyOf(c.id) in t.entries && t.entries[KeyOf(c.id)] == c
    ensures |t.entries| <= t.k ==> forall key | key in t.entries :: t.entries[key] in r
    ensures |t.entries| > t.k ==> |r| == BucketSize
    ensures forall c, key | c in r && key in t.entries && t.entries[key] !in r ::
      Distance(target, c.id) < Distance(target, t.entries[key].id)
    ensures Ascending(r, target)
  {
    var all := ByDistance(t.entries, target, 0);
    ByDistanceAscending(t.entries, target, 0);
    ByDistanceComplete(t.entries, target, 0);
    if |t.entries| <= t.k then
      all
    else
      assert |all| >= BucketSize by {
        if |all| < BucketSize {
          ShortScan(t.entries, all);
        }
      }
      var r := all[..BucketSize];
      PrefixSplit(all, BucketSize);
      PrefixCloser(all, BucketSize, target);
      r
  }
}

=== FILE: udp_handler.dfy ===
/**
 * src/node/UDPHandler.java: one datagram at a time.  The header is read,
 * the type's `receive*` handler runs, and the sender then enters the
 * routing table unless the message was a PING or a PONG.  A handler that
 * reads past the end of the payload, meets a malformed DATA text or calls
 * into a null `searchID` throws, and the listening thread stops: the node
 * is `halted` and ignores every later datagram.
 */
module UdpHandler {
  import opened Wrappers
  import opened Bytes
  import opened Identifier
  import opened BufferUtil
  import opened NodeIdentifier
  import opened Wire
  import RoutingTable
  import Buckets
  import Ledger
  import DataFrame
  import Node
  import Decimal

  /** The uncaught exception: nothing more is sent or changed. */
  function Halt(o: Node.Out): (r: Node.Out)
    ensures r.s.halted && r.sent == o.sent && r.s == o.s.(halted := true)
  {
    Node.Out(o.s.(halted := true), o.sent)
  }

  /** `getIDFromBuffer` on the payload: its first octet, or the underflow of an empty payload. */
  function ReadId(payload: seq<Byte>): (r: Option<Id>)
    ensures r.Some? <==> |payload| >= IdOctets
    ensures r.Some? ==> r.value == payload[0]
  {
    if |payload| < IdOctets then None else Some(FromBytes(payload[..1]))
  }

  /** One handler's output followed by another's. */
  function Then(first: Node.Out, next: Node.Out): (r: Node.Out)
    ensures r.s == next.s && |r.sent| == |first.sent| + |next.sent|
    ensures r.sent[..|first.sent|] == first.sent && r.sent[|first.sent|..] == next.sent
  {
    Node.Out(next.s, first.sent + next.sent)
  }

  /**
   * `FileIdentifier(1, fid.getBytes())` narrowed to an identifier: the
   * `BitSet` of the text's octets keeps its first octet in the low eight
   * bits, and an empty text gives 0.
   */
  function NarrowKey(fid: string): (k: Id)
    ensures |fid| == 0 ==> k == 0
    ensures 0 < |fid| ==> k == TextBytes(fid)[0]
  {
    if |fid| == 0 then 0 else TextBytes(fid)[0]
  }

  /** The unreliable ACK a handler ends with, under the request's RPC id, unless the node already stopped. */
  function AckAfter(o: Node.Out, from: Contact, rpc: Id): (r: Node.Out)
    requires Node.Valid(o.s)
    ensures Node.Valid(r.s)
    ensures o.s.halted ==> r == o
    ensures !o.s.halted ==> r == Node.Out(o.s, o.sent + [Node.Message(Ack, from, rpc, [], false)])
  {
    Node.SmallFrameFits(Ack, o.s.self.id, rpc, []);
    Then(o, Node.Send(o.s, from, Ack, rpc, [], false, None))
  }

  /** `receiveFindNode`: NODES with the contacts closest to the identifier asked for. */
  function ReceiveFindNode(s: Node.State, from: Contact, rpc: Id, payload: seq<Byte>): (r: Node.Out)
    requires Node.Valid(s) && !s.halted
    ensures Node.Valid(r.s) && Node.SameExceptLedger(s, r.s) && r.s.rpcs == s.rpcs
  {
    match ReadId(payload)
    case None => Halt(Node.Out(s, []))
    case Some(target) => Node.SendClosestNodesTo(s, from, target, rpc, true)
  }

  /** FIND_NODE is answered with the closest contacts other than the asker, under the request's RPC id. */
  lemma FindNodeAnswered(s: Node.State, from: Contact, rpc: Id, payload: seq<Byte>)
    requires Node.Valid(s) && !s.halted
    ensures |payload| == 0 ==> ReceiveFindNode(s, from, rpc, payload) == Node.Out(s.(halted := true), [])
    ensures 0 < |payload| && !ReceiveFindNode(s, from, rpc, payload).s.halted ==>
      var closest := RoutingTable.Closest(s.table, payload[0]);
      && NodesPayload(closest, from).Some?
      && ReceiveFindNode(s, from, rpc, payload).sent == [Node.Message(Nodes, from, rpc, NodesPayload(closest, from).value, false)]
  {
  }

  /**
   * `receiveNodes`: every triple read goes through `updateBuckets`; then
   * the FIND_NODE is resolved.  A short or malformed tail throws after the
   * triples before it were taken in.
   */
  function ReceiveNodes(s: Node.State, from: Contact, rpc: Id, payload: seq<Byte>): (r: Node.Out)
    requires Node.Valid(s) && !s.halted
    ensures Node.Valid(r.s) && r.s.self == s.self
  {
    var triples := DecodeTriples(payload);
    var updated := Node.UpdateAll(s, triples.contacts);
    Resolve(updated, triples.complete, from, rpc)
  }

  /** Every contact a NODES answer carries is in the routing table afterwards; a malformed payload stops the node. */
  lemma NodesLearned(s: Node.State, from: Contact, rpc: Id, payload: seq<Byte>)
    requires Node.Valid(s) && !s.halted
    ensures var r := ReceiveNodes(s, from, rpc, payload);
      && r.s.values == s.values && r.s.data == s.data
      && (!DecodeTriples(payload).complete ==> r.s.halted)
      && (!r.s.halted ==> forall c | c in DecodeTriples(payload).contacts :: RoutingTable.Contains(r.s.table, c))
  {
    var triples := DecodeTriples(payload);
    var updated := Node.UpdateAll(s, triples.contacts);
    if !updated.s.halted {
      assert forall c | c in triples.contacts :: c.id in Buckets.Ids(updated.s.table.root);
    }
  }

  /**
   * `receiveValueNodes`: a reliable FIND_VALUE of `searchID` to every triple
   * read, then the RPC is resolved.  With no search under way the first
   * triple meets a null `searchID` and throws.
   */
  function ReceiveValueNodes(s: Node.State, from: Contact, rpc: Id, payload: seq<Byte>): (r: Node.Out)
    requires Node.Valid(s) && !s.halted
    ensures Node.Valid(r.s) && r.s.self == s.self
  {
    var triples := DecodeTriples(payload);
    if 0 < |triples.contacts| && s.searchId.None? then Halt(Node.Out(s, []))
    else
      var asked := if |triples.contacts| == 0 then Node.Out(s, [])
                   else Node.FindValues(s, triples.contacts, s.searchId.value);
      Resolve(asked, triples.complete, from, rpc)
  }

  /**
   * The end of a handler that reads a list of triples: a malformed tail
   * throws, and otherwise the RPC the list answers is resolved.  Resolving
   * sends nothing.
   */
  function Resolve(o: Node.Out, complete: bool, from: Contact, rpc: Id): (r: Node.Out)
    requires Node.Valid(o.s)
    ensures Node.Valid(r.s) && r.s.self == o.s.self && r.sent == o.sent
    ensures !complete ==> r.s.halted
    ensures r.s.halted <==> o.s.halted || !complete
    ensures !o.s.halted && complete ==> r.s.rpcs == Ledger.ReceivedRpc(o.s.rpcs, from, rpc).rpcs
    ensures Buckets.Ids(o.s.table.root) <= Buckets.Ids(r.s.table.root)
    ensures r.s.values == o.s.values && r.s.data == o.s.data
  {
    if o.s.halted then o
    else if !complete then Halt(o)
    else
      var resolved := Node.ReceivedRpc(o.s, from, rpc);
      assert o.sent + resolved.sent == o.sent;
      Then(o, resolved)
  }

  /** VALUE_NODES with contacts but no search under way stops the node, as does a malformed tail. */
  lemma ValueNodesNeedSearch(s: Node.State, from: Contact, rpc: Id, payload: seq<Byte>)
    requires Node.Valid(s) && !s.halted
    ensures var r := ReceiveValueNodes(s, from, rpc, payload);
      && (0 < |DecodeTriples(payload).contacts| && s.searchId.None? ==> r == Node.Out(s.(halted := true), []))
      && (!DecodeTriples(payload).complete ==> r.s.halted)
  {
  }

  /** VALUE_NODES asks each contact it carries for the key being searched, in order, reliably. */
  lemma ValueNodesAskEach(s: Node.State, from: Contact, rpc: Id, payload: seq<Byte>)
    requires Node.Valid(s) && !s.halted && s.searchId.Some?
    ensures var r := ReceiveValueNodes(s, from, rpc, payload);
      var tos := DecodeTriples(payload).contacts;
      && Node.Delivers(r.sent, Wire.FindValue, Node.ToEach(tos, GetBytes(s.searchId.value)), true)
      && (!r.s.halted ==> |r.sent| == |tos|)
  {
    ValueNodesSendsQueries(s, from, rpc, payload);
  }

  /** What VALUE_NODES sends during a search is exactly what `sendFindValue` to its contacts sends. */
  lemma ValueNodesSendsQueries(s: Node.State, from: Contact, rpc: Id, payload: seq<Byte>)
    requires Node.Valid(s) && !s.halted && s.searchId.Some?
    ensures var r := ReceiveValueNodes(s, from, rpc, payload);
      var asked := Node.FindValues(s, DecodeTriples(payload).contacts, s.searchId.value);
      r.sent == asked.sent && (!r.s.halted ==> !asked.s.halted)
  {
  }

  /**
   * `receiveFoundValue`: the responder, not the owner named in the payload,
   * becomes `lastlookup`, and the FIND_VALUE is resolved.
   */
  function ReceiveFoundValue(s: Node.State, from: Contact, rpc: Id, payload: seq<Byte>): (r: Node.Out)
    requires Node.Valid(s) && !s.halted
    ensures Node.Valid(r.s) && r.s.self == s.self && r.sent == []
  {
    match ReadId(payload)
    case None => Halt(Node.Out(s, []))
    case Some(_) => Node.ReceivedRpc(s.(lastLookup := Some(from)), from, rpc)
  }

  /** FOUND_VALUE names its sender as the node to ask for the data and resolves the FIND_VALUE. */
  lemma FoundValueRemembersResponder(s: Node.State, from: Contact, rpc: Id, payload: seq<Byte>)
    requires Node.Valid(s) && !s.halted
    ensures var r := ReceiveFoundValue(s, from, rpc, payload);
      && (|payload| == 0 ==> r == Node.Out(s.(halted := true), []))
      && (0 < |payload| ==>
            && r.s.lastLookup == Some(from)
            && r.s.rpcs == Ledger.ReceivedRpc(s.rpcs, from, rpc).rpcs
            && r.s.values == s.values && r.s.data == s.data && !r.s.halted)
  {
  }

  /** `receiveStore`: the sender becomes the key's owner, and the STORE is ACKed under its own RPC id. */
  function ReceiveStore(s: Node.State, from: Contact, rpc: Id, payload: seq<Byte>): (r: Node.Out)
    requires Node.Valid(s) && !s.halted
    ensures Node.Valid(r.s) && r.s.self == s.self
  {
    match ReadId(payload)
    case None => Halt(Node.Out(s, []))
    case Some(key) =>
      Node.SmallFrameFits(Ack, s.self.id, rpc, []);
      Node.Send(Node.StorePair(s, key, from.id), from, Ack, rpc, [], false, None)
  }

  /** STORE records the sender as owner, replacing an earlier one, keeps every other key, and ACKs. */
  lemma StoreRecordsSender(s: Node.State, from: Contact, rpc: Id, payload: seq<Byte>)
    requires Node.Valid(s) && !s.halted
    ensures var r := ReceiveStore(s, from, rpc, payload);
      && (|payload| == 0 ==> r == Node.Out(s.(halted := true), []))
      && (0 < |payload| ==>
            && KeyOf(payload[0]) in r.s.values && r.s.values[KeyOf(payload[0])] == from.id
            && (forall key | key in s.values && key != KeyOf(payload[0]) :: key in r.s.values && r.s.values[key] == s.values[key])
            && r.sent == [Node.Message(Ack, from, rpc, [], false)]
            && r.s.table == s.table && r.s.rpcs == s.rpcs && !r.s.halted)
  {
    if 0 < |payload| {
      Node.SmallFrameFits(Ack, s.self.id, rpc, []);
    }
  }

  /** `receiveFindValue`: FOUND_VALUE with the owner's identifier iff `hasKey`, VALUE_NODES otherwise. */
  function ReceiveFindValue(s: Node.State, from: Contact, rpc: Id, payload: seq<Byte>): (r: Node.Out)
    requires Node.Valid(s) && !s.halted
    ensures Node.Valid(r.s) && Node.SameExceptLedger(s, r.s) && r.s.rpcs == s.rpcs
  {
    match ReadId(payload)
    case None => Halt(Node.Out(s, []))
    case Some(key) =>
      if Node.HasKey(s, key) then
        Node.SmallFrameFits(FoundValue, s.self.id, rpc, GetBytes(s.values[KeyOf(key)]));
        Node.Send(s, from, FoundValue, rpc, GetBytes(s.values[KeyOf(key)]), false, None)
      else Node.SendClosestNodesTo(s, from, key, rpc, false)
  }

  /** FIND_VALUE is answered by FOUND_VALUE naming the owner exactly when the key is known, else by VALUE_NODES. */
  lemma FindValueAnswered(s: Node.State, from: Contact, rpc: Id, payload: seq<Byte>)
    requires Node.Valid(s) && !s.halted
    ensures var r := ReceiveFindValue(s, from, rpc, payload);
      && (|payload| == 0 ==> r == Node.Out(s.(halted := true), []))
      && (0 < |payload| && KeyOf(payload[0]) in s.values ==>
            r.sent == [Node.Message(FoundValue, from, rpc, GetBytes(s.values[KeyOf(payload[0])]), false)])
      && (0 < |payload| && KeyOf(payload[0]) !in s.values && !r.s.halted ==>
            var closest := RoutingTable.Closest(s.table, payload[0]);
            && NodesPayload(closest, from).Some?
            && r.sent == [Node.Message(ValueNodes, from, rpc, NodesPayload(closest, from).value, false)])
  {
    if 0 < |payload| && KeyOf(payload[0]) in s.values {
      Node.SmallFrameFits(FoundValue, s.self.id, rpc, GetBytes(s.values[KeyOf(payload[0])]));
    }
  }

  /**
   * A node that took a STORE for `key` from `owner` answers a later
   * FIND_VALUE for the same key with FOUND_VALUE naming that owner.
   */
  lemma StoreThenFindValue(s: Node.State, owner: Contact, asker: Contact, rpc1: Id, rpc2: Id, key: Id)
    requires Node.Valid(s) && !s.halted
    ensures var stored := ReceiveStore(s, owner, rpc1, [key]).s;
      && !stored.halted
      && ReceiveFindValue(stored, asker, rpc2, [key]).sent
         == [Node.Message(FoundValue, asker, rpc2, GetBytes(owner.id), false)]
  {
    StoreRecordsSender(s, owner, rpc1, [key]);
    var stored := ReceiveStore(s, owner, rpc1, [key]).s;
    FindValueAnswered(stored, asker, rpc2, [key]);
  }

  /**
   * `receiveData` on the payload text: the chunk joins its file's buffer
   * (the first content per index wins); once `count` indices are present
   * the file is assembled, `store`d and `storeData`d under its narrowed
   * key, and the buffer dropped.  Every chunk is ACKed.
   */
  function ReceiveData(s: Node.State, from: Contact, rpc: Id, payload: seq<Byte>): (r: Node.Out)
    requires Node.Valid(s) && !s.halted
    ensures Node.Valid(r.s) && r.s.self == s.self
  {
    match DataFrame.Parse(BytesText(payload))
    case None => Halt(Node.Out(s, []))
    case Some(c) => ReceiveChunk(s, from, rpc, c)
  }

  /** `receiveData` once its text parsed: buffer the chunk, store a completed file, ACK. */
  function ReceiveChunk(s: Node.State, from: Contact, rpc: Id, c: DataFrame.Chunk): (r: Node.Out)
    requires Node.Valid(s) && !s.halted
    ensures Node.Valid(r.s) && r.s.self == s.self
  {
    var (chunks, file) := DataFrame.Receive(s.chunks, c);
    var s1 := s.(chunks := chunks);
    if file.None? then AckAfter(Node.Out(s1, []), from, rpc)
    else
      var key := NarrowKey(c.fid);
      var stored := Node.Store(s1, key);
      AckAfter(Node.Out(Node.StoreData(stored.s, key, file.value), stored.sent), from, rpc)
  }

  /** A well-formed DATA frame is always ACKed last; a malformed one stops the node. */
  lemma DataAcked(s: Node.State, from: Contact, rpc: Id, payload: seq<Byte>)
    requires Node.Valid(s) && !s.halted
    ensures var r := ReceiveData(s, from, rpc, payload);
      && (DataFrame.Parse(BytesText(payload)).None? ==> r == Node.Out(s.(halted := true), []))
      && (DataFrame.Parse(BytesText(payload)).Some? && !r.s.halted ==>
            0 < |r.sent| && r.sent[|r.sent| - 1] == Node.Message(Ack, from, rpc, [], false))
  {
    var parsed := DataFrame.Parse(BytesText(payload));
    if parsed.Some? {
      ChunkAcked(s, from, rpc, parsed.value);
    }
  }

  /** Whatever a parsed chunk does, the node ends by ACKing it unless it stopped. */
  lemma ChunkAcked(s: Node.State, from: Contact, rpc: Id, c: DataFrame.Chunk)
    requires Node.Valid(s) && !s.halted
    ensures var r := ReceiveChunk(s, from, rpc, c);
      !r.s.halted ==> 0 < |r.sent| && r.sent[|r.sent| - 1] == Node.Message(Ack, from, rpc, [], false)
  {
    var received := DataFrame.Receive(s.chunks, c);
    var s1 := s.(chunks := received.0);
    var ack := Node.Message(Ack, from, rpc, [], false);
    if received.1.None? {
      assert ReceiveChunk(s, from, rpc, c) == AckAfter(Node.Out(s1, []), from, rpc);
    } else {
      var key := NarrowKey(c.fid);
      var stored := Node.Store(s1, key);
      var o := Node.Out(Node.StoreData(stored.s, key, received.1.value), stored.sent);
      assert ReceiveChunk(s, from, rpc, c) == AckAfter(o, from, rpc);
      if !o.s.halted {
        assert AckAfter(o, from, rpc).sent == stored.sent + [ack];
      }
    }
  }


  /**
   * A DATA frame is buffered until its file is complete; the complete file
   * is stored under its key with this node as owner, and its buffer dropped.
   */
  lemma DataStored(s: Node.State, from: Contact, rpc: Id, payload: seq<Byte>)
    requires Node.Valid(s) && !s.halted
    requires DataFrame.Parse(BytesText(payload)).Some?
    ensures var r := ReceiveData(s, from, rpc, payload);
      var c := DataFrame.Parse(BytesText(payload)).value;
      var received := DataFrame.Receive(s.chunks, c);
      && r.s.chunks == received.0
      && (received.1.None? ==>
            && r.s.data == s.data && r.s.values == s.values
            && r.sent == [Node.Message(Ack, from, rpc, [], false)])
      && (received.1.Some? ==>
            var key := KeyOf(NarrowKey(c.fid));
            && c.fid !in r.s.chunks
            && key in r.s.data && r.s.data[key] == received.1.value
            && key in r.s.values && r.s.values[key] == s.self.id)
  {
    var c := DataFrame.Parse(BytesText(payload)).value;
    assert ReceiveData(s, from, rpc, payload) == ReceiveChunk(s, from, rpc, c);
    ChunkStored(s, from, rpc, c);
  }

  /** A parsed chunk: buffered, or completing its file, which is then stored with this node as owner. */
  lemma ChunkStored(s: Node.State, from: Contact, rpc: Id, c: DataFrame.Chunk)
    requires Node.Valid(s) && !s.halted
    ensures var r := ReceiveChunk(s, from, rpc, c);
      var received := DataFrame.Receive(s.chunks, c);
      && r.s.chunks == received.0
      && (received.1.None? ==>
            && r.s.data == s.data && r.s.values == s.values
            && r.sent == [Node.Message(Ack, from, rpc, [], false)])
      && (received.1.Some? ==>
            var key := KeyOf(NarrowKey(c.fid));
            && c.fid !in r.s.chunks
            && key in r.s.data && r.s.data[key] == received.1.value
            && key in r.s.values && r.s.values[key] == s.self.id)
  {
    var received := DataFrame.Receive(s.chunks, c);
    var s1 := s.(chunks := received.0);
    if received.1.None? {
      assert ReceiveChunk(s, from, rpc, c) == AckAfter(Node.Out(s1, []), from, rpc);
    } else {
      var key := NarrowKey(c.fid);
      var stored := Node.Store(s1, key);
      var o := Node.Out(Node.StoreData(stored.s, key, received.1.value), stored.sent);
      assert ReceiveChunk(s, from, rpc, c) == AckAfter(o, from, rpc);
    }
  }

  /**
   * The text in front of the file name when `receiveData` splits the whole
   * datagram: the DATA type octet, then the sender's and the RPC id's
   * octets (none for an identifier 0).
   */
  function HeaderText(sender: Id, rpc: Id): (h: string)
    ensures |h| == 1 + |GetBytes(sender)| + |GetBytes(rpc)|
    ensures h[0] as int == Code(Data) as int
    ensures DataFrame.Dash in h <==> sender as int == 45 || rpc as int == 45
  {
    var h := BytesText([Code(Data)] + GetBytes(sender) + GetBytes(rpc));
    assert sender as int == 45 ==> h[1] == DataFrame.Dash;
    assert rpc as int == 45 ==> h[|h| - 1] == DataFrame.Dash;
    h
  }

  /** The frame `sendData` builds for one chunk text. */
  function ChunkFrame(sender: Id, rpc: Id, fid: string, count: nat, index: nat, content: string): seq<Byte> {
    EncodeFrame(Data, sender, rpc, TextBytes(DataFrame.Format(fid, count, index, content)))
  }

  /**
   * `receiveData` as written: `new String(buffer.array())` is split, so the
   * fields come from the whole datagram's text, header octets first.  The
   * chunk is then handled like any other; a text that does not split into
   * a chunk stops the node.
   */
  function ReceiveDataAsWritten(s: Node.State, from: Contact, rpc: Id, datagram: seq<Byte>): (r: Node.Out)
    requires Node.Valid(s) && !s.halted
    ensures Node.Valid(r.s) && r.s.self == s.self
    ensures DataFrame.Parse(BytesText(datagram)).None? ==> r == Node.Out(s.(halted := true), [])
    ensures DataFrame.Parse(BytesText(datagram)).Some? ==>
      r.s.chunks == DataFrame.Receive(s.chunks, DataFrame.Parse(BytesText(datagram)).value).0
  {
    match DataFrame.Parse(BytesText(datagram))
    case None => Halt(Node.Out(s, []))
    case Some(c) =>
      ChunkStored(s, from, rpc, c);
      ReceiveChunk(s, from, rpc, c)
  }

  lemma BytesTextAppend(a: seq<Byte>, b: seq<Byte>)
    ensures BytesText(a + b) == BytesText(a) + BytesText(b)
  {
    assert forall i | 0 <= i < |a + b| :: BytesText(a + b)[i] == (BytesText(a) + BytesText(b))[i];
  }

  lemma DigitsLatin1(s: string)
    requires Decimal.AllDigits(s)
    ensures IsLatin1(s)
  {
    assert forall i | 0 <= i < |s| :: Decimal.IsDigit(s[i]);
  }

  lemma FormatLatin1(fid: string, count: nat, index: nat, content: string)
    requires IsLatin1(fid) && IsLatin1(content)
    ensures IsLatin1(DataFrame.Format(fid, count, index, content))
  {
    var a := Decimal.ToDecimal(count);
    var b := Decimal.ToDecimal(index);
    DigitsLatin1(a);
    DigitsLatin1(b);
    var t := DataFrame.Format(fid, count, index, content);
    assert t == fid + [DataFrame.Dash] + a + [DataFrame.Dash] + b + [DataFrame.Dash] + content;
    forall i | 0 <= i < |t| ensures t[i] as int < 256 {
      if i < |fid| {
        assert t[i] == fid[i];
      } else if i == |fid| || i == |fid| + 1 + |a| || i == |fid| + 2 + |a| + |b| {
      } else if i < |fid| + 1 + |a| {
        assert t[i] == a[i - |fid| - 1];
      } else if i < |fid| + 2 + |a| + |b| {
        assert t[i] == b[i - |fid| - 2 - |a|];
      } else {
        assert t[i] == content[i - |fid| - 3 - |a| - |b|];
      }
    }
  }

  /** The whole datagram's text is the header text followed by the chunk text. */
  lemma ChunkFrameText(sender: Id, rpc: Id, fid: string, count: nat, index: nat, content: string)
    requires IsLatin1(fid) && IsLatin1(content)
    ensures BytesText(ChunkFrame(sender, rpc, fid, count, index, content))
      == HeaderText(sender, rpc) + DataFrame.Format(fid, count, index, content)
  {
    var text := DataFrame.Format(fid, count, index, content);
    FormatLatin1(fid, count, index, content);
    TextRoundTrip(text);
    BytesTextAppend([Code(Data)] + GetBytes(sender) + GetBytes(rpc), TextBytes(text));
  }

  /**
   * As written, the frame of a well-formed chunk reads back with the header
   * text glued to the front of the file name, as long as neither identifier
   * is the octet of a dash.
   */
  lemma AsWrittenParse(sender: Id, rpc: Id, fid: string, count: nat, index: nat, content: string)
    requires count <= Decimal.MaxInt && index <= Decimal.MaxInt
    requires IsLatin1(fid) && IsLatin1(content)
    requires DataFrame.Dash !in fid && DataFrame.Dash !in content && content != ""
    requires sender as int != 45 && rpc as int != 45
    ensures DataFrame.Parse(BytesText(ChunkFrame(sender, rpc, fid, count, index, content)))
      == Some(DataFrame.Chunk(HeaderText(sender, rpc) + fid, count, index, content))
  {
    var h := HeaderText(sender, rpc);
    ChunkFrameText(sender, rpc, fid, count, index, content);
    DataFrame.FormatPrefix(h, fid, count, index, content);
    assert DataFrame.Dash !in h + fid;
    DataFrame.FormatParses(h + fid, count, index, content);
  }

  /**
   * As written, an RPC id that is the octet of a dash shifts every field:
   * the name is read as the count, the count as the index and the index as
   * the content.
   */
  lemma AsWrittenDashRpcShifts(sender: Id, n: nat, count: nat, index: nat, content: string)
    requires n <= Decimal.MaxInt && count <= Decimal.MaxInt && index <= Decimal.MaxInt
    requires IsLatin1(content) && DataFrame.Dash !in content && content != ""
    requires sender as int != 45
    ensures DataFrame.Parse(BytesText(ChunkFrame(sender, 45, Decimal.ToDecimal(n), count, index, content)))
      == Some(DataFrame.Chunk(HeaderText(sender, 0), n, count, Decimal.ToDecimal(index)))
  {
    var fid := Decimal.ToDecimal(n);
    DigitsLatin1(fid);
    ChunkFrameText(sender, 45, fid, count, index, content);
    var h0 := HeaderText(sender, 0);
    DashHeader(sender);
    DataFrame.DigitsHaveNoDash(fid);
    Decimal.ParseIntOfDecimal(n);
    DataFrame.ShiftedParse(h0, fid, count, index, content);
  }

  /** An RPC id 45 adds one dash octet to the header text of identifier 0. */
  lemma DashHeader(sender: Id)
    ensures HeaderText(sender, 45) == HeaderText(sender, 0) + [DataFrame.Dash]
  {
    var b := [Code(Data)] + GetBytes(sender);
    assert [Code(Data)] + GetBytes(sender) + GetBytes(45) == b + [45];
    assert [Code(Data)] + GetBytes(sender) + GetBytes(0) == b;
    BytesTextAppend(b, [45]);
  }

  lemma HeaderTextInjective(sender: Id, rpc0: Id, rpc1: Id)
    requires HeaderText(sender, rpc0) == HeaderText(sender, rpc1)
    ensures rpc0 == rpc1
  {
    var b0 := [Code(Data)] + GetBytes(sender) + GetBytes(rpc0);
    var b1 := [Code(Data)] + GetBytes(sender) + GetBytes(rpc1);
    BytesTextInjective(b0, b1);
    var k := 1 + |GetBytes(sender)|;
    assert GetBytes(rpc0) == b0[k..] == b1[k..] == GetBytes(rpc1);
  }

  /**
   * As written, two chunks of one file sent under different RPC ids (as
   * `sendData` sends them, `Node.SendBatch`) open two buffers, each holding
   * one chunk of two, so the file is never completed.
   */
  lemma AsWrittenChunksNeverMeet(sender: Id, rpc0: Id, rpc1: Id, fid: string, content0: string, content1: string)
    requires rpc0 != rpc1
    requires IsLatin1(fid) && IsLatin1(content0) && IsLatin1(content1)
    requires DataFrame.Dash !in fid && DataFrame.Dash !in content0 && DataFrame.Dash !in content1
    requires content0 != "" && content1 != ""
    requires sender as int != 45 && rpc0 as int != 45 && rpc1 as int != 45
    ensures var p0 := DataFrame.Parse(BytesText(ChunkFrame(sender, rpc0, fid, 2, 0, content0)));
      var p1 := DataFrame.Parse(BytesText(ChunkFrame(sender, rpc1, fid, 2, 1, content1)));
      && p0.Some? && p1.Some? && p0.value.fid != p1.value.fid
      && var first := DataFrame.Receive(map[], p0.value);
         && first.1.None?
         && DataFrame.Receive(first.0, p1.value).1.None?
  {
    AsWrittenParse(sender, rpc0, fid, 2, 0, content0);
    AsWrittenParse(sender, rpc1, fid, 2, 1, content1);
    var h0 := HeaderText(sender, rpc0);
    var h1 := HeaderText(sender, rpc1);
    if h0 + fid == h1 + fid {
      assert h0 == (h0 + fid)[..|h0|] == (h1 + fid)[..|h1|] == h1;
      HeaderTextInjective(sender, rpc0, rpc1);
    }
    DataFrame.ReceiveHalvesApart(h0 + fid, h1 + fid, content0, content1);
  }

  /**
   * Corrected: parsed from the payload alone, the same two chunks share
   * the file's buffer and the second one completes the file.
   */
  lemma TwoChunksReassemble(fid: string, content0: string, content1: string)
    requires IsLatin1(fid) && IsLatin1(content0) && IsLatin1(content1)
    requires DataFrame.Dash !in fid && DataFrame.Dash !in content0 && DataFrame.Dash !in content1
    requires content0 != "" && content1 != ""
    ensures var p0 := DataFrame.Parse(BytesText(TextBytes(DataFrame.Format(fid, 2, 0, content0))));
      var p1 := DataFrame.Parse(BytesText(TextBytes(DataFrame.Format(fid, 2, 1, content1))));
      && p0.Some? && p1.Some? && p0.value.fid == p1.value.fid == fid
      && var first := DataFrame.Receive(map[], p0.value);
         && first.1.None?
         && DataFrame.Receive(first.0, p1.value).1 == Some(content0 + content1)
  {
    FormatLatin1(fid, 2, 0, content0);
    FormatLatin1(fid, 2, 1, content1);
    TextRoundTrip(DataFrame.Format(fid, 2, 0, content0));
    TextRoundTrip(DataFrame.Format(fid, 2, 1, content1));
    DataFrame.FormatParses(fid, 2, 0, content0);
    DataFrame.FormatParses(fid, 2, 1, content1);
    DataFrame.ReceiveBothHalves(fid, content0, content1);
  }

  /**
   * As written, the split text opens with the DATA type octet, so the file
   * name always starts with it and narrows to key 6.
   */
  lemma AsWrittenNameStartsWithType(datagram: seq<Byte>)
    requires 0 < |datagram| && datagram[0] == Code(Data)
    requires DataFrame.Parse(BytesText(datagram)).Some?
    ensures NarrowKey(DataFrame.Parse(BytesText(datagram)).value.fid) == Code(Data)
  {
    var text := BytesText(datagram);
    DataFrame.FirstPieceStart(text);
    assert DataFrame.Parse(text).value.fid[0] == text[0];
  }

  /**
   * As written, every file `receiveData` completes is stored under key 6,
   * with this node as its owner, whatever the file's name.
   */
  lemma AsWrittenKeyIsTypeOctet(s: Node.State, from: Contact, rpc: Id, datagram: seq<Byte>)
    requires Node.Valid(s) && !s.halted
    requires 0 < |datagram| && datagram[0] == Code(Data)
    requires DataFrame.Parse(BytesText(datagram)).Some?
    requires DataFrame.Receive(s.chunks, DataFrame.Parse(BytesText(datagram)).value).1.Some?
    ensures var r := ReceiveDataAsWritten(s, from, rpc, datagram);
      && KeyOf(Code(Data)) in r.s.data && KeyOf(Code(Data)) in r.s.values
      && r.s.values[KeyOf(Code(Data))] == s.self.id
  {
    var c := DataFrame.Parse(BytesText(datagram)).value;
    AsWrittenNameStartsWithType(datagram);
    assert ReceiveDataAsWritten(s, from, rpc, datagram) == ReceiveChunk(s, from, rpc, c);
    ChunkStored(s, from, rpc, c);
  }

  /** `receiveDataReq`: the file's chunks go back to the requester, then an ACK. */
  function ReceiveDataReq(s: Node.State, from: Contact, rpc: Id, payload: seq<Byte>): (r: Node.Out)
    requires Node.Valid(s) && !s.halted
    ensures Node.Valid(r.s) && Node.SameExceptLedger(s, r.s)
  {
    match ReadId(payload)
    case None => Halt(Node.Out(s, []))
    case Some(key) =>
      AckAfter(Node.SendData(s, from, key), from, rpc)
  }

  /** DATA_REQ for a file not stored here is only ACKed; an empty payload stops the node. */
  lemma DataReqUnknown(s: Node.State, from: Contact, rpc: Id, payload: seq<Byte>)
    requires Node.Valid(s) && !s.halted
    ensures var r := ReceiveDataReq(s, from, rpc, payload);
      && (|payload| == 0 ==> r == Node.Out(s.(halted := true), []))
      && (0 < |payload| && KeyOf(payload[0]) !in s.data ==>
            r == Node.Out(s, [Node.Message(Ack, from, rpc, [], false)]))
  {
  }

  /** DATA_REQ sends one DATA frame per whole chunk of the file, when it is stored here, and then an ACK. */
  lemma DataReqAnswered(s: Node.State, from: Contact, rpc: Id, payload: seq<Byte>)
    requires Node.Valid(s) && !s.halted && 0 < |payload|
    ensures var r := ReceiveDataReq(s, from, rpc, payload);
      !r.s.halted ==>
        && 0 < |r.sent|
        && r.sent[|r.sent| - 1] == Node.Message(Ack, from, rpc, [], false)
        && (KeyOf(payload[0]) in s.data ==> |r.sent| == DataFrame.ChunkCount(s.data[KeyOf(payload[0])]) + 1)
  {
    DataReqShape(s, from, rpc, payload);
    var chunks := Node.SendData(s, from, payload[0]);
    AckIsLast(chunks.sent, Node.Message(Ack, from, rpc, [], false));
  }

  /** DATA_REQ sends what `sendData` sends, then the ACK. */
  lemma DataReqShape(s: Node.State, from: Contact, rpc: Id, payload: seq<Byte>)
    requires Node.Valid(s) && !s.halted && 0 < |payload|
    ensures var r := ReceiveDataReq(s, from, rpc, payload);
      var chunks := Node.SendData(s, from, payload[0]);
      !r.s.halted ==> !chunks.s.halted && r.sent == chunks.sent + [Node.Message(Ack, from, rpc, [], false)]
  {
    assert ReceiveDataReq(s, from, rpc, payload) == AckAfter(Node.SendData(s, from, payload[0]), from, rpc);
  }

  lemma AckIsLast(sent: seq<Node.Outbound>, ack: Node.Outbound)
    ensures 0 < |sent + [ack]| && (sent + [ack])[|sent + [ack]| - 1] == ack
  {
  }

  /** `receivePing`: a PONG under the PING's RPC id, and nothing else. */
  function ReceivePing(s: Node.State, from: Contact, rpc: Id): (r: Node.Out)
    requires Node.Valid(s) && !s.halted
    ensures r == Node.Out(s, [Node.Message(Pong, from, rpc, [], false)])
  {
    Node.SmallFrameFits(Pong, s.self.id, rpc, []);
    Node.Send(s, from, Pong, rpc, [], false, None)
  }

  /** The `switch` of `run`. PONG and ACK only resolve their RPC; LEAVE and unknown types do nothing. */
  function Dispatch(s: Node.State, from: Contact, h: Header): (r: Node.Out)
    requires Node.Valid(s) && !s.halted
    ensures Node.Valid(r.s) && r.s.self == s.self
  {
    match h.kind
    case FindNode => ReceiveFindNode(s, from, h.rpc, h.payload)
    case Nodes => ReceiveNodes(s, from, h.rpc, h.payload)
    case Ping => ReceivePing(s, from, h.rpc)
    case Pong => Node.ReceivedRpc(s, from, h.rpc)
    case Leave => Node.Out(s, [])
    case FindValue => ReceiveFindValue(s, from, h.rpc, h.payload)
    case ValueNodes => ReceiveValueNodes(s, from, h.rpc, h.payload)
    case FoundValue => ReceiveFoundValue(s, from, h.rpc, h.payload)
    case Store => ReceiveStore(s, from, h.rpc, h.payload)
    case Data => ReceiveData(s, from, h.rpc, h.payload)
    case DataReq => ReceiveDataReq(s, from, h.rpc, h.payload)
    case Ack => Node.ReceivedRpc(s, from, h.rpc)
    case Unknown(_) => Node.Out(s, [])
  }

  /**
   * One pass of `run`'s loop with a datagram from `addr`.  An empty
   * datagram is indistinguishable from nothing received.  After the
   * handler, the sender (its identifier with the datagram's address) goes
   * through `updateBuckets` unless the type was PING or PONG.
   */
  function Receive(s: Node.State, addr: Addr, datagram: seq<Byte>): (r: Node.Out)
    requires Node.Valid(s)
    ensures Node.Valid(r.s) && r.s.self == s.self
    ensures s.halted || |datagram| == 0 ==> r == Node.Out(s, [])
    ensures !s.halted && 0 < |datagram| < 1 + 2 * IdOctets ==> r == Node.Out(s.(halted := true), [])
  {
    if s.halted || |datagram| == 0 then Node.Out(s, [])
    else
      match DecodeFrame(datagram)
      case None => Halt(Node.Out(s, []))
      case Some(h) =>
        var sender := Contact(h.sender, addr);
        var handled := Dispatch(s, sender, h);
        if UpdatesRoutingTable(h.kind) then Then(handled, Node.UpdateBuckets(handled.s, sender))
        else handled
  }

  /**
   * The `updateRT` rule: after any type but PING and PONG the sender is in
   * the routing table (unless the node stopped), and a PING is answered
   * with a PONG and changes nothing.
   */
  lemma SenderLearned(s: Node.State, addr: Addr, datagram: seq<Byte>)
    requires Node.Valid(s) && !s.halted && 1 + 2 * IdOctets <= |datagram|
    ensures var r := Receive(s, addr, datagram);
      var h := DecodeFrame(datagram).value;
      var sender := Contact(h.sender, addr);
      && (UpdatesRoutingTable(h.kind) && !r.s.halted ==> RoutingTable.Contains(r.s.table, sender))
      && (h.kind == Ping ==> r == Node.Out(s, [Node.Message(Pong, sender, h.rpc, [], false)]))
  {
  }
}

=== FILE: wire.dfy ===
/**
 * Message framing: the type codes of src/message/MessageType.java, the
 * frame `Node.send` builds and the header `UDPHandler.run` reads back, and
 * the NODES / VALUE_NODES payload of `Node.sendClosestNodesTo`.
 */
module Wire {
  import opened Wrappers
  import opened Bytes
  import opened Identifier
  import opened BufferUtil
  import opened NodeIdentifier

  /** `BUFFER_SIZE` of the sender and `BUF_SIZE` of the receiver. */
  const BufferSize: nat := 512

  datatype MsgType =
    | FindNode | Nodes | Leave | FindValue | Store | Data | DataReq
    | ValueNodes | FoundValue | Ack | Ping | Pong
    | Unknown(code: Byte)

  function Code(t: MsgType): Byte {
    match t
    case FindNode => 0
    case Nodes => 1
    case Leave => 2
    case FindValue => 4
    case Store => 5
    case Data => 6
    case DataReq => 7
    case ValueNodes => 8
    case FoundValue => 9
    case Ack => 10
    case Ping => 11
    case Pong => 12
    case Unknown(b) => b
  }

  /** The `switch` of `UDPHandler.run`: every other octet falls to `default`. */
  function Kind(b: Byte): (t: MsgType)
    ensures Code(t) == b
  {
    if b == 0 then FindNode
    else if b == 1 then Nodes
    else if b == 2 then Leave
    else if b == 4 then FindValue
    else if b == 5 then Store
    else if b == 6 then Data
    else if b == 7 then DataReq
    else if b == 8 then ValueNodes
    else if b == 9 then FoundValue
    else if b == 10 then Ack
    else if b == 11 then Ping
    else if b == 12 then Pong
    else Unknown(b)
  }

  /** The named types have distinct codes: reading a code back gives the type. */
  lemma KindOfCode(t: MsgType)
    requires !t.Unknown?
    ensures Kind(Code(t)) == t
  {
  }

  /** The routing table learns the sender after every type except PING and PONG. */
  predicate UpdatesRoutingTable(t: MsgType) {
    t != Ping && t != Pong
  }

  /** `[type][own id bytes][rpc id bytes][payload]`. */
  function EncodeFrame(t: MsgType, sender: Id, rpc: Id, payload: seq<Byte>): (f: seq<Byte>)
    ensures |f| == 1 + |GetBytes(sender)| + |GetBytes(rpc)| + |payload|
  {
    [Code(t)] + GetBytes(sender) + GetBytes(rpc) + payload
  }

  /**
   * `Node.send` up to the channel write: put everything into a fresh
   * 512-byte buffer and flip it.  `None` is the `BufferOverflowException`.
   */
  function BuildFrame(t: MsgType, sender: Id, rpc: Id, payload: seq<Byte>): (r: Option<Buffer>)
    ensures r.Some? <==> |EncodeFrame(t, sender, rpc, payload)| <= BufferSize
    ensures r.Some? ==> r.value.Valid() && r.value.Capacity() == BufferSize
    ensures r.Some? ==> r.value.Remaining() == EncodeFrame(t, sender, rpc, payload)
    ensures r.Some? ==> r.value.data[..r.value.limit] == EncodeFrame(t, sender, rpc, payload)
  {
    var b0 := Allocate(BufferSize);
    var b1 := Put(b0, [Code(t)]).value;
    var b2 := Put(b1, GetBytes(sender)).value;
    var b3 := Put(b2, GetBytes(rpc)).value;
    var b4 :- Put(b3, payload);
    var f := EncodeFrame(t, sender, rpc, payload);
    assert b4.data[..b4.position] == f by {
      var n1 := 1;
      var n2 := n1 + |GetBytes(sender)|;
      var n3 := n2 + |GetBytes(rpc)|;
      assert b4.data[..n3] == b3.data[..n3];
      assert b3.data[..n2] == b2.data[..n2];
      assert b2.data[..n1] == b1.data[..n1];
      assert b4.data[..b4.position] == b4.data[..n3] + b4.data[n3..b4.position];
      assert b3.data[..n3] == b3.data[..n2] + b3.data[n2..n3];
      assert b2.data[..n2] == b2.data[..n1] + b2.data[n1..n2];
    }
    Some(Flip(b4))
  }

  datatype Header = Header(kind: MsgType, sender: Id, rpc: Id, payload: seq<Byte>)

  /**
   * `UDPHandler.run` on one datagram (at most `BUF_SIZE` octets reach the
   * buffer): the type octet, then `ID_BITS / 8` octets each for the sender
   * and the RPC identifier.  `None` is the `BufferUnderflowException` of a
   * datagram shorter than that.
   */
  function DecodeFrame(datagram: seq<Byte>): (r: Option<Header>)
    ensures r.Some? <==> |datagram| >= 1 + 2 * IdOctets
    ensures r.Some? ==> Code(r.value.kind) == datagram[0] && r.value.sender == datagram[1] && r.value.rpc == datagram[2]
  {
    var d := if |datagram| > BufferSize then datagram[..BufferSize] else datagram;
    if |d| < 1 + 2 * IdOctets then None
    else Some(Header(Kind(d[0]), FromBytes(d[1..2]), FromBytes(d[2..3]), d[3..]))
  }

  /** Reading the header inverts `send` for non-zero identifiers. */
  lemma FrameRoundTrip(t: MsgType, sender: Id, rpc: Id, payload: seq<Byte>)
    requires !t.Unknown? && sender != 0 && rpc != 0
    requires |EncodeFrame(t, sender, rpc, payload)| <= BufferSize
    ensures DecodeFrame(EncodeFrame(t, sender, rpc, payload)) == Some(Header(t, sender, rpc, payload))
  {
    var f := EncodeFrame(t, sender, rpc, payload);
    assert f == [Code(t), sender, rpc] + payload;
    KindOfCode(t);
  }

  /**
   * Identifier 0 has an empty encoding, so a sender 0 shifts the header: the
   * receiver takes the RPC identifier for the sender and the first payload
   * octet for the RPC identifier.
   */
  lemma ZeroSenderShiftsHeader(t: MsgType, rpc: Id, payload: seq<Byte>)
    requires rpc != 0 && |payload| >= 1 && 3 + |payload| <= BufferSize
    ensures DecodeFrame(EncodeFrame(t, 0, rpc, payload)).Some?
    ensures DecodeFrame(EncodeFrame(t, 0, rpc, payload)).value.sender == rpc
    ensures DecodeFrame(EncodeFrame(t, 0, rpc, payload)).value.rpc == payload[0]
  {
    assert EncodeFrame(t, 0, rpc, payload) == [Code(t), rpc] + payload;
  }

  /**
   * `sendClosestNodesTo`'s payload: a buffer sized for every close contact,
   * filled with the triples of those other than the receiver, so each
   * skipped contact leaves nine zero octets at the end.  `None` is an
   * address octet `addrToBytes` rejects.
   */
  function NodesPayload(closest: seq<Contact>, receiver: Contact): (r: Option<seq<Byte>>)
    ensures r.Some? ==> |r.value| == |closest| * TripleSize
  {
    var sent := Others(closest, receiver);
    var triples :- EncodeTriples(sent);
    Some(triples + Zeros((|closest| - |sent|) * TripleSize))
  }

  /** The contacts of `closest` that are not the receiver (identifier equality). */
  function Others(closest: seq<Contact>, receiver: Contact): (r: seq<Contact>)
    ensures |r| <= |closest|
    ensures forall c | c in r :: c in closest && c.id != receiver.id
    ensures forall c | c in closest && c.id != receiver.id :: c in r
  {
    if |closest| == 0 then []
    else if closest[0].id == receiver.id then Others(closest[1..], receiver)
    else [closest[0]] + Others(closest[1..], receiver)
  }

  /** The receiver reads back the triples sent, then one zero triple per skipped contact. */
  lemma NodesPayloadDecodes(closest: seq<Contact>, receiver: Contact)
    requires NodesPayload(closest, receiver).Some?
    ensures DecodeTriples(NodesPayload(closest, receiver).value).complete
    ensures DecodeTriples(NodesPayload(closest, receiver).value).contacts
      == Others(closest, receiver) + seq(|closest| - |Others(closest, receiver)|, _ => Contact(0, Addr([0, 0, 0, 0], 0)))
  {
    var sent := Others(closest, receiver);
    TriplesRoundTrip(sent);
    var n := |closest| - |sent|;
    DecodeZeros(n);
    DecodeTriplesConcat(EncodeTriples(sent).value, Zeros(n * TripleSize));
  }

  lemma {:induction false} DecodeZeros(n: nat)
    ensures DecodeTriples(Zeros(n * TripleSize)) == Triples(seq(n, _ => Contact(0, Addr([0, 0, 0, 0], 0))), true)
  {
    if n > 0 {
      var z := Zeros(n * TripleSize);
      ZeroTriple();
      assert z[..TripleSize] == Zeros(TripleSize);
      assert z[TripleSize..] == Zeros((n - 1) * TripleSize);
      DecodeZeros(n - 1);
      assert seq(n, _ => Contact(0, Addr([0, 0, 0, 0], 0)))
        == [Contact(0, Addr([0, 0, 0, 0], 0))] + seq(n - 1, _ => Contact(0, Addr([0, 0, 0, 0], 0)));
    }
  }

  /** Decoding a whole number of triples and then more octets decodes both in turn. */
  lemma {:induction false} DecodeTriplesConcat(a: seq<Byte>, b: seq<Byte>)
    requires DecodeTriples(a).complete
    ensures DecodeTriples(a + b).contacts == DecodeTriples(a).contacts + DecodeTriples(b).contacts
    ensures DecodeTriples(a + b).complete == DecodeTriples(b).complete
    decreases |a|
  {
    if |a| == 0 {
      assert a + b == b;
    } else {
      assert |a| >= TripleSize && DecodeTriple(a[..TripleSize]).Some?;
      SplitAfterPrefix(a, b, TripleSize);
      DecodeTriplesCons(a);
      DecodeTriplesCons(a + b);
      DecodeTriplesConcat(a[TripleSize..], b);
      ConsAssoc(DecodeTriple(a[..TripleSize]).value, DecodeTriples(a[TripleSize..]).contacts, DecodeTriples(b).contacts);
    }
  }

  lemma ConsAssoc(c: Contact, xs: seq<Contact>, ys: seq<Contact>)
    ensures [c] + (xs + ys) == ([c] + xs) + ys
  {
  }

  /** A leading well-formed triple is the first contact, and the rest is decoded after it. */
  lemma DecodeTriplesCons(bs: seq<Byte>)
    requires |bs| >= TripleSize && DecodeTriple(bs[..TripleSize]).Some?
    ensures DecodeTriples(bs).contacts == [DecodeTriple(bs[..TripleSize]).value] + DecodeTriples(bs[TripleSize..]).contacts
    ensures DecodeTriples(bs).complete == DecodeTriples(bs[TripleSize..]).complete
  {
  }

  lemma SplitAfterPrefix(a: seq<Byte>, b: seq<Byte>, n: nat)
    requires n <= |a|
    ensures (a + b)[..n] == a[..n] && (a + b)[n..] == a[n..] + b
  {
  }
}

=== FILE: wrappers.dfy ===
/** Failure-compatible wrapper used wherever the Java code returns null or throws. */
module Wrappers {

  /** `None` stands for a Java `null` or for an operation that throws. */
  datatype Option<+T> = None | Some(value: T) {

    predicate IsFailure() {
      None?
    }

    function PropagateFailure<U>(): Option<U>
      requires None?
    {
      None
    }

    function Extract(): T
      requires Some?
    {
      value
    }
  }
}
